=== FILE: README.md ===
# Agentic-AI core, modelled in Dafny

This project models the statable core of the Rust repository
`letv1nnn/Agentic-AI`, a collection of small crates. It has two groups.

The agent and tool orchestration pieces:
- `resolve_args` substitutes `${name}` placeholders in a JSON `Value` tree.
- Plan execution comes in three versions:
  - the local planner's, which carries on past a missing tool;
  - the chaining crate's, which stores whole `ToolOutput`s;
  - the tool-chaining crate's, which fails fast.
- The keyword planner and the planning agent.
- Tool registries and the two `LengthTool`s.
- The task executor's outcome classification, the `ToolAgent` and `retry_http`.
- `safe_exec`, the `list_directory` tool and the command alias tables.
- The in-memory store: `write`, `read_by_key`, `read_recent` and `search_by_tag`.
- The `drive_behavior` state machine and the `agent_main` message fold.
- The echo, planning and role-shifting agents, and `run_agent`.

The self-contained utilities:
- the `scanner` lexer;
- `grep`'s line searches;
- `sed`'s pattern parser and line rewriter;
- `port_sniffer`'s argument parser and port stepping;
- the LocalFileManager's routing rules and file finders;
- the chat server's 32-byte message framing and client retention.

Each source file or component is one module: `Resolver`, `Plans`, `Registry`,
`TaskExec`, `SystemCommands`, `Memory`, `EventLoop`, `Messaging`, `Agents`,
`FileManager`, `Scanner`, `Grep`, `Sed`, `PortSniffer` and `ChatFrame`. The
shared modules are:
- `Base`: Rust's `Option` and `Result`.
- `Json`: serde_json's `Value`, the `ToolOutput` record, and serde's decoding
  of a one-field struct.
- `Text`: the parts of Rust's `str` API that the code calls.
- `Seqs`: order-preserving filtering and the subsequence relation.
- `Process`: what a child process reports.

The model works as follows:
- Operations are pure functions over immutable datatypes.
- Every effect the code has becomes a parameter. That covers what a process
  run, an HTTP request, a filesystem query or the clock returns.
- A panic of the source (an `unwrap` on nothing, an index past the end) is a
  result value of its own. It is not excluded by a precondition.
- Every loop in the code is either a method with loop invariants or a fold
  over a sequence. Examples are `retry_http`, `read_recent`, `search_by_tag`,
  `execute_plan` and the scanner's `main` loop.

## Model

| member | source | states |
|---|---|---|
| Resolver.PlaceholderName | autonomous_workflow_execution_and_planning/src/local_planner.rs:75 | a name is recognised only in a string that is exactly `${` + name + `}` |
| Resolver.PlaceholderNameOf | autonomous_workflow_execution_and_planning/src/local_planner.rs:75 | every `${name}` string is recognised as `name`, whatever `name` holds, `}` included |
| Resolver.ResolveArgs | autonomous_workflow_execution_and_planning/src/local_planner.rs:72-89 | a placeholder becomes the stored output, keeping its JSON type, or null when none is stored. Other strings, nulls, booleans and numbers are copied. Arrays keep their length and order, objects keep their key set, and each element is resolved |
| Resolver.ResolveLocal | autonomous_workflow_execution_and_planning/src/local_planner.rs:72-89 | resolution reads only the names the template refers to: two contexts that agree on them resolve the template alike |
| Resolver.ResolveWithoutRefs | autonomous_workflow_execution_and_planning/src/local_planner.rs:78-87 | a template without placeholders resolves to itself |
| Resolver.ResolveIdempotent | autonomous_workflow_execution_and_planning/src/local_planner.rs:72-89 | when no stored output holds a placeholder, the result holds none, and resolving it again changes nothing |
| Resolver.ResolveKeepsType | autonomous_workflow_execution_and_planning/src/local_planner.rs:76 | `"${x}"` with `x` bound to the number 42 gives the number 42, not a string |
| Resolver.ResolveMissingIsNull | autonomous_workflow_execution_and_planning/src/local_planner.rs:76 | an unbound name gives null |
| Resolver.ResolveEmbeddedUnchanged | autonomous_workflow_execution_and_planning/src/local_planner.rs:75-78 | a placeholder inside a longer string is left alone |
| Plans.StepValue | autonomous_workflow_execution_and_planning/src/local_planner.rs:119-126 | a step stores only the `result` its tool returns on the arguments resolved against earlier outputs, or the string "Tool not found" when the tool is not registered |
| Plans.PlanOutputs | autonomous_workflow_execution_and_planning/src/local_planner.rs:115-130 | after a plan, the outputs hold exactly the plan's output keys |
| Plans.ExecutePlan | autonomous_workflow_execution_and_planning/src/local_planner.rs:115-130 | the loop visits the steps in plan order, resolves each step against the outputs of the steps before it, and returns a map whose key set is the plan's output keys |
| Plans.LastWriteWins | autonomous_workflow_execution_and_planning/src/local_planner.rs:118-127 | a key holds what its last writer stored, computed from the outputs of the steps before that writer; later steps writing other keys do not disturb it |
| Plans.MissingToolRecorded | autonomous_workflow_execution_and_planning/src/local_planner.rs:124-126 | a step whose tool is missing leaves "Tool not found" under its key, and the plan goes on |
| Plans.KeywordPlan | autonomous_workflow_execution_and_planning/src/local_planner.rs:32-68 | a plan exists exactly when the goal contains "summarize log file" or "analize disk usage". The log-file phrase wins when both occur, and the plan keeps the goal |
| Plans.ResolveOneField | autonomous_workflow_execution_and_planning/src/local_planner.rs:80-83 | a one-field object whose field is `${name}` resolves that field to the stored value, or to null |
| Plans.LogPlanSummaryGetsNull | autonomous_workflow_execution_and_planning/src/local_planner.rs:37-46 | the log-file plan's first step writes "log content" but the second asks for `${log_content}`, so the summariser always receives `{"text": null}` |
| Plans.DiskPlanSummaryGetsDiskInfo | autonomous_workflow_execution_and_planning/src/local_planner.rs:53-62 | the disk-usage plan's summariser does receive what the first step stored under "disk_info" |
| Plans.PlanningAgentHandle | autonomous_workflow_execution_and_planning/src/local_planner.rs:140-152 | the agent succeeds exactly when its planner returns a plan, and then reports that plan's outputs. Otherwise it answers "Unable to plan for this goal" with the error "Unrecognized goal" |
| Plans.KeywordAgentSucceeds | autonomous_workflow_execution_and_planning/src/local_planner.rs:33-67 | with the keyword planner, the agent succeeds exactly on goals that contain one of the two phrases |
| Plans.PlaceholderResolve | tool_using_agents/src/chaining_tool_use.rs:52-59 | the chaining crate's resolution gives null for every template and context |
| Plans.ChainStepOutput | tool_using_agents/src/chaining_tool_use.rs:25-40 | a found tool's whole output is stored, with its success flag and message, computed on null arguments. A missing tool gives a failed output with null result and message "Tool not found: " + name |
| Plans.ChainOutputs | tool_using_agents/src/chaining_tool_use.rs:21-45 | after a plan, the results hold exactly the plan's output keys, and a missing tool does not stop the plan |
| Plans.ChainLastWriteWins | tool_using_agents/src/chaining_tool_use.rs:24-42 | a key holds its last writer's output. That output never depends on earlier results, because every tool is called on null |
| Plans.RunToolPlan | agentic_ai_architecture/tool-using/tool-chaining/src/lib.rs:23-56 | a successful run found every step's tool, had every tool succeed on the step's own unresolved arguments, and holds exactly the plan's output keys |
| Plans.FailFast | agentic_ai_architecture/tool-using/tool-chaining/src/lib.rs:29-53 | once a prefix of the plan has failed, later steps change nothing: the run ends with the prefix's error |
| Plans.MissingToolStops | agentic_ai_architecture/tool-using/tool-chaining/src/lib.rs:35-38 | the first step whose tool is missing ends the run with "Tool '<name>' not found" |
| Plans.FailingToolStops | agentic_ai_architecture/tool-using/tool-chaining/src/lib.rs:47-52 | the first failing tool ends the run with "Error executing tool '<name>': " and the tool's message |
| Plans.RunToolPlanLastWriteWins | agentic_ai_architecture/tool-using/tool-chaining/src/lib.rs:47-50 | on success a key holds its last writer's result, computed on that step's arguments and key alone |
| Json.Get | agentic_ai_architecture/tool-using/secure_tool_functions/src/lib.rs:35 | a field lookup finds something only in an object that has the key, and then gives its value |
| Json.FromValueSingleString | tool_using_agents/src/secure_tool_functions.rs:58 | decoding into a one-string-field struct succeeds exactly on an object holding a string under the field, or on a one-element array holding a string, and gives that string |
| Registry.NewRegistry | agentic_ai_architecture/tool-using/dynamic_tool_registry/src/lib.rs:30-32 | a new registry holds no tool |
| Registry.Register | tool_using_agents/src/secure_tool_functions.rs:88-91 | the tool is stored under its own name, replacing any earlier one. The key set grows by that name only, and every other entry is unchanged |
| Registry.CallTool | tool_using_agents/src/secure_tool_functions.rs:94-101 | an unknown name gives nothing and runs nothing; a known name runs that tool on the arguments unchanged |
| Registry.CallAfterRegister | agentic_ai_architecture/tool-using/dynamic_tool_registry/src/lib.rs:35-46 | a registered tool is found under its name and receives the arguments unchanged |
| Registry.RegisterKeepsOthers | agentic_ai_architecture/tool-using/dynamic_tool_registry/src/lib.rs:38 | registering a tool leaves every lookup of another name as it was |
| Registry.LengthExecute | tool_using_agents/src/secure_tool_functions.rs:58-72 | success exactly when the arguments decode to `{ text }`. The result is then the UTF-8 byte length of `text`, with no message; otherwise it is null, with a message starting "Invalid input: " |
| Registry.LengthTool | tool_using_agents/src/secure_tool_functions.rs:31-42 | the tool is named "length" and executes as `LengthExecute` |
| Registry.LengthExecuteByField | agentic_ai_architecture/tool-using/secure_tool_functions/src/lib.rs:34-50 | success exactly when the arguments are an object with a string `text`, giving its byte length. Anything else gives null, false and "Missing or invalid 'text' argument" |
| Registry.LengthToolByField | agentic_ai_architecture/tool-using/secure_tool_functions/src/lib.rs:24-32 | the draft tool is named "length" and executes by field lookup |
| Registry.LengthVersionsAgreeOnObjects | agentic_ai_architecture/tool-using/secure_tool_functions/src/lib.rs:35-48 | on objects both versions agree on result and success. A one-string array succeeds only with serde decoding |
| Registry.LengthOfHi | tool_using_agents/src/secure_tool_functions.rs:58-65 | calling the registered "length" tool on `{"text": "hi"}` gives the number 2 with success |
| TaskExec.Execute | core_agent_architecture/src/task_execution_tool_invocation_error_handling.rs:34-79 | the executor never skips, and a success always carries output. Shell: success exactly on exit code 0 with stdout; any other exit gives stderr and "Command failed"; a spawn error gives no output and "Execution failed: ". HTTP: success exactly on a 2xx status with a readable body, which is the output; every failure has no output. A non-2xx status gives "HTTP error: " with the status, an unreadable body gives "Read body failed: " with the error, and a failed request gives "Request failed: " with the error. Internal: "ping" gives "[png"; any other operation gives "Unknown internal operation" |
| TaskExec.ExecuteAgreesWithSafeExec | core_agent_architecture/src/task_execution_tool_invocation_error_handling.rs:34-50 | when the timed runner finishes with the same output, a shell task succeeds exactly when `safe_exec` does, and `safe_exec` gives the task's output trimmed |
| TaskExec.ToolAgentHandle | core_agent_architecture/src/task_execution_tool_invocation_error_handling.rs:91-111 | the agent runs `echo <message>`. Success gives the output or "" and success; a failure `e` gives "Error: e" and `Error(e)`; skipped gives "Task skipped" and in progress |
| TaskExec.ToolAgentWithDefault | core_agent_architecture/src/task_execution_tool_invocation_error_handling.rs:91-111 | with the default executor the tool agent never reports in progress. It succeeds exactly when `echo` exits with code 0, and then answers echo's output |
| TaskExec.RetryHttp | core_agent_architecture/src/task_execution_tool_invocation_error_handling.rs:117-131 | between one and four calls are made; the result is the last call's. Every earlier call failed, and fewer than four calls means the last did not fail. The sleeps are 1, 2, 3 seconds, one before each retry |
| SystemCommands.SafeExec | tool_using_agents/src/safe_system_level_commands_execution.rs:6-25 | success exactly when the command finishes in time with code 0, giving trimmed stdout. Otherwise "Command failed: " + trimmed stderr, "Execution error: " + the error, or "Command timed out" |
| SystemCommands.SafeExecUntrimmed | agentic_ai_architecture/tool-using/system-lvl_commands/src/lib.rs:12-32 | the same decisions without trimming, and a spawn error reads "Failed to execute command: " |
| SystemCommands.SafeExecVersionsAgree | agentic_ai_architecture/tool-using/system-lvl_commands/src/lib.rs:19-31 | both versions succeed on the same runs, and the trimming one answers the other's output trimmed |
| SystemCommands.ListDirExecute | agentic_ai_architecture/tool-using/system-lvl_commands/src/lib.rs:53-79 | `ls <path>` runs exactly when the arguments decode to `{ path }` and the path holds neither ".." nor ";". Success means that run succeeded, and the message is the untrimmed stdout on success or the failure message otherwise; undecodable arguments fail with "Invalid arguments: "; a refused path fails with "Path traversal is not allowed." and runs nothing |
| SystemCommands.ListDirListsAllowed | agentic_ai_architecture/tool-using/system-lvl_commands/src/lib.rs:53-79 | arguments `{ path }` with an allowed path run `ls <path>`, and the tool reports that run's success and message |
| SystemCommands.ListDirRefusesParent | agentic_ai_architecture/tool-using/system-lvl_commands/src/lib.rs:62-67 | `{"path": "../etc"}` is refused whatever the runner would do |
| SystemCommands.CommandAlias | tool_using_agents/src/safe_system_level_commands_execution.rs:40-46 | only "list" and "disk" have aliases, "ls" and "df" |
| SystemCommands.CommandAliasLinux | agentic_ai_architecture/tool-using/system-lvl_commands/src/lib.rs:84-91 | only "list", "disk" and "memory" have aliases; "memory" maps to "free" |
| SystemCommands.AliasTablesAgree | agentic_ai_architecture/tool-using/system-lvl_commands/src/lib.rs:84-91 | the second table extends the first by "memory" alone |
| Memory.Write | autonomous_workflow_execution_and_planning/src/memory_and_state_recall.rs:40-44 | `write` always answers true and stores the entry under its key, replacing any earlier one. Every other key keeps its entry |
| Memory.WriteKeepsWellKeyed | autonomous_workflow_execution_and_planning/src/memory_and_state_recall.rs:42 | writing keeps every entry stored under its own key |
| Memory.ReadByKey | autonomous_workflow_execution_and_planning/src/memory_and_state_recall.rs:45-48 | a key finds its entry, and an unknown key finds nothing |
| Memory.ReadAfterWrite | autonomous_workflow_execution_and_planning/src/memory_and_state_recall.rs:40-48 | after a write, reading its key gives the entry written, and reading any other key gives what it gave before |
| Memory.MostRecentKey | autonomous_workflow_execution_and_planning/src/memory_and_state_recall.rs:52 | picks a candidate whose entry is at least as recent as every other candidate's |
| Memory.ReadRecent | autonomous_workflow_execution_and_planning/src/memory_and_state_recall.rs:49-55 | returns min(limit, store size) distinct stored entries, newest first. No entry left out is newer than one returned |
| Memory.TaggedKeys | autonomous_workflow_execution_and_planning/src/memory_and_state_recall.rs:60 | a key qualifies exactly when its entry's tag list holds the tag as a whole element |
| Memory.SearchByTag | autonomous_workflow_execution_and_planning/src/memory_and_state_recall.rs:56-63 | returns every stored entry carrying the tag and only those, each once |
| EventLoop.Step | core_agent_architecture/src/event_driven_design_patterns.rs:69-86 | idle plus input waits for a task. Waiting plus a completion goes idle on success and to `Error("Task failed")` on failure. Every other pair keeps the state |
| EventLoop.StepReachable | core_agent_architecture/src/event_driven_design_patterns.rs:69-86 | transitions stay among idle, waiting and `Error("Task failed")` |
| EventLoop.Run | core_agent_architecture/src/event_driven_design_patterns.rs:66-88 | from idle, waiting or `Error("Task failed")`, no sequence of events reaches `Executing` or another error, and once in error no event leaves it |
| EventLoop.Drive | core_agent_architecture/src/event_driven_design_patterns.rs:66-88 | starting idle, the machine ends idle, waiting, or in `Error("Task failed")`; it never executes |
| EventLoop.FailedTaskSticks | core_agent_architecture/src/event_driven_design_patterns.rs:67-85 | starting idle, an input followed by a failed completion puts the machine into error for good |
| Messaging.Handle | core_agent_architecture/src/message_passing_and_state_management.rs:108-126 | the loop stops exactly on shutdown. A command sets the current task. "done" appends the id and clears the current task. Any other status changes nothing |
| Messaging.AgentMain | core_agent_architecture/src/message_passing_and_state_management.rs:106-128 | the completed list only grows, a leading shutdown leaves the state as it was, and a run of commands leaves the last one as the current task |
| Messaging.CompletedAppends | core_agent_architecture/src/message_passing_and_state_management.rs:106-128 | the completed list ends as the start list followed by the ids reported "done" before the first shutdown |
| Messaging.ShutdownStops | core_agent_architecture/src/message_passing_and_state_management.rs:116 | nothing after a shutdown is processed |
| Messaging.ExecuteTaskReply | core_agent_architecture/src/message_passing_and_state_management.rs:61-64 | "ping" is answered "pong"; anything else gets the error "unknown command" |
| Messaging.Serve | core_agent_architecture/src/message_passing_and_state_management.rs:59-67 | one reply per `ExecuteTask` request and none for other requests: reply `k` is the answer to the command of the `k`-th `ExecuteTask` request |
| Messaging.ServeOnlyPings | core_agent_architecture/src/message_passing_and_state_management.rs:59-67 | every successful reply is "pong", and when every request is an `ExecuteTask` each gets a reply |
| Agents.EchoAgentCore | core_agent_architecture/src/agent_traits_and_behavior_model.rs:32-43 | the status is always `Error("Restricted command")`. The output is "" for a message containing "shutdown" and "Echo: " + message otherwise |
| Agents.EchoAgentDraft | agentic_ai_architecture/core_architecture/agent_traits_and_behavior_models/src/lib.rs:31-42 | success exactly when the message does not contain "shutdown", answering "Echo: " + message; otherwise "" with `Error("Restricted command")` |
| Agents.EchoVersionsDiffer | core_agent_architecture/src/agent_traits_and_behavior_model.rs:39-42 | the two echo agents write the same output and always differ in status |
| Agents.PlanningHandleCore | core_agent_architecture/src/agent_traits_and_behavior_model.rs:53-70 | the steps are left as they are. Success comes exactly with a non-empty plan, reported as "Executed N steps"; an empty plan gives "No viable plan" and `Error("Planning failed")` |
| Agents.PlanTask | agentic_ai_architecture/core_architecture/agent_traits_and_behavior_models/src/lib.rs:73-77 | the stub planner finds no step for any task, whatever its text |
| Agents.PlanningHandleDraft | agentic_ai_architecture/core_architecture/agent_traits_and_behavior_models/src/lib.rs:51-77 | the stub planner empties the steps, so the agent always answers "No viable plan" and `Error("Planning failed")` |
| Agents.RunAgent | core_agent_architecture/src/agent_traits_and_behavior_model.rs:79-88 | "notify" is called, with the output as its one argument, exactly when the status is success |
| Agents.RunEchoCoreNeverNotifies | core_agent_architecture/src/agent_traits_and_behavior_model.rs:79-88 | `run_agent` with the core echo agent never notifies |
| Agents.RunEchoDraftNotifies | agentic_ai_architecture/core_architecture/agent_traits_and_behavior_models/src/lib.rs:87-95 | `run_agent` with the draft echo agent notifies with the echo exactly when the message does not contain "shutdown" |
| Agents.RoleShiftingHandle | core_agent_architecture/src/agent_traits_and_behavior_model.rs:92-108 | the answer and the role's next state are what one `handle(&mut self)` call of the current role gives; which role is current never changes, "switch" or not |
| Agents.RunRole | core_agent_architecture/src/agent_traits_and_behavior_model.rs:92-95 | a role fed a run of inputs gives one answer per input and stays the same kind of handler |
| Agents.ShiftingIsRole | core_agent_architecture/src/agent_traits_and_behavior_model.rs:102-108 | over any run of inputs, "switch" messages included, the agent answers exactly as its first role alone would and ends with that role in the state the role alone reaches |
| FileManager.FileName | 02_intermediate_agents/LocalFileManager/agent/src/tools.rs:62 | a path has a file name exactly when its last component exists and is not "..", and the name is that component |
| FileManager.LastDot | 02_intermediate_agents/LocalFileManager/agent/src/tools.rs:39 | finds the last '.' of a name, or reports that there is none |
| FileManager.NameExtension | 02_intermediate_agents/LocalFileManager/agent/src/tools.rs:39 | a name other than ".." has an extension exactly when a '.' stands after its first character; the extension is what follows the last such '.' and holds no '.' |
| FileManager.NameExtensionOfParts | 02_intermediate_agents/LocalFileManager/agent/src/tools.rs:39 | a non-empty stem, a '.' and a dot-free extension give back that extension |
| FileManager.Extension | 02_intermediate_agents/LocalFileManager/agent/src/tools.rs:39 | an empty path has no extension; otherwise the path's extension is its last component's, with the same rule |
| FileManager.GetFileMetadata | 02_intermediate_agents/LocalFileManager/agent/src/tools.rs:29-44 | metadata exists exactly when the file can be inspected. It keeps the path and size and the lower-cased extension. The modification instant is never in the future: it is the file's own when readable and not later than now, and now otherwise |
| FileManager.RouteFile | 02_intermediate_agents/LocalFileManager/agent/src/tools.rs:47-58 | txt, jpg/png, mp4 and pdf/docx choose their folder whatever the age. Any other extension goes to "Archive" exactly when the file is older than ninety days. No extension means no route |
| FileManager.UpperCaseRoutes | 02_intermediate_agents/LocalFileManager/agent/src/tools.rs:39-49 | "REPORT.TXT" routes to "TextFiles" because the stored extension is lower-cased |
| FileManager.MoveFile | 02_intermediate_agents/LocalFileManager/agent/src/tools.rs:61-90 | a path without a file name panics, and a failed directory creation is reported. Otherwise the destination is `target/name`, or `target/<seconds>_name` when `target/name` exists |
| FileManager.PathsOf | 02_intermediate_agents/LocalFileManager/agent/src/tools.rs:103 | the paths of the kept entries, in order |
| FileManager.FindFilesByExtension | 02_intermediate_agents/LocalFileManager/agent/src/tools.rs:92-105 | every walked file whose extension equals the query, ignoring ASCII case, is returned, and only those, counted with repetitions |
| FileManager.FoundPaths | 02_intermediate_agents/LocalFileManager/agent/src/tools.rs:96-103 | each returned path is the path of a matching walked file, and every matching file's path is returned |
| FileManager.FindIgnoresQueryCase | 02_intermediate_agents/LocalFileManager/agent/src/tools.rs:100 | the query's case does not change the result |
| FileManager.MetadataOf | 02_intermediate_agents/LocalFileManager/agent/src/tools.rs:113 | the metadata of each inspectable entry, in order |
| FileManager.LargeFiles | 02_intermediate_agents/LocalFileManager/agent/src/tools.rs:111-120 | one result per large walked file, each at least the threshold and drawn from the walk. Every large file's metadata is among them |
| FileManager.FoundLarge | 02_intermediate_agents/LocalFileManager/agent/src/tools.rs:111-120 | each kept entry's metadata is at least the threshold and belongs to a large walked file |
| FileManager.AllLargeFound | 02_intermediate_agents/LocalFileManager/agent/src/tools.rs:111-120 | every large walked file's metadata is kept |
| FileManager.FindLargeFiles | 02_intermediate_agents/LocalFileManager/agent/src/tools.rs:107-121 | the threshold is `min_size_mb` mebibytes and the call fails exactly when that product overflows `u64`. Otherwise every file of at least that size is kept, only those, one per such entry, each the metadata of one such entry |
| FileManager.ThresholdProduct | 02_intermediate_agents/LocalFileManager/agent/src/tools.rs:109 | the two checked multiplications give the whole product, and the first overflows only if the whole does |
| FileManager.ThresholdInclusive | 02_intermediate_agents/LocalFileManager/agent/src/tools.rs:114 | a file of exactly one mebibyte is kept for a one-mebibyte query: the bound is inclusive |
| Scanner.NewScanner | scanner/src/lib.rs:40-63 | a new scanner starts at the first character, on line 1 |
| Scanner.MakeToken | scanner/src/lib.rs:241-248 | a token's lexeme is the text from `start` to `current`, on the scanner's line |
| Scanner.DigitRunEnd | scanner/src/lib.rs:174-179 | ends the maximal run of ASCII digits |
| Scanner.IdentRunEnd | scanner/src/lib.rs:199-204 | ends the maximal run of ASCII letters and underscores |
| Scanner.CommentEnd | scanner/src/lib.rs:225-230 | a comment runs up to, not over, the next '\n' or the end |
| Scanner.SkipWhitespace | scanner/src/lib.rs:212-238 | the line grows by the '\n's skipped. Skipping stops at the end, at a character that is neither blank nor the start of a `//` comment, or at a '\n' only when it ends a `//` comment that was skipped |
| Scanner.SkipsToCommentEnd | scanner/src/lib.rs:212-230 | after blanks, a `//` comment is skipped up to its '\n' or the end, and skipping stops there; the line grows only by the blanks' line feeds |
| Scanner.EmptyCommentStop | scanner/src/lib.rs:222-230 | on "//\nb" skipping stops at position 2, the comment's '\n' |
| Scanner.SkippedBlankOrComment | scanner/src/lib.rs:212-238 | every skipped position holds a blank or lies inside a `//` comment begun earlier on the same line |
| Scanner.StringEnd | scanner/src/lib.rs:151-163 | finds the first '"' or '$' after the opening quote, or the end |
| Scanner.ScanString | scanner/src/lib.rs:150-171 | a string is a Str token exactly when a '"' closes it before any '$'. A '$' or a missing close gives an Error token, and every '\n' inside counts a line |
| Scanner.NumberEnd | scanner/src/lib.rs:173-195 | the number's text is digits with at most one '.', and a digit follows that '.'. It ends where no digit follows, and does not stop before a '.' and a digit unless it already took a '.' |
| Scanner.NumberSpanUnique | scanner/src/lib.rs:173-195 | those conditions fix the end: any end that meets them is the one `numbers` stops at |
| Scanner.DigitRunUnique | scanner/src/lib.rs:174-179 | a run of digits has only one end |
| Scanner.KeywordOr | scanner/src/lib.rs:205-209 | reserved words get their keyword type and anything else is an Identifier |
| Scanner.ScanWord | scanner/src/lib.rs:87-88 | a digit starts a Number token; a letter starts an identifier-run token typed by the keyword table |
| Scanner.ScanOperator | scanner/src/lib.rs:91-123 | `=` and `!` take a following `=` when there is one. `<` and `>` always take the next character and panic when there is none |
| Scanner.ScanAt | scanner/src/lib.rs:69-126 | every token is its lexeme from `start` to `current`. It is Eof exactly at the end of the input, and is otherwise not empty. Only strings and errors change the line |
| Scanner.TokenStart | scanner/src/lib.rs:66-67 | the token starts where skipping blanks and comments stopped |
| Scanner.ScanToken | scanner/src/lib.rs:65-127 | every token is the text between the new start and current. It is Eof exactly when skipping reached the end, and is non-empty otherwise |
| Scanner.EofSticks | scanner/src/lib.rs:69-71 | at the end of the input the token is Eof with an empty lexeme, and scanning again gives Eof again |
| Scanner.SingleCharToken | scanner/src/lib.rs:76-85 | each of `( ) { } , ; + - * /` is a one-character token of its own type |
| Scanner.EqualBangLongestMatch | scanner/src/lib.rs:91-104 | `==` and `!=` are taken whole when present; otherwise `=` and `!` stand alone |
| Scanner.AngleTakesNext | scanner/src/lib.rs:105-123 | `<` and `>` always take the next character into a two-character token, or panic at the end of the input |
| Scanner.IdentifierToken | scanner/src/lib.rs:198-209 | an identifier is a letter followed by the longest run of letters and underscores, typed by the keyword table |
| Scanner.NumberToken | scanner/src/lib.rs:173-195 | a number token's lexeme is the longest number from the first digit |
| Scanner.UnknownIsError | scanner/src/lib.rs:125 | a character that starts no token is a one-character Error token |
| Scanner.TokenLine | scanner/src/lib.rs:212-221 | tokens other than strings and errors sit on the scanner's line plus the line feeds skipped |
| Scanner.CommentLeavesNewline | scanner/src/lib.rs:222-230 | after blanks and a `//` comment followed by '\n', the next token is an Error token "\n" on the line where the comment began |
| Scanner.CommentLeavesNewlineExample | scanner/src/lib.rs:222-230 | on "// c\nx" the first token is an Error token "\n" on line 1 |
| Scanner.DollarEndsString | scanner/src/lib.rs:156-162 | a '$' inside a string ends it as an Error token |
| Scanner.TokensFrom | scanner/src/main.rs:13-19 | the printed tokens end with the only Eof unless a call panics |
| Scanner.ScanAll | scanner/src/main.rs:12-19 | the loop collects the tokens up to and including the first Eof, or stops at a panic |
| Scanner.StartsAfterBlanks | scanner/src/lib.rs:212-221 | a stretch of blanks without comments is skipped, and the line grows by its line feeds |
| Scanner.PrintExpression | scanner/src/lib.rs:257-285 | `print(1 + 2 / 86)` scans to Print, LeftParen, Number, Plus, Number, Slash, Number, RightParen and Eof, with their lexemes |
| Scanner.ForLoop | scanner/src/lib.rs:287-373 | the test's three-line `for` loop scans to the expected 23 tokens, with lexemes and lines, and then Eof |
| Grep.NewConfig | grep/src/lib.rs:31-39 | fewer than three arguments give "not enough arguments". Otherwise the query and file are the next two arguments, and the search is case-sensitive exactly when `CASE_INSENSITIVE` is unset |
| Grep.Search | grep/src/lib.rs:42-50 | returns exactly the lines that contain the query, in their original order, as many as there are such lines |
| Grep.SearchCaseInsensitive | grep/src/lib.rs:55-64 | returns exactly the original lines whose lower-cased form contains the lower-cased query, in order, as many as there are such lines |
| Grep.ContainsLower | grep/src/lib.rs:59 | an occurrence survives lower-casing both sides |
| Grep.SensitiveWithinInsensitive | grep/src/lib.rs:42-64 | every case-sensitive match is a case-insensitive one, in the same order |
| Grep.InsensitiveIgnoresQueryCase | grep/src/lib.rs:56 | the query's case does not change the case-insensitive result |
| Grep.SearchFourLines | grep/src/lib.rs:44-47 | a four-line text keeps each line that holds the query |
| Grep.SearchCaseInsensitiveFourLines | grep/src/lib.rs:58-61 | a four-line text keeps each line whose lower-cased form holds the lower-cased query |
| Grep.CaseSensitiveExample | grep/src/lib.rs:72-82 | "duct" finds only "safe, fast, productive." |
| Grep.CaseInsensitiveExample | grep/src/lib.rs:85-98 | "rUsT" finds "Rust:" and "Trust me." |
| Sed.NewSed | sed/src/lib.rs:14-30 | parsing succeeds exactly when the pattern has three '\|', that is four pieces. The fields are pieces 1 to 3, piece 0 is not checked, and anything else gives the fixed error |
| Sed.NewSedOfFields | sed/src/lib.rs:14-30 | four pipe-free fields joined by '\|' parse back into those fields |
| Sed.DistributeArgs | sed/src/lib.rs:64-71 | more than two arguments give the pattern and the file, `args[1]` and `args[2]`; fewer give the fixed error |
| Sed.InsertEverywhere | sed/src/lib.rs:46 | replacing the empty pattern adds one copy of the replacement for each of the line's length-plus-one gaps |
| Sed.InsertEverywhereAt | sed/src/lib.rs:46 | with the empty pattern, the replacement stands before every character and at the end, and character `k` follows its `k + 1`-th copy |
| Sed.ReplaceAll | sed/src/lib.rs:46 | with a non-empty pattern, an absent pattern changes nothing; otherwise the text before the first occurrence is kept and the replacement stands where that occurrence began. ReplaceAllByPieces and ReplaceAllSplitJoin state that every occurrence is replaced |
| Sed.ReplacedAt | sed/src/lib.rs:46 | replacing at an occurrence keeps the text before it and puts the replacement in its place; what follows is covered by ReplaceAllByPieces |
| Sed.ReplaceFirst | sed/src/lib.rs:47 | an absent pattern changes nothing. Otherwise the first occurrence is replaced and the rest is kept |
| Sed.ReplaceAllAbsent | sed/src/lib.rs:46 | replacing a pattern that does not occur changes nothing |
| Sed.ReplaceAllByPieces | sed/src/lib.rs:46 | for any non-empty pattern, cutting the text at its leftmost non-overlapping occurrences (LeftmostPieces) and joining the pieces with the replacement gives the result, so every such occurrence is replaced and the text between them kept |
| Sed.ReplaceAllSplitJoin | sed/src/lib.rs:46 | for any non-empty pattern, replacing every occurrence equals `split` at the pattern followed by `join` with the replacement |
| Sed.ReplaceAllTwoPieces | sed/src/lib.rs:46 | "abab" with "ab" replaced by "x" everywhere gives "xx", not the first-only "xab" |
| Text.SplitStr | sed/src/lib.rs:46 | the pieces `str::replace` keeps for a non-empty pattern, as `str::split` cuts them: they join back to the text with the pattern, each cut is at the leftmost occurrence after its piece begins, and the last piece holds none |
| Sed.ReplaceCharSplitJoin | sed/src/lib.rs:46 | replacing every occurrence of one character equals splitting at it and joining the pieces with the replacement, so each occurrence is replaced and the text between them kept |
| Sed.ReplaceCharEverywhere | sed/src/lib.rs:45-48 | with "g", a one-character pattern absent from the replacement no longer occurs, and the length changes by the replacement's length minus one per occurrence |
| Sed.ReplaceAllTwice | sed/src/lib.rs:46 | "aa" with "a" replaced by "b" everywhere gives "bb", not the first-only "ba" |
| Sed.ReplaceAllLast | sed/src/lib.rs:46 | when the first occurrence is also the last, replacing all replaces just that one |
| Sed.ReplaceFirstAt | sed/src/lib.rs:47 | replacing the first occurrence replaces the occurrence that `find` returns |
| Sed.ReplaceAllOnce | sed/src/lib.rs:45-48 | with one occurrence, the "g" and non-"g" flags give the same line |
| Sed.ReplaceAllSelf | sed/src/lib.rs:46 | replacing a pattern by itself everywhere changes nothing |
| Sed.ReplaceAllKeepsOut | sed/src/lib.rs:46 | replacing every occurrence brings in no character that is in neither the text nor the replacement |
| Sed.InsertNothing | sed/src/lib.rs:46 | inserting the empty string everywhere changes nothing |
| Sed.EditLine | sed/src/lib.rs:44-51 | a line without the pattern is kept. Flag "g" replaces every occurrence, and any other flag replaces the first |
| Sed.EditLineSelf | sed/src/lib.rs:44-51 | replacing a pattern by itself leaves a line as it was, whatever the flag |
| Sed.EditLineKeepsOut | sed/src/lib.rs:44-51 | editing a line brings in no character that is in neither the line nor the replacement |
| Sed.EditLines | sed/src/lib.rs:43-53 | one edited line per input line, in order |
| Sed.EditLinesKeepOut | sed/src/lib.rs:43-53 | a character in none of the lines and not in the replacement is in none of the edited lines |
| Sed.EditLinesSelf | sed/src/lib.rs:43-53 | replacing a pattern by itself leaves every line as it was |
| Sed.StreamEditor | sed/src/lib.rs:41-55 | empty content gives empty output. Unless the replacement holds a '\n', splitting the output at '\n' gives back exactly the edited lines, one per input line |
| Sed.StreamEditorUnchanged | sed/src/lib.rs:41-55 | a text with no '\r' and no final '\n' survives the editor unchanged when no edit changes a line |
| Sed.LinesOfCrLfText | sed/src/lib.rs:43 | "a\r\nb\n" has the lines "a" and "b" |
| Sed.StreamEditorDropsFinalNewline | sed/src/lib.rs:41-55 | the editor joins with "\n" and adds no final newline, so "a\r\nb\n" comes out as "a\nb" |
| PortSniffer.ParseU16 | port_sniffer/src/lib.rs:36 | parsing succeeds exactly on a non-empty digit string of value at most 65535, optionally after one '+', and gives that value. A '-' or any other character fails |
| PortSniffer.ParseU16Examples | port_sniffer/src/lib.rs:36 | "x", "65536" and a lone "+" fail to parse; "+7" parses to 7 |
| PortSniffer.ParseRenderedThreads | port_sniffer/src/lib.rs:36 | a rendered thread count surrounded by whitespace parses back to itself |
| PortSniffer.AsksHelpIsDashH | port_sniffer/src/lib.rs:26-29 | asking for help is containing "-h", because "-help" contains it |
| PortSniffer.NewArguments | port_sniffer/src/lib.rs:16-46 | fewer than 2 or more than 4 arguments are rejected. An address alone gives flag "" and 4 threads. "help" comes exactly for 2 arguments asking for help; 3 or 4 asking for help give "Too many arguments"; otherwise an argument that is not an address and not "-j" gives "Invalid syntax". With 4 arguments and "-j", a bad address gives "Incorrect behaviour!", a bad count gives "Failed to parse threads to integer!", and both good give those arguments. "-j" without an address panics on the index |
| PortSniffer.BareAddress | port_sniffer/src/lib.rs:23-24 | `port_sniffer 192.168.1.1` scans with four threads |
| PortSniffer.ThreadsFlag | port_sniffer/src/lib.rs:31-40 | `-j 100 192.168.1.1` gives flag "-j" and 100 threads |
| PortSniffer.ThreadsFlagParsed | port_sniffer/src/lib.rs:31-40 | a "-j" flag, a count that parses and an address give exactly those arguments |
| PortSniffer.ThreadsFlagRendered | port_sniffer/src/lib.rs:31-40 | any rendered thread count that fits 16 bits, after "-j" and before an address, comes back as that count |
| PortSniffer.RejectionMessages | port_sniffer/src/lib.rs:26-43 | each of the four rejection messages is reached by a concrete argument list |
| PortSniffer.ThreadsFlagWithoutAddress | port_sniffer/src/lib.rs:31-32 | "-j" with a count but no address indexes past the end |
| PortSniffer.Probes | port_sniffer/src/lib.rs:49-64 | as written, probe `k` is `port + k * threads`; the last probe is within `threads` of 65535 (inclusive), and every earlier one is more than `threads` below it |
| PortSniffer.ProbesBelowMax | port_sniffer/src/lib.rs:60 | as written, a worker probes 65535 only when it starts there |
| PortSniffer.ProbesReach | port_sniffer/src/lib.rs:50-63 | as written, a worker probes every port of its track below 65535 |
| PortSniffer.ProbesFixed | port_sniffer/src/lib.rs:49-64 | corrected, probe `k` is still `port + k * threads`, but the track stops only once the next step would pass 65535: the last probe is less than `threads` below it, every earlier one at least `threads` below |
| PortSniffer.ProbesFixedReach | port_sniffer/src/lib.rs:50-63 | with the corrected test, a worker probes every port of its track up to 65535 |
| PortSniffer.Scan | port_sniffer/src/lib.rs:49-64 | `start_point + 1` overflows exactly at 65535, and zero threads loop forever below 65534. Otherwise the probes are the track from `start_point + 1` |
| PortSniffer.ScanFixed | port_sniffer/src/lib.rs:49-64 | the corrected scan overflows and diverges on the same inputs, and otherwise probes the corrected track |
| PortSniffer.WorkerProbes | port_sniffer/src/main.rs:31-36 | as written, worker `i` probes exactly the ports `q` of 1 to 65535 with `(q - 1) mod threads == i`, except 65535 unless it is the worker's first port |
| PortSniffer.WorkerProbesFixed | port_sniffer/src/main.rs:31-36 | corrected, worker `i` probes exactly the ports `q` of 1 to 65535 with `(q - 1) mod threads == i` |
| PortSniffer.WorkerTrack | port_sniffer/src/lib.rs:49-64 | as written, the track from `i + 1` holds exactly the ports with residue `i`, 65535 only as its first port |
| PortSniffer.WorkerTrackFixed | port_sniffer/src/lib.rs:49-64 | corrected, the track from `i + 1` holds exactly the ports with residue `i` |
| PortSniffer.TrackResidue | port_sniffer/src/main.rs:31-36 | every step of `threads` keeps a worker on its own residue |
| PortSniffer.TrackOf | port_sniffer/src/main.rs:31-36 | port `q` lies on the track of worker `(q - 1) mod threads` |
| PortSniffer.WorkerReaches | port_sniffer/src/lib.rs:60 | as written, the worker whose track holds a port below 65535 probes it |
| PortSniffer.WorkerFixedReaches | port_sniffer/src/lib.rs:60 | corrected, the worker whose track holds any port probes it |
| PortSniffer.ScanMissesLastPort | port_sniffer/src/lib.rs:60 | as written, for 1 to 65534 threads the workers probe every port except 65535 |
| PortSniffer.DefaultScanMissesLastPort | port_sniffer/src/lib.rs:60 | as written, with the default four threads nobody probes 65535 |
| PortSniffer.ScanFixedCoversAll | port_sniffer/src/lib.rs:60 | corrected, the workers probe every port from 1 to 65535 |
| PortSniffer.DefaultScanFixedReachesLastPort | port_sniffer/src/lib.rs:60 | corrected, with four threads port 65535 is probed |
| ChatFrame.Zeros | chat/server/src/main.rs:29 | a buffer of `n` zero bytes |
| ChatFrame.Encode | chat/server/src/main.rs:50-51 | a frame is exactly 32 bytes: a longer message is cut to its first 32, a shorter one is padded with zeros |
| ChatFrame.TakeNonZero | chat/server/src/main.rs:32 | the received message is the longest zero-free prefix of the frame |
| ChatFrame.Decode | chat/server/src/main.rs:32-33 | a frame decodes exactly when its zero-free prefix is valid UTF-8, and then to that prefix; otherwise the thread panics |
| ChatFrame.TakeNonZeroAll | chat/server/src/main.rs:32 | a frame without zero bytes decodes whole |
| ChatFrame.RoundTrip | chat/server/src/main.rs:32-51 | a message of at most 32 bytes and no zero byte survives encoding then decoding |
| ChatFrame.LongMessageTruncated | chat/server/src/main.rs:51 | a longer zero-free message arrives as its first 32 bytes |
| ChatFrame.ZeroCutsMessage | chat/server/src/main.rs:32 | a zero byte within the first 32 cuts the message short at or before it |
| ChatFrame.Broadcast | chat/server/src/main.rs:49-53 | the clients kept are exactly those whose write succeeded, in their original order |
| ChatFrame.BroadcastAllSucceed | chat/server/src/main.rs:49-53 | when every write succeeds, every client is kept |
| Text.FindFirst | sed/src/lib.rs:47 | the first index where the pattern occurs, or nothing when it occurs nowhere |
| Text.Contains | grep/src/lib.rs:45 | holds exactly when the pattern occurs somewhere |
| Text.Split | sed/src/lib.rs:15-18 | one more piece than separators, no piece holds a separator, and joining the pieces with it gives the text back |
| Text.SplitJoin | sed/src/lib.rs:15-18 | separator-free pieces joined with the separator split back into themselves |
| Text.Lines | grep/src/lib.rs:44 | a non-empty text has a line, and no line holds a '\n' |
| Text.JoinLines | sed/src/lib.rs:43-54 | a text without '\r' or final '\n' is its lines joined by "\n" |
| Text.LinesOfJoin | sed/src/lib.rs:43-54 | lines without breaks or '\r', and with a non-empty last line, joined by "\n", split back into themselves |
| Text.ToLower | grep/src/lib.rs:56-59 | lower-cases each ASCII letter and keeps every other character and the length |
| Text.TrimStart | tool_using_agents/src/safe_system_level_commands_execution.rs:16 | removes the leading whitespace and nothing else |
| Text.TrimEnd | tool_using_agents/src/safe_system_level_commands_execution.rs:16 | removes the trailing whitespace and nothing else |
| Text.NatToString | core_agent_architecture/src/agent_traits_and_behavior_model.rs:67 | decimal digits without a leading zero whose value is the number |
| Text.Utf8Len | tool_using_agents/src/secure_tool_functions.rs:60 | the byte length lies between the character count and four times it, and equals the character count for ASCII text |
| Seqs.Filter | grep/src/lib.rs:44-47 | keeps exactly the elements that pass, as a subsequence, counted with repetitions |
| Seqs.FilterWeaker | grep/src/lib.rs:42-64 | a weaker test keeps at least the same elements, in order |

## Left out

- Threads, channels, locks and `async`: every operation sees one whole state
  before and produces one whole state after. This covers `Arc`, `RwLock`,
  `Mutex`, `mpsc`, `oneshot` and the spawned workers. Channels are input
  sequences.
- Printing and logging (`println!`, `tracing`) produce no modelled output.
- Process spawning, HTTP, the five-second timeout, sleeping, the filesystem and
  the clock are parameters. The retry loop reports the seconds it would sleep.
- `String::from_utf8_lossy` is not modelled. Process output is taken as text.
- Unicode `to_lowercase` is modelled as ASCII lower-casing, the same as
  `to_ascii_lowercase`. Text with non-ASCII upper-case letters is not
  covered.
- serde's error messages are rendered in its usual form. Only their
  "Invalid input: " and "Invalid arguments: " prefixes are stated.
- `IpAddr::from_str` is a parameter of the argument parser.
- Opening a TCP connection is not modelled, so the scan gives the ports a
  worker would probe, not the open ones. `main`'s sorting and printing of
  open ports are not modelled either.
- The role switch commented out in the core crate's `RoleShiftingAgent` is
  left out. A role is any state with a handler; no concrete `RoleHandler`
  exists in the crate. The draft crate's version does not compile: its handler
  discards the role's result. The draft `RoleShiftingAgent` is therefore not
  modelled.
- `Duration::from_std(elapsed).unwrap()` in `get_file_metadata` is taken not
  to panic. A modification time in the future is replaced by the current
  instant, as `elapsed()` failing does in the code.
- `collect_files`, `init_logging` and the walk itself are left out: a
  directory walk is the sequence of entries it yields.
- The chat server's accept loop, its socket reads and its
  `WouldBlock` handling are left out. Only the framing and the client filter
  are modelled.
- `sed`'s and `grep`'s file reading and writing, and their `main`s, are left
  out. The content is a parameter.
- `scanner/src/main.rs` reads one line from standard input. The model scans
  any given source.
- Scanner.ScanToken: positions are character indices. The code mixes
  `chars().nth` (characters) with byte slicing in `make_token`, and the two
  agree only on ASCII text. A non-ASCII source is not covered.
- Scanner.ScanToken: the contract does not say that scanning is
  deterministic in the sense of a unique tokenisation; it states each call's
  token and the next state.
- FileManager.FindLargeFiles requires `min_size_mb` to fit a `u64`, as the
  source's parameter type does.
- FileManager.FindLargeFiles models a debug build, where an overflowing
  threshold product panics. A release build wraps it modulo 2^64 instead, and
  that is not modelled.
- JSON numbers are integers only. Floating-point numbers are not modelled.
- Paths are sequences of components. The textual parsing of a `Path` is not
  modelled.
- Draft duplicates that add nothing are left out: the second
  task-execution crate, the second message-passing file and the second
  event-driven file.

## Findings

| source | as written | input that shows it | evidently intended | confidence | as-written member | corrected member |
|---|---|---|---|---|---|---|
| port_sniffer/src/lib.rs:60 | after each probe the worker breaks once `MAX_PROTS - port <= num_threads`, so having probed the port exactly `num_threads` below 65535 it stops instead of stepping onto 65535 | the default 4 threads: the worker whose track holds 65535 stops at 65531, and no worker probes 65535 | `MAX_PROTS - port < num_threads`, which probes every port from 1 to 65535 | not executed | PortSniffer.ScanMissesLastPort | PortSniffer.ScanFixedCoversAll |

=== FILE: agents.dfy ===
/** The agent trait and its simple implementations, in the core crate and in
    the draft crate of the architecture notes: the echo agent, the planning
    agent, the `run_agent` orchestrator and the role-shifting agent.

    An agent's `handle_input` is a function from its input (and, for agents
    with fields, its current state) to its result and next state.
 */
module Agents {
  import opened Base
  import opened Text

  datatype AgentInput = AgentInput(message: string, context: Option<string>)

  datatype AgentStatus = Success | Error(reason: string) | InProgress

  datatype AgentResult = AgentResult(output: string, status: AgentStatus)

  /** `EchoAgent` of the core crate: it echoes, but reports the restricted-command
      error whatever the message. */
  function EchoAgentCore(input: AgentInput): (r: AgentResult)
    ensures r.status == Error("Restricted command")
    ensures Contains(input.message, "shutdown") ==> r.output == ""
    ensures !Contains(input.message, "shutdown") ==> r.output == "Echo: " + input.message
  {
    if Contains(input.message, "shutdown") then AgentResult("", Error("Restricted command"))
    else AgentResult("Echo: " + input.message, Error("Restricted command"))
  }

  /** `EchoAgent` of the draft crate: succeeds unless the message mentions "shutdown". */
  function EchoAgentDraft(input: AgentInput): (r: AgentResult)
    ensures r.status.Success? <==> !Contains(input.message, "shutdown")
    ensures !r.status.Success? ==> r == AgentResult("", Error("Restricted command"))
    ensures r.status.Success? ==> r.output == "Echo: " + input.message
  {
    if Contains(input.message, "shutdown") then AgentResult("", Error("Restricted command"))
    else AgentResult("Echo: " + input.message, Success)
  }

  /** The two echo agents write the same output; their statuses differ exactly
      when the message does not mention "shutdown". */
  lemma {:induction false} EchoVersionsDiffer(input: AgentInput)
    ensures EchoAgentCore(input).output == EchoAgentDraft(input).output
    ensures EchoAgentCore(input).status != EchoAgentDraft(input).status
        <==> !Contains(input.message, "shutdown")
  {
  }

  datatype PlanningAgent = PlanningAgent(steps: seq<string>)

  /** `PlanningAgent::handle_input` of the core crate: reports on the steps it
      already holds and never changes them. */
  function PlanningHandleCore(agent: PlanningAgent, input: AgentInput): (r: (AgentResult, PlanningAgent))
    ensures r.1 == agent
    ensures r.0.status.Success? <==> |agent.steps| > 0
    ensures |agent.steps| == 0 ==> r.0 == AgentResult("No viable plan", Error("Planning failed"))
    ensures |agent.steps| > 0 ==> r.0.output == "Executed " + NatToString(|agent.steps|) + " steps"
  {
    if |agent.steps| == 0 then (AgentResult("No viable plan", Error("Planning failed")), agent)
    else (AgentResult("Executed " + NatToString(|agent.steps|) + " steps", Success), agent)
  }

  /** `plan_task` of the draft crate: a stub that finds no step. */
  function PlanTask(task: string): (steps: seq<string>)
    ensures |steps| == 0
  {
    []
  }

  /** `PlanningAgent::handle_input` of the draft crate: the steps are replaced
      by `plan_task`'s, which are always none, so planning always fails. */
  function PlanningHandleDraft(agent: PlanningAgent, input: AgentInput): (r: (AgentResult, PlanningAgent))
    ensures r.1.steps == []
    ensures r.0 == AgentResult("No viable plan", Error("Planning failed"))
  {
    PlanningHandleCore(agent.(steps := PlanTask(input.message)), input)
  }

  datatype ToolCall = ToolCall(name: string, args: seq<string>)

  /** `run_agent`: handle the input, then call the "notify" tool with the
      output exactly when the agent succeeded. The tool's reply is only printed. */
  function RunAgent(handle: AgentInput -> AgentResult, input: AgentInput): (call: Option<ToolCall>)
    ensures call.Some? <==> handle(input).status.Success?
    ensures call.Some? ==> call.value == ToolCall("notify", [handle(input).output])
  {
    var result := handle(input);
    if result.status.Success? then Some(ToolCall("notify", [result.output])) else None
  }

  /** The core echo agent never triggers a notification. */
  lemma {:induction false} RunEchoCoreNeverNotifies(input: AgentInput)
    ensures RunAgent(EchoAgentCore, input) == None
  {
  }

  /** The draft echo agent notifies with its echo unless told to shut down. */
  lemma {:induction false} RunEchoDraftNotifies(input: AgentInput)
    ensures !Contains(input.message, "shutdown") ==>
      RunAgent(EchoAgentDraft, input) == Some(ToolCall("notify", ["Echo: " + input.message]))
    ensures Contains(input.message, "shutdown") ==> RunAgent(EchoAgentDraft, input) == None
  {
  }

  /** A `RoleHandler` behind `Box<dyn RoleHandler>`: its own state and its
      `handle(&mut self, input)`, which answers and may change that state. */
  datatype Role<!R> = Role(state: R, handle: (R, AgentInput) -> (AgentResult, R))

  /** Feed `inputs` to a role on its own, collecting its answers. */
  function RunRole<R>(role: Role<R>, inputs: seq<AgentInput>): (r: (seq<AgentResult>, Role<R>))
    ensures |r.0| == |inputs| && r.1.handle == role.handle
    decreases |inputs|
  {
    if |inputs| == 0 then ([], role)
    else
      var (answer, state) := role.handle(role.state, inputs[0]);
      var rest := RunRole(role.(state := state), inputs[1..]);
      ([answer] + rest.0, rest.1)
  }

  datatype RoleShiftingAgent<!R> = RoleShiftingAgent(currentRole: Role<R>)

  /** `RoleShiftingAgent::handle_input` of the core crate: the role switch is
      commented out, so a "switch" message has no effect. Which role is
      current never changes; that role answers and updates its own state. */
  function RoleShiftingHandle<R>(agent: RoleShiftingAgent<R>, input: AgentInput): (r: (AgentResult, RoleShiftingAgent<R>))
    ensures r.1.currentRole.handle == agent.currentRole.handle
    ensures RunRole(agent.currentRole, [input]) == ([r.0], r.1.currentRole)
  {
    var (answer, state) := agent.currentRole.handle(agent.currentRole.state, input);
    var role := agent.currentRole.(state := state);
    assert [input][1..] == [];
    assert RunRole(role, []) == ([], role);
    assert [answer] + [] == [answer];
    (answer, RoleShiftingAgent(role))
  }

  /** Feed `inputs` to the role-shifting agent, collecting its answers. */
  function RunShifting<R>(agent: RoleShiftingAgent<R>, inputs: seq<AgentInput>): (r: (seq<AgentResult>, RoleShiftingAgent<R>))
    ensures |r.0| == |inputs|
    decreases |inputs|
  {
    if |inputs| == 0 then ([], agent)
    else
      var (answer, next) := RoleShiftingHandle(agent, inputs[0]);
      var rest := RunShifting(next, inputs[1..]);
      ([answer] + rest.0, rest.1)
  }

  /** Over any run, "switch" messages included, the role-shifting agent
      answers exactly as its first role alone would, and ends holding that
      role in the state the role alone reaches. */
  lemma {:induction false} ShiftingIsRole<R>(agent: RoleShiftingAgent<R>, inputs: seq<AgentInput>)
    ensures RunShifting(agent, inputs) == (RunRole(agent.currentRole, inputs).0, RoleShiftingAgent(RunRole(agent.currentRole, inputs).1))
    decreases |inputs|
  {
    if |inputs| > 0 {
      var next := RoleShiftingHandle(agent, inputs[0]).1;
      ShiftingIsRole(next, inputs[1..]);
    }
  }
}

=== FILE: base.dfy ===
/** Failure-carrying wrappers shared by every module of the model.

    `Option` stands for Rust's `Option<T>` and `Result` for `Result<T, E>`.
 */
module Base {

  datatype Option<+T> = None | Some(value: T) {

    /** The wrapped value, or `default` for `None` (Rust's `unwrap_or`). */
    function GetOr(default: T): T
    {
      match this
      case Some(v) => v
      case None => default
    }
  }

  datatype Result<+T, +E> = Ok(value: T) | Err(error: E)
}

=== FILE: chat_frame.dfy ===
/** The chat server's fixed-size framing: every message travels as exactly
    `MSG_SIZE` bytes, zero-padded, and a received frame is read up to its first
    zero byte. A broadcast keeps the clients whose write succeeded.

    Sockets, threads, the channel and the sleeps are not modelled; whether a
    write succeeds and whether bytes are valid UTF-8 are parameters.
 */
module ChatFrame {
  import opened Seqs

  /** `MSG_SIZE`. */
  const MsgSize: nat := 32

  newtype Byte = x: int | 0 <= x < 256

  /** `n` zero bytes. */
  function Zeros(n: nat): (z: seq<Byte>)
    ensures |z| == n && forall k :: 0 <= k < n ==> z[k] == 0
  {
    seq(n, k => 0)
  }

  /** `Vec::resize(MSG_SIZE, 0)` on the message bytes: truncate a long message,
      pad a short one with zeros. */
  function Encode(msg: seq<Byte>): (frame: seq<Byte>)
    ensures |frame| == MsgSize
    ensures |msg| >= MsgSize ==> frame == msg[..MsgSize]
    ensures |msg| < MsgSize ==> frame[..|msg|] == msg && forall k :: |msg| <= k < MsgSize ==> frame[k] == 0
  {
    if |msg| >= MsgSize then msg[..MsgSize] else msg + Zeros(MsgSize - |msg|)
  }

  /** `take_while(|&x| x != 0)`: the bytes before the first zero. */
  function TakeNonZero(frame: seq<Byte>): (msg: seq<Byte>)
    ensures |msg| <= |frame| && msg == frame[..|msg|]
    ensures forall k :: 0 <= k < |msg| ==> msg[k] != 0
    ensures |msg| < |frame| ==> frame[|msg|] == 0
    decreases |frame|
  {
    if |frame| == 0 || frame[0] == 0 then []
    else
      var rest := TakeNonZero(frame[1..]);
      assert frame[1..][..|rest|] == frame[1..|rest| + 1];
      [frame[0]] + rest
  }

  /** What the client thread does with a frame it read in full. */
  datatype Received = Message(bytes: seq<Byte>) | InvalidUtf8Panic

  /** Read one frame: the bytes before the first zero, which must be valid
      UTF-8 or the thread panics (`expect("Invalid utf8 message!")`). */
  function Decode(frame: seq<Byte>, validUtf8: seq<Byte> -> bool): (r: Received)
    ensures r.Message? <==> validUtf8(TakeNonZero(frame))
    ensures r.Message? ==> r.bytes == TakeNonZero(frame)
  {
    var msg := TakeNonZero(frame);
    if validUtf8(msg) then Message(msg) else InvalidUtf8Panic
  }

  /** A frame without zero bytes decodes to all of it. */
  lemma {:induction false} TakeNonZeroAll(frame: seq<Byte>)
    requires forall k :: 0 <= k < |frame| ==> frame[k] != 0
    ensures TakeNonZero(frame) == frame
  {
  }

  /** A message of at most `MSG_SIZE` bytes and without a zero byte survives
      the round trip through a frame. */
  lemma {:induction false} RoundTrip(msg: seq<Byte>)
    requires |msg| <= MsgSize
    requires forall k :: 0 <= k < |msg| ==> msg[k] != 0
    ensures TakeNonZero(Encode(msg)) == msg
  {
    var frame := Encode(msg);
    var got := TakeNonZero(frame);
    if |msg| < MsgSize {
      assert frame[|msg|] == 0;
    }
  }

  /** A longer message arrives truncated to its first `MSG_SIZE` bytes. */
  lemma {:induction false} LongMessageTruncated(msg: seq<Byte>)
    requires |msg| >= MsgSize
    requires forall k :: 0 <= k < |msg| ==> msg[k] != 0
    ensures TakeNonZero(Encode(msg)) == msg[..MsgSize]
  {
    TakeNonZeroAll(msg[..MsgSize]);
  }

  /** A zero byte inside a message cuts it short on arrival. */
  lemma {:induction false} ZeroCutsMessage(msg: seq<Byte>, i: nat)
    requires i < |msg| && i < MsgSize && msg[i] == 0
    ensures |TakeNonZero(Encode(msg))| <= i
  {
    var frame := Encode(msg);
    var got := TakeNonZero(frame);
    assert frame[i] == 0;
  }

  /** The broadcast's `filter_map`: the clients whose `write_all` succeeded,
      in their original order. */
  function Broadcast<C(==,!new)>(clients: seq<C>, writeOk: C -> bool): (kept: seq<C>)
    ensures forall c :: c in kept <==> c in clients && writeOk(c)
    ensures IsSubsequence(kept, clients)
    ensures |kept| == CountWhere(clients, writeOk)
  {
    Filter(clients, writeOk)
  }

  /** When every write succeeds, every client is kept. */
  lemma {:induction false} BroadcastAllSucceed<C(!new)>(clients: seq<C>, writeOk: C -> bool)
    requires forall k :: 0 <= k < |clients| ==> writeOk(clients[k])
    ensures Broadcast(clients, writeOk) == clients
    decreases |clients|
  {
    if |clients| > 0 {
      BroadcastAllSucceed(clients[1..], writeOk);
      FilterCons(clients[0], clients[1..], writeOk);
      assert [clients[0]] + clients[1..] == clients;
    }
  }
}

=== FILE: event_loop.dfy ===
/** The event-driven state machine of the core architecture
    (`drive_behavior`): an agent that starts idle, waits for a task once it
    receives input, and goes back to idle or into an error state when the task
    completes. The event channel is a sequence of events; what the loop prints
    is not modelled.
 */
module EventLoop {

  datatype AgentEvent =
    | InputReceived(text: string)
    | TaskCompleted(taskId: string, success: bool)
    | SystemAlert(message: string)
    | ExternalMessage(data: string)

  datatype AgentState = Idle | WaitingForTask | Executing | Error(reason: string)

  /** One transition of `drive_behavior`. */
  function Step(state: AgentState, event: AgentEvent): (next: AgentState)
    ensures state.Idle? && event.InputReceived? ==> next == WaitingForTask
    ensures state.WaitingForTask? && event.TaskCompleted? && event.success ==> next == Idle
    ensures state.WaitingForTask? && event.TaskCompleted? && !event.success ==> next == Error("Task failed")
    ensures !(state.Idle? && event.InputReceived?) && !(state.WaitingForTask? && event.TaskCompleted?) ==>
      next == state
  {
    match (state, event)
    case (Idle, InputReceived(_)) => WaitingForTask
    case (WaitingForTask, TaskCompleted(_, success)) => if success then Idle else Error("Task failed")
    case (Error(_), InputReceived(_)) => state
    case _ => state
  }

  /** The states `drive_behavior` can be in. */
  predicate Reachable(state: AgentState) {
    state.Idle? || state.WaitingForTask? || state == Error("Task failed")
  }

  /** Transitions stay among the reachable states. */
  lemma {:induction false} StepReachable(state: AgentState, event: AgentEvent)
    requires Reachable(state)
    ensures Reachable(Step(state, event))
  {
  }

  /** The state after handling `events` in order from `state`: the machine
      stays among the reachable states, so it never executes, and once in
      error no event leaves it. */
  function Run(state: AgentState, events: seq<AgentEvent>): (r: AgentState)
    ensures Reachable(state) ==> Reachable(r) && !r.Executing?
    ensures state.Error? ==> r == state
    decreases |events|
  {
    if |events| == 0 then state
    else
      if Reachable(state) then
        StepReachable(state, events[0]);
        Run(Step(state, events[0]), events[1..])
      else
        Run(Step(state, events[0]), events[1..])
  }

  /** `drive_behavior`: the machine starts idle, so its only error is
      "Task failed" and it never executes. */
  function Drive(events: seq<AgentEvent>): (r: AgentState)
    ensures r.Idle? || r.WaitingForTask? || r == Error("Task failed")
  {
    Run(Idle, events)
  }

  /** Input, then a failed completion, puts the machine into error for good. */
  lemma {:induction false} FailedTaskSticks(input: string, id: string, later: seq<AgentEvent>)
    ensures Drive([InputReceived(input), TaskCompleted(id, false)] + later) == Error("Task failed")
  {
    var events := [InputReceived(input), TaskCompleted(id, false)] + later;
    assert events[1..][1..] == later;
    assert Run(Idle, events) == Run(WaitingForTask, events[1..]);
    assert Run(WaitingForTask, events[1..]) == Run(Error("Task failed"), later);
  }
}

=== FILE: file_manager.dfy ===
/** The routing rules of the local file manager: file metadata with a
    lower-cased extension, the destination folder chosen by extension and age,
    the destination name `move_file` picks, and the two file finders.

    The filesystem and the clock are parameters: a path is the sequence of its
    components, what `fs::metadata` reports is given per path, instants are
    integer nanoseconds since the Unix epoch, and directory walks are the
    sequence of entries they yield.
 */
module FileManager {
  import opened Base
  import opened Text
  import opened Seqs

  /** A path as the sequence of its components. */
  type Path = seq<string>

  /** `Path::file_name`: the last component, unless there is none or it is "..". */
  function FileName(path: Path): (r: Option<string>)
    ensures r.Some? <==> |path| > 0 && path[|path| - 1] != ".."
    ensures r.Some? ==> r.value == path[|path| - 1]
  {
    if |path| == 0 || path[|path| - 1] == ".." then None else Some(path[|path| - 1])
  }

  /** Index of the last '.' of `name`, if any. */
  function LastDot(name: string): (r: Option<nat>)
    ensures r.Some? ==> r.value < |name| && name[r.value] == '.'
    ensures r.Some? ==> forall k :: r.value < k < |name| ==> name[k] != '.'
    ensures r.None? ==> forall k :: 0 <= k < |name| ==> name[k] != '.'
    decreases |name|
  {
    if |name| == 0 then None
    else if name[|name| - 1] == '.' then Some(|name| - 1)
    else LastDot(name[..|name| - 1])
  }

  /** The extension of a file name: what follows its last '.', unless the name
      is "..", has no '.', or has its only '.' in front (a hidden file). */
  function NameExtension(name: string): (r: Option<string>)
    ensures r.Some? ==> '.' !in r.value
    ensures r.Some? ==> exists k :: 0 < k < |name| && name[k] == '.' && r.value == name[k + 1..]
    ensures (forall k :: 0 < k < |name| ==> name[k] != '.') ==> r.None?
    ensures name == ".." ==> r.None?
    ensures name != ".." && (exists k :: 0 < k < |name| && name[k] == '.') ==> r.Some?
  {
    if name == ".." then None
    else match LastDot(name)
      case None => None
      case Some(k) => if k == 0 then None else Some(name[k + 1..])
  }

  /** A stem and an extension without '.' joined by '.' give that extension
      back, unless the name is "..". */
  lemma {:induction false} NameExtensionOfParts(stem: string, ext: string)
    requires |stem| > 0 && '.' !in ext && stem + "." + ext != ".."
    ensures NameExtension(stem + "." + ext) == Some(ext)
  {
    var name := stem + "." + ext;
    assert name[|stem|] == '.';
    var r := NameExtension(name);
    var k :| 0 < k < |name| && name[k] == '.' && r.value == name[k + 1..];
    // Every character after the chosen '.' belongs to the extension, which
    // holds no '.', so the chosen '.' is the one after the stem.
    assert forall j :: k < j < |name| ==> name[j] == r.value[j - k - 1];
    assert name[|stem| + 1..] == ext;
  }

  /** `Path::extension`: the extension of the last component, when that is
      not "..". */
  function Extension(path: Path): (r: Option<string>)
    ensures |path| == 0 ==> r.None?
    ensures |path| > 0 ==>
      var name := path[|path| - 1];
      && (r.Some? <==> name != ".." && exists k :: 0 < k < |name| && name[k] == '.')
      && (r.Some? ==> '.' !in r.value && exists k :: 0 < k < |name| && name[k] == '.' && r.value == name[k + 1..])
  {
    match FileName(path)
    case None => None
    case Some(name) => NameExtension(name)
  }

  /** What `fs::metadata` reports for a file: its length and, when readable,
      its modification instant. */
  datatype FileStat = FileStat(size: nat, mtime: Option<int>)

  datatype FileMetadata = FileMetadata(path: Path, size: nat, modified: int, extension: Option<string>)

  /** `get_file_metadata`: nothing when the file cannot be inspected;
      otherwise its size, its modification instant (the current instant when
      that is unreadable or in the future) and its lower-cased extension. */
  function GetFileMetadata(path: Path, stat: Option<FileStat>, now: int): (r: Option<FileMetadata>)
    ensures r.Some? <==> stat.Some?
    ensures r.Some? ==> r.value.path == path && r.value.size == stat.value.size
    ensures r.Some? ==> r.value.modified <= now
    ensures r.Some? && stat.value.mtime.Some? && stat.value.mtime.value <= now ==>
      r.value.modified == stat.value.mtime.value
    ensures r.Some? ==> (r.value.extension.Some? <==> Extension(path).Some?)
    ensures r.Some? && r.value.extension.Some? ==> r.value.extension.value == ToLower(Extension(path).value)
  {
    match stat
    case None => None
    case Some(st) =>
      var modified := if st.mtime.Some? && st.mtime.value <= now then st.mtime.value else now;
      var ext := match Extension(path) case Some(e) => Some(ToLower(e)) case None => None;
      Some(FileMetadata(path, st.size, modified, ext))
  }

  /** Ninety days in nanoseconds. */
  const ArchiveAge: int := 90 * 24 * 60 * 60 * 1_000_000_000

  /** `route_file`: the folder a file belongs in. Known extensions choose a
      folder whatever the age; any other extension goes to "Archive" when the
      file is older than ninety days; a file without extension stays put. */
  function RouteFile(file: FileMetadata, now: int): (r: Option<string>)
    ensures file.extension == Some("txt") ==> r == Some("TextFiles")
    ensures file.extension == Some("jpg") || file.extension == Some("png") ==> r == Some("Images")
    ensures file.extension == Some("mp4") ==> r == Some("Videos")
    ensures file.extension == Some("pdf") || file.extension == Some("docx") ==> r == Some("Documents")
    ensures file.extension.Some? && file.extension.value !in {"txt", "jpg", "png", "mp4", "pdf", "docx"} ==>
      (r == Some("Archive") <==> file.modified < now - ArchiveAge) && (r.None? <==> file.modified >= now - ArchiveAge)
    ensures file.extension.None? ==> r.None?
  {
    match file.extension
    case Some("txt") => Some("TextFiles")
    case Some("jpg") => Some("Images")
    case Some("png") => Some("Images")
    case Some("mp4") => Some("Videos")
    case Some("pdf") => Some("Documents")
    case Some("docx") => Some("Documents")
    case Some(_) => if file.modified < now - ArchiveAge then Some("Archive") else None
    case None => None
  }

  /** An upper-case extension routes like the lower-case one, because the
      metadata stores it lower-cased. */
  lemma {:induction false} UpperCaseRoutes(dir: Path, stat: FileStat, now: int)
    ensures var m := GetFileMetadata(dir + ["REPORT.TXT"], Some(stat), now);
      m.Some? && RouteFile(m.value, now) == Some("TextFiles")
  {
    var path := dir + ["REPORT.TXT"];
    assert FileName(path) == Some("REPORT.TXT");
    assert LastDot("REPORT.TXT") == Some(6) by {
      assert "REPORT.TXT"[..9][..8][..7] == "REPORT.";
    }
    assert "REPORT.TXT"[7..] == "TXT";
    assert ToLower("TXT") == "txt";
  }

  /** What `move_file` does. The result of the final rename is ignored by the
      code, so a move that reaches it reports success with the destination it
      tried. */
  datatype MoveOutcome =
    | Panicked
    | CreateDirFailed(error: string)
    | Moved(destination: Path)

  /** `Utc::now().timestamp()`: whole seconds, rounded down. */
  function TimestampSeconds(now: int): int {
    now / 1_000_000_000
  }

  /** `move_file`: the destination is the file's name in `targetDir`, or that
      name prefixed by the current timestamp and '_' when a file of that name
      is already there. A missing target directory is created first; a path
      without a file name panics. */
  function MoveFile(file: FileMetadata, targetDir: Path, targetExists: bool,
                    createDir: Result<(), string>, pathExists: Path -> bool, now: int): (r: MoveOutcome)
    ensures r.Panicked? <==> FileName(file.path).None?
    ensures r.CreateDirFailed? <==> FileName(file.path).Some? && !targetExists && createDir.Err?
    ensures r.Moved? ==>
      var name := FileName(file.path).value;
      && |r.destination| == |targetDir| + 1
      && r.destination[..|targetDir|] == targetDir
      && (pathExists(targetDir + [name]) ==>
            r.destination[|targetDir|] == IntToString(TimestampSeconds(now)) + "_" + name)
      && (!pathExists(targetDir + [name]) ==> r.destination == targetDir + [name])
  {
    match FileName(file.path)
    case None => Panicked
    case Some(name) =>
      var dest := targetDir + [name];
      if !targetExists && createDir.Err? then CreateDirFailed(createDir.error)
      else if pathExists(dest) then Moved(targetDir + [IntToString(TimestampSeconds(now)) + "_" + name])
      else Moved(dest)
  }

  /** An entry yielded by the directory walk. */
  datatype DirEntry = DirEntry(path: Path, isFile: bool)

  /** The test of `find_files_by_extension`. */
  predicate ExtensionMatches(entry: DirEntry, extension: string) {
    entry.isFile && Extension(entry.path).Some? && EqIgnoreAsciiCase(Extension(entry.path).value, extension)
  }

  /** The paths of `es`, in order. */
  function PathsOf(es: seq<DirEntry>): (r: seq<Path>)
    ensures |r| == |es| && forall k :: 0 <= k < |es| ==> r[k] == es[k].path
  {
    seq(|es|, k requires 0 <= k < |es| => es[k].path)
  }

  /** `find_files_by_extension`: the paths of the walked files whose extension
      equals `extension` up to ASCII case, in walk order. */
  function FindFilesByExtension(entries: seq<DirEntry>, extension: string): (r: seq<Path>)
    ensures |r| == CountWhere(entries, e => ExtensionMatches(e, extension))
    ensures forall k :: 0 <= k < |r| ==> exists e :: e in entries && e.path == r[k] && ExtensionMatches(e, extension)
    ensures forall e :: e in entries && ExtensionMatches(e, extension) ==> e.path in r
  {
    var kept := Filter(entries, e => ExtensionMatches(e, extension));
    FoundPaths(entries, extension, kept);
    PathsOf(kept)
  }

  /** What `FindFilesByExtension` promises, for the entries its filter kept. */
  lemma {:induction false} FoundPaths(entries: seq<DirEntry>, extension: string, kept: seq<DirEntry>)
    requires kept == Filter(entries, e => ExtensionMatches(e, extension))
    ensures forall k :: 0 <= k < |kept| ==>
      exists e :: e in entries && e.path == PathsOf(kept)[k] && ExtensionMatches(e, extension)
    ensures forall e :: e in entries && ExtensionMatches(e, extension) ==> e.path in PathsOf(kept)
  {
    var r := PathsOf(kept);
    forall k | 0 <= k < |kept|
      ensures exists e :: e in entries && e.path == r[k] && ExtensionMatches(e, extension)
    {
      assert kept[k] in kept;
    }
    forall e | e in entries && ExtensionMatches(e, extension) ensures e.path in r {
      assert e in kept;
      var k :| 0 <= k < |kept| && kept[k] == e;
      assert r[k] == e.path;
    }
  }

  /** The query's case does not matter. */
  lemma {:induction false} FindIgnoresQueryCase(entries: seq<DirEntry>, extension: string)
    ensures FindFilesByExtension(entries, extension) == FindFilesByExtension(entries, ToLower(extension))
  {
    assert ToLower(ToLower(extension)) == ToLower(extension);
    FilterCongruent(entries, e => ExtensionMatches(e, extension), e => ExtensionMatches(e, ToLower(extension)));
  }

  /** The bound of `u64`. */
  const U64Limit: int := 0x1_0000_0000_0000_0000

  const Mebibyte: nat := 1024 * 1024

  /** A walked entry that is a file, can be inspected and holds at least `minSize` bytes. */
  predicate IsLarge(e: DirEntry, stat: Path -> Option<FileStat>, minSize: nat) {
    e.isFile && stat(e.path).Some? && stat(e.path).value.size >= minSize
  }

  /** The metadata of `es`, each of which can be inspected. */
  function MetadataOf(es: seq<DirEntry>, stat: Path -> Option<FileStat>, now: int): (r: seq<FileMetadata>)
    requires forall k :: 0 <= k < |es| ==> stat(es[k].path).Some?
    ensures |r| == |es|
    ensures forall k :: 0 <= k < |es| ==> Some(r[k]) == GetFileMetadata(es[k].path, stat(es[k].path), now)
  {
    seq(|es|, k requires 0 <= k < |es| && stat(es[k].path).Some? =>
      GetFileMetadata(es[k].path, stat(es[k].path), now).value)
  }

  /** The files `find_large_files` keeps from the entries of the walk, with
      their metadata, in walk order. */
  function LargeFiles(entries: seq<DirEntry>, stat: Path -> Option<FileStat>, minSize: nat, now: int): (r: seq<FileMetadata>)
    ensures |r| == CountWhere(entries, e => IsLarge(e, stat, minSize))
    ensures forall k :: 0 <= k < |r| ==> r[k].size >= minSize
    ensures forall k :: 0 <= k < |r| ==>
      exists e :: e in entries && IsLarge(e, stat, minSize) && GetFileMetadata(e.path, stat(e.path), now) == Some(r[k])
    ensures forall e :: e in entries && IsLarge(e, stat, minSize) ==>
      GetFileMetadata(e.path, stat(e.path), now).value in r
  {
    var kept := Filter(entries, e => IsLarge(e, stat, minSize));
    assert forall k :: 0 <= k < |kept| ==> IsLarge(kept[k], stat, minSize);
    FoundLarge(entries, stat, minSize, now, kept);
    AllLargeFound(entries, stat, minSize, now, kept);
    MetadataOf(kept, stat, now)
  }

  /** Each kept entry is large and comes from the walk. */
  lemma {:induction false} FoundLarge(entries: seq<DirEntry>, stat: Path -> Option<FileStat>, minSize: nat, now: int, kept: seq<DirEntry>)
    requires kept == Filter(entries, e => IsLarge(e, stat, minSize))
    requires forall k :: 0 <= k < |kept| ==> stat(kept[k].path).Some?
    ensures forall k :: 0 <= k < |kept| ==> MetadataOf(kept, stat, now)[k].size >= minSize
    ensures forall k :: 0 <= k < |kept| ==>
      exists e :: e in entries && IsLarge(e, stat, minSize) && GetFileMetadata(e.path, stat(e.path), now) == Some(MetadataOf(kept, stat, now)[k])
  {
    var r := MetadataOf(kept, stat, now);
    forall k | 0 <= k < |kept|
      ensures r[k].size >= minSize
      ensures exists e :: e in entries && IsLarge(e, stat, minSize) && GetFileMetadata(e.path, stat(e.path), now) == Some(r[k])
    {
      assert IsLarge(kept[k], stat, minSize);
      assert kept[k] in kept;
    }
  }

  /** Every large entry of the walk is kept. */
  lemma {:induction false} AllLargeFound(entries: seq<DirEntry>, stat: Path -> Option<FileStat>, minSize: nat, now: int, kept: seq<DirEntry>)
    requires kept == Filter(entries, e => IsLarge(e, stat, minSize))
    requires forall k :: 0 <= k < |kept| ==> stat(kept[k].path).Some?
    ensures forall e :: e in entries && IsLarge(e, stat, minSize) ==>
      GetFileMetadata(e.path, stat(e.path), now).value in MetadataOf(kept, stat, now)
  {
    var r := MetadataOf(kept, stat, now);
    forall e | e in entries && IsLarge(e, stat, minSize)
      ensures GetFileMetadata(e.path, stat(e.path), now).value in r
    {
      assert e in kept;
      var k :| 0 <= k < |kept| && kept[k] == e;
      assert Some(r[k]) == GetFileMetadata(e.path, stat(e.path), now);
    }
  }

  /** `find_large_files`: the threshold is `min_size_mb` mebibytes, computed in
      `u64`; a product that does not fit panics (overflow checks on). */
  function FindLargeFiles(entries: seq<DirEntry>, stat: Path -> Option<FileStat>, minSizeMb: nat, now: int): (r: Result<seq<FileMetadata>, string>)
    requires minSizeMb < U64Limit
    ensures r.Err? <==> minSizeMb * Mebibyte >= U64Limit
    ensures r.Ok? ==> forall k :: 0 <= k < |r.value| ==> r.value[k].size >= minSizeMb * Mebibyte
    ensures r.Ok? ==> forall e :: e in entries && e.isFile && stat(e.path).Some? && stat(e.path).value.size >= minSizeMb * Mebibyte ==>
      GetFileMetadata(e.path, stat(e.path), now).value in r.value
    ensures r.Ok? ==> |r.value| == CountWhere(entries, e => IsLarge(e, stat, minSizeMb * Mebibyte))
    ensures r.Ok? ==> forall k :: 0 <= k < |r.value| ==>
      exists e :: e in entries && IsLarge(e, stat, minSizeMb * Mebibyte) && GetFileMetadata(e.path, stat(e.path), now) == Some(r.value[k])
  {
    ThresholdProduct(minSizeMb);
    if minSizeMb * 1024 >= U64Limit || minSizeMb * 1024 * 1024 >= U64Limit then Err("attempt to multiply with overflow")
    else
      var minSize := minSizeMb * 1024 * 1024;
      var kept := LargeFiles(entries, stat, minSize, now);
      assert forall e :: e in entries && e.isFile && stat(e.path).Some? && stat(e.path).value.size >= minSize ==>
        IsLarge(e, stat, minSize);
      Ok(kept)
  }

  /** The two checked multiplications overflow exactly when the whole
      product does. */
  lemma {:induction false} ThresholdProduct(m: nat)
    ensures m * 1024 * 1024 == m * Mebibyte
    ensures m * 1024 >= U64Limit ==> m * 1024 * 1024 >= U64Limit
  {
  }

  /** A file of exactly the threshold size is kept: the bound is inclusive. */
  lemma {:induction false} ThresholdInclusive(path: Path, mtime: Option<int>, now: int)
    ensures var stat := (p: Path) => Some(FileStat(Mebibyte, mtime));
      var r := FindLargeFiles([DirEntry(path, true)], stat, 1, now);
      r.Ok? && |r.value| == 1
  {
    var stat := (p: Path) => Some(FileStat(Mebibyte, mtime));
    var entries := [DirEntry(path, true)];
    assert entries[0] in entries;
  }
}

=== FILE: grep.dfy ===
/** The `grep` crate: the command-line configuration and the two line
    searches. Reading the file and printing the lines are not modelled; the
    environment variable is a parameter.
 */
module Grep {
  import opened Base
  import opened Text
  import opened Seqs

  datatype Config = Config(query: string, filename: string, caseSensitive: bool)

  /** `Config::new`: the query and file name are the first two arguments after
      the program name; the search is case sensitive unless `CASE_INSENSITIVE`
      is set (`caseInsensitiveVar` is its value, `None` when it is unset or not
      valid Unicode). */
  function NewConfig(args: seq<string>, caseInsensitiveVar: Option<string>): (r: Result<Config, string>)
    ensures r.Err? <==> |args| < 3
    ensures r.Err? ==> r.error == "not enough arguments"
    ensures r.Ok? ==> r.value.query == args[1] && r.value.filename == args[2]
    ensures r.Ok? ==> (r.value.caseSensitive <==> caseInsensitiveVar.None?)
  {
    if |args| < 3 then Err("not enough arguments")
    else Ok(Config(args[1], args[2], caseInsensitiveVar.None?))
  }

  /** `search`: the lines of `contents` that contain `query`, in order. */
  function Search(query: string, contents: string): (r: seq<string>)
    ensures forall k :: 0 <= k < |r| ==> Contains(r[k], query)
    ensures forall line :: line in Lines(contents) && Contains(line, query) ==> line in r
    ensures forall line :: line in r ==> line in Lines(contents)
    ensures IsSubsequence(r, Lines(contents))
    ensures |r| == CountWhere(Lines(contents), HoldsQuery(query))
  {
    Filter(Lines(contents), HoldsQuery(query))
  }

  /** The test of `search`: the line contains the query. */
  function HoldsQuery(query: string): (string -> bool) {
    line => Contains(line, query)
  }

  /** The test of `search_case_insensitive`: the lower-cased line contains `q`. */
  function HoldsLowerQuery(q: string): (string -> bool) {
    line => Contains(ToLower(line), q)
  }

  /** `search_case_insensitive`: the lines whose lower-cased form contains the
      lower-cased query; the lines themselves are returned unchanged. */
  function SearchCaseInsensitive(query: string, contents: string): (r: seq<string>)
    ensures forall k :: 0 <= k < |r| ==> Contains(ToLower(r[k]), ToLower(query))
    ensures forall line :: line in Lines(contents) && Contains(ToLower(line), ToLower(query)) ==> line in r
    ensures forall line :: line in r ==> line in Lines(contents)
    ensures IsSubsequence(r, Lines(contents))
    ensures |r| == CountWhere(Lines(contents), HoldsLowerQuery(ToLower(query)))
  {
    Filter(Lines(contents), HoldsLowerQuery(ToLower(query)))
  }

  /** An occurrence survives lower-casing both sides. */
  lemma {:induction false} ContainsLower(line: string, query: string)
    requires Contains(line, query)
    ensures Contains(ToLower(line), ToLower(query))
  {
    var i :| OccursAt(line, query, i);
    assert ToLower(line)[i..i + |query|] == ToLower(query) by {
      forall k | 0 <= k < |query| ensures ToLower(line)[i..i + |query|][k] == ToLower(query)[k] {
        assert line[i..i + |query|][k] == query[k];
      }
    }
    assert OccursAt(ToLower(line), ToLower(query), i);
  }

  /** Every case-sensitive match is also a case-insensitive one, in the same order. */
  lemma {:induction false} SensitiveWithinInsensitive(query: string, contents: string)
    ensures IsSubsequence(Search(query, contents), SearchCaseInsensitive(query, contents))
  {
    var ls := Lines(contents);
    var q := ToLower(query);
    forall k | 0 <= k < |ls| && Contains(ls[k], query) ensures Contains(ToLower(ls[k]), q) {
      ContainsLower(ls[k], query);
    }
    FilterWeaker(ls, HoldsQuery(query), HoldsLowerQuery(q));
  }

  /** The case of the query does not matter to the case-insensitive search. */
  lemma {:induction false} InsensitiveIgnoresQueryCase(query: string, contents: string)
    ensures SearchCaseInsensitive(query, contents) == SearchCaseInsensitive(ToLower(query), contents)
  {
    assert ToLower(ToLower(query)) == ToLower(query);
  }

  /** No two neighbouring characters of `s` spell the first two of `sub`. */
  lemma {:induction false} NotContainsByPair(s: string, sub: string)
    requires |sub| >= 2
    requires forall i :: 0 <= i < |s| - 1 ==> !(s[i] == sub[0] && s[i + 1] == sub[1])
    ensures !Contains(s, sub)
  {
    forall i | 0 <= i ensures !OccursAt(s, sub, i) {
      if i + |sub| <= |s| {
        assert s[i..i + |sub|][0] == s[i];
        assert s[i..i + |sub|][1] == s[i + 1];
      }
    }
  }

  /** Filtering four lines, one at a time. */
  lemma {:induction false} FourFiltered(a: string, b: string, c: string, d: string, p: string -> bool)
    ensures Filter([a, b, c, d], p) == KeepIf(p(a), a) + (KeepIf(p(b), b) + (KeepIf(p(c), c) + KeepIf(p(d), d)))
  {
    FilterCons(d, [], p);
    assert [d] + [] == [d];
    var fd := Filter([d], p);
    assert fd == KeepIf(p(d), d);
    FilterCons(c, [d], p);
    assert [c] + [d] == [c, d];
    var fc := Filter([c, d], p);
    assert fc == KeepIf(p(c), c) + fd;
    FilterCons(b, [c, d], p);
    assert [b] + [c, d] == [b, c, d];
    var fb := Filter([b, c, d], p);
    assert fb == KeepIf(p(b), b) + fc;
    FilterCons(a, [b, c, d], p);
    assert [a] + [b, c, d] == [a, b, c, d];
  }

  /** Keep `line` when `keep` holds. */
  function KeepIf(keep: bool, line: string): seq<string> {
    if keep then [line] else []
  }

  /** A line-free, carriage-return-free line. */
  predicate PlainLine(l: string) {
    '\n' !in l && '\r' !in l
  }

  /** Searching a four-line text keeps each line that holds the query. */
  lemma {:induction false} SearchFourLines(query: string, l0: string, l1: string, l2: string, l3: string)
    requires PlainLine(l0) && PlainLine(l1) && PlainLine(l2) && PlainLine(l3) && |l3| > 0
    ensures Search(query, l0 + "\n" + l1 + "\n" + l2 + "\n" + l3)
         == KeepIf(Contains(l0, query), l0) + (KeepIf(Contains(l1, query), l1)
          + (KeepIf(Contains(l2, query), l2) + KeepIf(Contains(l3, query), l3)))
  {
    var ls := [l0, l1, l2, l3];
    JoinFour(l0, l1, l2, l3, "\n");
    LinesOfJoin(ls);
    FourFiltered(l0, l1, l2, l3, HoldsQuery(query));
  }

  /** Searching a four-line text without case keeps each line whose lower-cased
      form holds the lower-cased query. */
  lemma {:induction false} SearchCaseInsensitiveFourLines(query: string, l0: string, l1: string, l2: string, l3: string)
    requires PlainLine(l0) && PlainLine(l1) && PlainLine(l2) && PlainLine(l3) && |l3| > 0
    ensures var q := ToLower(query);
      SearchCaseInsensitive(query, l0 + "\n" + l1 + "\n" + l2 + "\n" + l3)
         == KeepIf(Contains(ToLower(l0), q), l0) + (KeepIf(Contains(ToLower(l1), q), l1)
          + (KeepIf(Contains(ToLower(l2), q), l2) + KeepIf(Contains(ToLower(l3), q), l3)))
  {
    var ls := [l0, l1, l2, l3];
    JoinFour(l0, l1, l2, l3, "\n");
    LinesOfJoin(ls);
    FourFiltered(l0, l1, l2, l3, HoldsLowerQuery(ToLower(query)));
  }

  /** The first lines of the test texts hold no line break. */
  lemma {:induction false} PoemHeadPlain()
    ensures PlainLine("Rust:") && PlainLine("safe, fast, productive.")
  {
  }

  /** The last lines of the test texts hold no line break. */
  lemma {:induction false} PoemTailPlain()
    ensures PlainLine("Pick three.") && PlainLine("Duct tape.") && PlainLine("Trust me.")
  {
  }

  /** "duct" occurs in the second test line. */
  lemma {:induction false} DuctInSecondLine()
    ensures Contains("safe, fast, productive.", "duct")
  {
    assert OccursAt("safe, fast, productive.", "duct", 15);
  }

  /** "duct" occurs in neither the first nor the third test line. */
  lemma {:induction false} NoDuctAround()
    ensures !Contains("Rust:", "duct") && !Contains("Pick three.", "duct")
  {
    NotContainsByPair("Rust:", "duct");
    NotContainsByPair("Pick three.", "duct");
  }

  /** "Duct tape." differs from "duct" in case. */
  lemma {:induction false} NoDuctInLastLine()
    ensures !Contains("Duct tape.", "duct")
  {
    NotContainsByPair("Duct tape.", "duct");
  }

  /** The test text is the four lines joined by line feeds. */
  lemma {:induction false} PoemText(l3: string)
    ensures "Rust:\n" + "safe, fast, productive.\n" + "Pick three.\n" + l3
         == "Rust:" + "\n" + "safe, fast, productive." + "\n" + "Pick three." + "\n" + l3
  {
    assert "Rust:\n" == "Rust:" + "\n";
    assert "safe, fast, productive.\n" == "safe, fast, productive." + "\n";
    assert "Pick three.\n" == "Pick three." + "\n";
  }

  /** The case-sensitive test: "duct" is found in one line only. */
  lemma {:induction false} CaseSensitiveExample()
    ensures Search("duct", "Rust:\n" + "safe, fast, productive.\n" + "Pick three.\n" + "Duct tape.")
         == ["safe, fast, productive."]
  {
    var l0, l1, l2, l3 := "Rust:", "safe, fast, productive.", "Pick three.", "Duct tape.";
    PoemHeadPlain();
    PoemTailPlain();
    PoemText(l3);
    SearchFourLines("duct", l0, l1, l2, l3);
    DuctInSecondLine();
    NoDuctAround();
    NoDuctInLastLine();
  }

  /** No two neighbouring lower-cased characters of `s` spell the first two of `sub`. */
  lemma {:induction false} NotContainsLowerByPair(s: string, sub: string)
    requires |sub| >= 2
    requires forall i :: 0 <= i < |s| - 1 ==> !(LowerChar(s[i]) == sub[0] && LowerChar(s[i + 1]) == sub[1])
    ensures !Contains(ToLower(s), sub)
  {
    NotContainsByPair(ToLower(s), sub);
  }

  /** The test query, lower-cased. */
  lemma {:induction false} LowerQuery()
    ensures ToLower("rUsT") == "rust"
  {
  }

  /** "Rust:" matches "rust" once lower-cased. */
  lemma {:induction false} RustInFirstLine()
    ensures Contains(ToLower("Rust:"), "rust")
  {
    var t := ToLower("Rust:");
    assert t[..4] == "rust";
    assert OccursAt(t, "rust", 0);
  }

  /** "Trust me." matches "rust" once lower-cased. */
  lemma {:induction false} RustInLastLine()
    ensures Contains(ToLower("Trust me."), "rust")
  {
    var t := ToLower("Trust me.");
    assert t[1..5] == "rust";
    assert OccursAt(t, "rust", 1);
  }

  /** The two middle lines do not match "rust". */
  lemma {:induction false} NoRustInMiddleLines()
    ensures !Contains(ToLower("safe, fast, productive."), "rust")
    ensures !Contains(ToLower("Pick three."), "rust")
  {
    NotContainsLowerByPair("safe, fast, productive.", "rust");
    NotContainsLowerByPair("Pick three.", "rust");
  }

  /** The case-insensitive test: "rUsT" is found in the first and last lines. */
  lemma {:induction false} CaseInsensitiveExample()
    ensures SearchCaseInsensitive("rUsT", "Rust:\n" + "safe, fast, productive.\n" + "Pick three.\n" + "Trust me.")
         == ["Rust:", "Trust me."]
  {
    var l0, l1, l2, l3 := "Rust:", "safe, fast, productive.", "Pick three.", "Trust me.";
    PoemHeadPlain();
    PoemTailPlain();
    PoemText(l3);
    SearchCaseInsensitiveFourLines("rUsT", l0, l1, l2, l3);
    LowerQuery();
    var q := ToLower("rUsT");
    RustInFirstLine();
    NoRustInMiddleLines();
    RustInLastLine();
    assert KeepIf(Contains(ToLower(l0), q), l0) == [l0];
    assert KeepIf(Contains(ToLower(l1), q), l1) == [];
    assert KeepIf(Contains(ToLower(l2), q), l2) == [];
    assert KeepIf(Contains(ToLower(l3), q), l3) == [l3];
    FirstAndLast(l0, l3);
  }

  /** Keeping only the first and the last of four lines. */
  lemma {:induction false} FirstAndLast(a: string, d: string)
    ensures [a] + ([] + ([] + [d])) == [a, d]
  {
  }
}

=== FILE: json.dfy ===
/** serde_json's `Value` tree, the `ToolOutput` record every tool returns, and
    serde's decoding of a value into a struct with a single `String` field
    (`TextArgs { text }`, `LsArgs { path }`).
 */
module Json {
  import opened Base
  import opened Text

  /** A JSON value; numbers are integers in this model. */
  datatype Value =
    | Null
    | Bool(b: bool)
    | Number(n: int)
    | Str(s: string)
    | Array(items: seq<Value>)
    | Object(fields: map<string, Value>)

  /** What a tool hands back: a result, a success flag and an optional message. */
  datatype ToolOutput = ToolOutput(result: Value, success: bool, message: Option<string>)

  /** `Value::get` with a string index: only an object has fields. */
  function Get(v: Value, key: string): (r: Option<Value>)
    ensures r.Some? <==> v.Object? && key in v.fields
    ensures r.Some? ==> r.value == v.fields[key]
  {
    if v.Object? && key in v.fields then Some(v.fields[key]) else None
  }

  /** The ways serde refuses to build a one-field struct from a value. */
  datatype SerdeError =
    | InvalidType(unexpected: Value, expected: string)
    | MissingField(field: string)
    | InvalidLength(len: nat, expectedLength: string)

  /** serde's `Unexpected` description of the value it was given. */
  function Describe(v: Value): string {
    match v
    case Null => "null"
    case Bool(b) => if b then "boolean `true`" else "boolean `false`"
    case Number(n) => "integer `" + IntToString(n) + "`"
    case Str(s) => "string \"" + s + "\""
    case Array(_) => "sequence"
    case Object(_) => "map"
  }

  /** serde's rendering of a decoding error. */
  function SerdeMessage(e: SerdeError): string {
    match e
    case InvalidType(v, expected) => "invalid type: " + Describe(v) + ", expected " + expected
    case MissingField(f) => "missing field `" + f + "`"
    case InvalidLength(n, expected) => "invalid length " + NatToString(n) + ", expected " + expected
  }

  /** `serde_json::from_value` into `struct <structName> { <field>: String }`:
      an object must hold a string under `field` (other keys are ignored);
      an array must hold exactly one element, a string; nothing else decodes. */
  function FromValueSingleString(v: Value, field: string, structName: string): (r: Result<string, SerdeError>)
    ensures r.Ok? <==>
      || (v.Object? && field in v.fields && v.fields[field].Str?)
      || (v.Array? && |v.items| == 1 && v.items[0].Str?)
    ensures r.Ok? && v.Object? ==> r.value == v.fields[field].s
    ensures r.Ok? && v.Array? ==> r.value == v.items[0].s
  {
    match v
    case Object(m) =>
      if field !in m then Err(MissingField(field))
      else if m[field].Str? then Ok(m[field].s)
      else Err(InvalidType(m[field], "a string"))
    case Array(items) =>
      if |items| == 0 then Err(InvalidLength(0, "struct " + structName + " with 1 element"))
      else if !items[0].Str? then Err(InvalidType(items[0], "a string"))
      else if |items| > 1 then Err(InvalidLength(|items|, "fewer elements in array"))
      else Ok(items[0].s)
    case _ => Err(InvalidType(v, "struct " + structName))
  }
}

=== FILE: memory.dfy ===
/** The in-memory store of the planning crate: entries kept in a map under
    their own key, written by `write` and read back by key, by recency and by
    tag.

    The map is the `HashMap` behind the store's lock; its iteration order is
    unspecified, so the reads that list entries are stated up to that order.
    Timestamps are instants as integers.
 */
module Memory {
  import opened Base

  datatype MemoryEntry = MemoryEntry(key: string, value: string, tags: seq<string>, timestamp: int)

  type Store = map<string, MemoryEntry>

  /** Every entry sits under its own key, as `write` keeps it. */
  predicate WellKeyed(store: Store) {
    forall k :: k in store ==> store[k].key == k
  }

  /** `write`: store the entry under its key, replacing any entry with that
      key, and report success. */
  function Write(store: Store, entry: MemoryEntry): (r: (Store, bool))
    ensures r.1
    ensures entry.key in r.0 && r.0[entry.key] == entry
    ensures r.0.Keys == store.Keys + {entry.key}
    ensures forall k :: k in store && k != entry.key ==> r.0[k] == store[k]
  {
    (store[entry.key := entry], true)
  }

  /** Writing keeps every entry under its own key. */
  lemma {:induction false} WriteKeepsWellKeyed(store: Store, entry: MemoryEntry)
    requires WellKeyed(store)
    ensures WellKeyed(Write(store, entry).0)
  {
  }

  /** `read_by_key`. */
  function ReadByKey(store: Store, key: string): (r: Option<MemoryEntry>)
    ensures r.Some? <==> key in store
    ensures r.Some? ==> r.value == store[key]
  {
    if key in store then Some(store[key]) else None
  }

  /** What was written last under a key is what reading that key gives. */
  lemma {:induction false} ReadAfterWrite(store: Store, entry: MemoryEntry, key: string)
    ensures ReadByKey(Write(store, entry).0, key)
         == if key == entry.key then Some(entry) else ReadByKey(store, key)
  {
  }

  function Min(a: nat, b: nat): nat {
    if a <= b then a else b
  }

  /** A key of `candidates` whose entry is at least as recent as every other's. */
  method MostRecentKey(store: Store, candidates: set<string>) returns (best: string)
    requires candidates != {} && candidates <= store.Keys
    ensures best in candidates
    ensures forall k :: k in candidates ==> store[best].timestamp >= store[k].timestamp
  {
    best :| best in candidates;
    var rest := candidates - {best};
    while rest != {}
      invariant rest <= candidates && best in candidates
      invariant forall k :: k in candidates && k !in rest ==> store[best].timestamp >= store[k].timestamp
      decreases |rest|
    {
      var k :| k in rest;
      if store[k].timestamp > store[best].timestamp {
        best := k;
      }
      rest := rest - {k};
    }
  }

  /** `read_recent`: the `limit` most recent entries, newest first. Entries with
      equal timestamps come in the map's order, which is unspecified. `keys`
      are the keys the entries were found under. */
  method ReadRecent(store: Store, limit: nat) returns (entries: seq<MemoryEntry>, keys: seq<string>)
    ensures |entries| == |keys| == Min(limit, |store|)
    ensures forall i :: 0 <= i < |keys| ==> keys[i] in store && entries[i] == store[keys[i]]
    ensures forall i, j :: 0 <= i < j < |keys| ==> keys[i] != keys[j]
    ensures forall i, j :: 0 <= i < j < |entries| ==> entries[i].timestamp >= entries[j].timestamp
    ensures forall k, i :: k in store && k !in keys && 0 <= i < |entries| ==>
      entries[i].timestamp >= store[k].timestamp
  {
    var n := Min(limit, |store|);
    var remaining := store.Keys;
    entries, keys := [], [];
    while |keys| < n
      invariant |keys| <= n
      invariant RecentSoFar(store, remaining, entries, keys)
      decreases n - |keys|
    {
      var k := MostRecentKey(store, remaining);
      RecentStep(store, remaining, entries, keys, k);
      entries, keys := entries + [store[k]], keys + [k];
      remaining := remaining - {k};
    }
  }

  /** The loop invariant of `ReadRecent`: `keys` are distinct keys of the store,
      `entries` their entries newest first, none older than any entry whose key
      is still `remaining`, and every key is either taken or remaining. */
  predicate RecentSoFar(store: Store, remaining: set<string>, entries: seq<MemoryEntry>, keys: seq<string>) {
    && remaining <= store.Keys
    && |keys| + |remaining| == |store|
    && |entries| == |keys|
    && (forall i :: 0 <= i < |keys| ==> keys[i] in store && keys[i] !in remaining && entries[i] == store[keys[i]])
    && (forall k :: k in store ==> k in remaining || k in keys)
    && (forall i, j :: 0 <= i < j < |keys| ==> keys[i] != keys[j])
    && (forall i, j :: 0 <= i < j < |entries| ==> entries[i].timestamp >= entries[j].timestamp)
    && (forall k, i :: k in remaining && 0 <= i < |entries| ==> entries[i].timestamp >= store[k].timestamp)
  }

  /** Taking a most recent remaining key keeps the invariant. */
  lemma {:induction false} RecentStep(store: Store, remaining: set<string>, entries: seq<MemoryEntry>, keys: seq<string>, k: string)
    requires RecentSoFar(store, remaining, entries, keys)
    requires k in remaining
    requires forall r :: r in remaining ==> store[k].timestamp >= store[r].timestamp
    ensures RecentSoFar(store, remaining - {k}, entries + [store[k]], keys + [k])
  {
    var entries', keys', remaining' := entries + [store[k]], keys + [k], remaining - {k};
    assert |remaining'| == |remaining| - 1;
    forall i | 0 <= i < |keys'|
      ensures keys'[i] in store && keys'[i] !in remaining' && entries'[i] == store[keys'[i]]
    {
      if i < |keys| {
        assert keys'[i] == keys[i];
      }
    }
    forall i, j | 0 <= i < j < |entries'|
      ensures entries'[i].timestamp >= entries'[j].timestamp
    {
      if j == |entries| {
        assert entries'[i] == entries[i];
      }
    }
  }

  /** The keys whose entries carry `tag` exactly (no prefix or substring match). */
  function TaggedKeys(store: Store, tag: string): (r: set<string>)
    ensures forall k :: k in r <==> k in store && tag in store[k].tags
  {
    set k | k in store && tag in store[k].tags
  }

  /** `search_by_tag`: every entry that carries the tag, once each, in the
      map's (unspecified) order. `keys` are the keys the entries were found under. */
  method SearchByTag(store: Store, tag: string) returns (entries: seq<MemoryEntry>, keys: seq<string>)
    ensures |entries| == |keys| == |TaggedKeys(store, tag)|
    ensures forall i :: 0 <= i < |keys| ==> keys[i] in store && entries[i] == store[keys[i]]
    ensures forall i :: 0 <= i < |entries| ==> tag in entries[i].tags
    ensures forall k :: k in TaggedKeys(store, tag) <==> k in keys
    ensures forall i, j :: 0 <= i < j < |keys| ==> keys[i] != keys[j]
  {
    var rest := store.Keys;
    entries, keys := [], [];
    while rest != {}
      invariant TaggedSoFar(store, tag, rest, entries, keys)
      decreases |rest|
    {
      var k :| k in rest;
      TaggedStep(store, tag, rest, entries, keys, k);
      if tag in store[k].tags {
        entries, keys := entries + [store[k]], keys + [k];
      }
      rest := rest - {k};
    }
    DistinctCard(keys, TaggedKeys(store, tag));
  }

  /** The loop invariant of `SearchByTag`: `keys` are, once each, the keys
      already visited (those not in `rest`) whose entries carry the tag, and
      `entries` their entries. */
  ghost predicate TaggedSoFar(store: Store, tag: string, rest: set<string>, entries: seq<MemoryEntry>, keys: seq<string>) {
    && rest <= store.Keys
    && |entries| == |keys|
    && (forall i :: 0 <= i < |keys| ==> keys[i] in store && entries[i] == store[keys[i]])
    && (forall i :: 0 <= i < |entries| ==> tag in entries[i].tags)
    && (forall k :: k in keys <==> k in store && k !in rest && tag in store[k].tags)
    && (forall i, j :: 0 <= i < j < |keys| ==> keys[i] != keys[j])
  }

  /** Visiting one more key keeps the invariant, whether or not its entry
      carries the tag. */
  lemma {:induction false} TaggedStep(store: Store, tag: string, rest: set<string>, entries: seq<MemoryEntry>, keys: seq<string>, k: string)
    requires TaggedSoFar(store, tag, rest, entries, keys)
    requires k in rest
    ensures tag in store[k].tags ==> TaggedSoFar(store, tag, rest - {k}, entries + [store[k]], keys + [k])
    ensures tag !in store[k].tags ==> TaggedSoFar(store, tag, rest - {k}, entries, keys)
  {
    if tag in store[k].tags {
      var entries', keys' := entries + [store[k]], keys + [k];
      forall i | 0 <= i < |keys'| ensures keys'[i] in store && entries'[i] == store[keys'[i]] {
        if i < |keys| {
          assert keys'[i] == keys[i] && entries'[i] == entries[i];
        }
      }
      forall i | 0 <= i < |entries'| ensures tag in entries'[i].tags {
        if i < |keys| {
          assert entries'[i] == entries[i];
        }
      }
      forall x ensures x in keys' <==> x in store && x !in rest - {k} && tag in store[x].tags {
        assert x in keys' <==> x in keys || x == k;
      }
    }
  }

  /** A sequence without repetitions listing exactly a set has the set's size. */
  lemma {:induction false} DistinctCard(s: seq<string>, t: set<string>)
    requires forall i, j :: 0 <= i < j < |s| ==> s[i] != s[j]
    requires forall k :: k in t <==> k in s
    ensures |s| == |t|
  {
    if |s| > 0 {
      var last := s[|s| - 1];
      var init := s[..|s| - 1];
      forall k ensures k in t - {last} <==> k in init {
        if k in init {
          var i :| 0 <= i < |init| && init[i] == k;
          assert s[i] == k;
        }
        if k in s && k != last {
          var i :| 0 <= i < |s| && s[i] == k;
          assert init[i] == k;
        }
      }
      DistinctCard(init, t - {last});
    } else {
      assert t == {};
    }
  }
}

=== FILE: messaging.dfy ===
/** Message passing in the core architecture: the `agent_main` loop that
    folds commands and status updates into the shared agent state until it
    is told to shut down, and the ping request/response exchange. The
    channels are sequences of messages; the mutex around the state is not
    modelled.
 */
module Messaging {
  import opened Base
  import opened Seqs

  datatype AgentMessage =
    | Command(cmd: string)
    | StatusUpdate(taskId: string, status: string)
    | Shutdown

  datatype AgentState = AgentState(currentTask: Option<string>, completedTasks: seq<string>)

  /** One message of `agent_main`: `None` when the loop stops. */
  function Handle(state: AgentState, msg: AgentMessage): (r: Option<AgentState>)
    ensures r.None? <==> msg.Shutdown?
    ensures msg.Command? ==> r == Some(state.(currentTask := Some(msg.cmd)))
    ensures msg.StatusUpdate? && msg.status == "done" ==>
      r == Some(AgentState(None, state.completedTasks + [msg.taskId]))
    ensures msg.StatusUpdate? && msg.status != "done" ==> r == Some(state)
  {
    match msg
    case Command(cmd) => Some(state.(currentTask := Some(cmd)))
    case Shutdown => None
    case StatusUpdate(taskId, status) =>
      if status == "done" then Some(AgentState(None, state.completedTasks + [taskId])) else Some(state)
  }

  /** The state `agent_main` leaves after reading `msgs`: the completed list
      only grows, a leading shutdown changes nothing, and while no shutdown
      arrives the current task is the last command read since the last
      completion. */
  function AgentMain(state: AgentState, msgs: seq<AgentMessage>): (r: AgentState)
    ensures state.completedTasks <= r.completedTasks
    ensures |msgs| > 0 && msgs[0].Shutdown? ==> r == state
    ensures |msgs| > 0 && (forall i :: 0 <= i < |msgs| ==> msgs[i].Command?) ==>
      r == state.(currentTask := Some(msgs[|msgs| - 1].cmd))
    decreases |msgs|
  {
    if |msgs| == 0 then state
    else
      match Handle(state, msgs[0])
      case None => state
      case Some(next) => AgentMain(next, msgs[1..])
  }

  /** The ids reported "done" before the first shutdown. */
  function DoneIds(msgs: seq<AgentMessage>): seq<string>
    decreases |msgs|
  {
    if |msgs| == 0 || msgs[0].Shutdown? then []
    else if msgs[0].StatusUpdate? && msgs[0].status == "done" then [msgs[0].taskId] + DoneIds(msgs[1..])
    else DoneIds(msgs[1..])
  }

  /** The completed list grows only by appending the ids reported "done"
      before the shutdown, in the order they arrived. */
  lemma {:induction false} CompletedAppends(state: AgentState, msgs: seq<AgentMessage>)
    ensures AgentMain(state, msgs).completedTasks == state.completedTasks + DoneIds(msgs)
    decreases |msgs|
  {
    if |msgs| > 0 && !msgs[0].Shutdown? {
      var next := Handle(state, msgs[0]).value;
      CompletedAppends(next, msgs[1..]);
      if msgs[0].StatusUpdate? && msgs[0].status == "done" {
        assert next.completedTasks + DoneIds(msgs[1..])
            == state.completedTasks + ([msgs[0].taskId] + DoneIds(msgs[1..]));
      }
    }
  }

  /** Nothing after a shutdown is processed. */
  lemma {:induction false} ShutdownStops(state: AgentState, before: seq<AgentMessage>, after: seq<AgentMessage>)
    ensures AgentMain(state, before + [Shutdown] + after) == AgentMain(state, before)
    decreases |before|
  {
    var msgs := before + [Shutdown] + after;
    if |before| > 0 {
      assert msgs[0] == before[0];
      assert msgs[1..] == before[1..] + [Shutdown] + after;
      match Handle(state, before[0]) {
        case None =>
        case Some(next) => ShutdownStops(next, before[1..], after);
      }
    } else {
      assert msgs[0] == Shutdown;
    }
  }

  /** The reply to an `ExecuteTask` request. */
  function ExecuteTaskReply(command: string): (r: Result<string, string>)
    ensures r.Ok? <==> command == "ping"
    ensures r.Ok? ==> r.value == "pong"
    ensures r.Err? ==> r.error == "unknown command"
  {
    match command
    case "ping" => Ok("pong")
    case _ => Err("unknown command")
  }

  datatype AgentRequest = ExecuteTask(command: string) | Other

  predicate IsExecuteTask(q: AgentRequest) { q.ExecuteTask? }

  /** The replies of the request loop: reply `k` answers the `k`-th
      `ExecuteTask` request, and other requests get none. */
  function Serve(requests: seq<AgentRequest>): (replies: seq<Result<string, string>>)
    ensures |replies| == CountWhere(requests, IsExecuteTask)
    ensures forall k :: 0 <= k < |replies| ==>
      replies[k] == ExecuteTaskReply(Filter(requests, IsExecuteTask)[k].command)
    decreases |requests|
  {
    if |requests| == 0 then []
    else
      var rest := Serve(requests[1..]);
      FilterCons(requests[0], requests[1..], IsExecuteTask);
      assert [requests[0]] + requests[1..] == requests;
      if requests[0].ExecuteTask? then [ExecuteTaskReply(requests[0].command)] + rest
      else rest
  }

  /** Only "ping" ever gets a successful reply. */
  lemma {:induction false} ServeOnlyPings(requests: seq<AgentRequest>)
    ensures forall k :: 0 <= k < |Serve(requests)| && Serve(requests)[k].Ok? ==> Serve(requests)[k] == Ok("pong")
    ensures (forall i :: 0 <= i < |requests| ==> requests[i].ExecuteTask?) ==> |Serve(requests)| == |requests|
    decreases |requests|
  {
    if |requests| > 0 {
      ServeOnlyPings(requests[1..]);
      if requests[0].ExecuteTask? {
        assert forall k :: 1 <= k < |Serve(requests)| ==> Serve(requests)[k] == Serve(requests[1..])[k - 1];
      }
      assert (forall i :: 0 <= i < |requests| ==> requests[i].ExecuteTask?) ==>
        (forall i :: 0 <= i < |requests[1..]| ==> requests[1..][i].ExecuteTask?);
    }
  }
}

=== FILE: plans.dfy ===
/** Plan execution in its three versions:
    - the local planner's `execute_plan`, which resolves `${name}` arguments
      against earlier outputs, records "Tool not found" for a missing tool and
      carries on;
    - the tool-using crate's chaining `execute_plan`, which stores whole
      `ToolOutput`s and whose placeholder `resolve_args` always yields null;
    - the tool-chaining crate's `execute_tool_plan`, which stops at the first
      missing tool or failing tool.
    Plus the keyword planner and the planning agent that runs its plans.

    Running a plan is modelled as a fold over the steps: the outputs after a
    plan are the outputs after all but its last step, updated by the last step.
 */
module Plans {
  import opened Base
  import opened Text
  import opened Json
  import opened Resolver
  import opened Registry
  import opened Agents

  datatype PlanStep = PlanStep(toolName: string, args: Value, outputKey: string)

  datatype Plan = Plan(goal: string, steps: seq<PlanStep>)

  /** The keys a plan writes to. */
  function OutputKeys(steps: seq<PlanStep>): set<string> {
    set i | 0 <= i < |steps| :: steps[i].outputKey
  }

  lemma {:induction false} OutputKeysSnoc(steps: seq<PlanStep>)
    requires |steps| > 0
    ensures OutputKeys(steps) == OutputKeys(steps[..|steps| - 1]) + {steps[|steps| - 1].outputKey}
  {
    var init := steps[..|steps| - 1];
    forall k | k in OutputKeys(steps)
      ensures k in OutputKeys(init) + {steps[|steps| - 1].outputKey}
    {
      var i :| 0 <= i < |steps| && steps[i].outputKey == k;
      if i < |steps| - 1 {
        assert init[i] == steps[i];
      }
    }
    forall k | k in OutputKeys(init) ensures k in OutputKeys(steps) {
      var i :| 0 <= i < |init| && init[i].outputKey == k;
      assert steps[i] == init[i];
    }
  }

  // ---------------------------------------------------------------------
  // The local planner
  // ---------------------------------------------------------------------

  /** What one step of the local planner stores: the tool's `result` on the
      resolved arguments, or the string "Tool not found". */
  function StepValue(step: PlanStep, registry: ToolRegistry, outputs: map<string, Value>): (v: Value)
    ensures step.toolName !in registry ==> v == Str("Tool not found")
    ensures step.toolName in registry ==>
      v == registry[step.toolName].execute(ResolveArgs(step.args, outputs)).result
  {
    match CallTool(registry, step.toolName, ResolveArgs(step.args, outputs))
    case Some(out) => out.result
    case None => Str("Tool not found")
  }

  /** The outputs after running `steps` in order from an empty map. */
  function PlanOutputs(steps: seq<PlanStep>, registry: ToolRegistry): (outputs: map<string, Value>)
    ensures outputs.Keys == OutputKeys(steps)
    decreases |steps|
  {
    if |steps| == 0 then map[]
    else
      var prev := PlanOutputs(steps[..|steps| - 1], registry);
      var last := steps[|steps| - 1];
      OutputKeysSnoc(steps);
      prev[last.outputKey := StepValue(last, registry, prev)]
  }

  /** `execute_plan` of the local planner: every step runs, in order, and
      the map it returns holds exactly the plan's output keys. */
  method ExecutePlan(plan: Plan, registry: ToolRegistry) returns (outputs: map<string, Value>)
    ensures outputs == PlanOutputs(plan.steps, registry)
    ensures outputs.Keys == OutputKeys(plan.steps)
  {
    outputs := map[];
    var i := 0;
    while i < |plan.steps|
      invariant 0 <= i <= |plan.steps|
      invariant outputs == PlanOutputs(plan.steps[..i], registry)
    {
      var step := plan.steps[i];
      var args := ResolveArgs(step.args, outputs);
      match CallTool(registry, step.toolName, args) {
        case Some(out) => outputs := outputs[step.outputKey := out.result];
        case None => outputs := outputs[step.outputKey := Str("Tool not found")];
      }
      assert plan.steps[..i + 1][..i] == plan.steps[..i];
      i := i + 1;
    }
    assert plan.steps[..i] == plan.steps;
  }

  /** The value under a key is the one its last writer stored, computed from
      the outputs of the steps before that writer: later steps that write other
      keys do not disturb it. */
  lemma {:induction false} LastWriteWins(steps: seq<PlanStep>, registry: ToolRegistry, i: nat)
    requires i < |steps|
    requires forall j :: i < j < |steps| ==> steps[j].outputKey != steps[i].outputKey
    ensures steps[i].outputKey in PlanOutputs(steps, registry)
    ensures PlanOutputs(steps, registry)[steps[i].outputKey]
         == StepValue(steps[i], registry, PlanOutputs(steps[..i], registry))
    decreases |steps|
  {
    var init := steps[..|steps| - 1];
    if i < |steps| - 1 {
      assert forall j :: i < j < |init| ==> init[j] == steps[j];
      LastWriteWins(init, registry, i);
      assert init[..i] == steps[..i];
    }
  }

  /** A step whose tool is not registered records "Tool not found" and the
      plan goes on. */
  lemma {:induction false} MissingToolRecorded(steps: seq<PlanStep>, registry: ToolRegistry, i: nat)
    requires i < |steps|
    requires steps[i].toolName !in registry
    requires forall j :: i < j < |steps| ==> steps[j].outputKey != steps[i].outputKey
    ensures PlanOutputs(steps, registry)[steps[i].outputKey] == Str("Tool not found")
  {
    LastWriteWins(steps, registry, i);
  }

  /** The log-file plan of the keyword planner. */
  const LogPlanSteps: seq<PlanStep> := [
    PlanStep("read_file", Object(map["path" := Str("system.log")]), "log content"),
    PlanStep("summarize", Object(map["text" := Str("${log_content}")]), "summary")
  ]

  /** The disk-usage plan of the keyword planner. */
  const DiskPlanSteps: seq<PlanStep> := [
    PlanStep("check_disk", Object(map[]), "disk_info"),
    PlanStep("summarize", Object(map["text" := Str("${disk_info}")]), "disk_summary")
  ]

  /** `KeywordPlanner::generate_plan`: a fixed plan for each recognised phrase,
      the log-file phrase taking precedence. */
  function KeywordPlan(goal: string): (r: Option<Plan>)
    ensures r.Some? <==> Contains(goal, "summarize log file") || Contains(goal, "analize disk usage")
    ensures r.Some? ==> r.value.goal == goal
    ensures Contains(goal, "summarize log file") ==> r.value.steps == LogPlanSteps
    ensures !Contains(goal, "summarize log file") && Contains(goal, "analize disk usage") ==>
      r.value.steps == DiskPlanSteps
  {
    if Contains(goal, "summarize log file") then Some(Plan(goal, LogPlanSteps))
    else if Contains(goal, "analize disk usage") then Some(Plan(goal, DiskPlanSteps))
    else None
  }

  /** An object with one `${name}` field resolves that field to the stored
      value, or to null when nothing is stored under `name`. */
  lemma {:induction false} ResolveOneField(key: string, name: string, outputs: map<string, Value>)
    ensures ResolveArgs(Object(map[key := Str("${" + name + "}")]), outputs)
         == Object(map[key := if name in outputs then outputs[name] else Null])
  {
    PlaceholderNameOf(name);
    var r := ResolveArgs(Object(map[key := Str("${" + name + "}")]), outputs);
    assert r.fields == map[key := if name in outputs then outputs[name] else Null];
  }

  lemma {:induction false} LogPlanSecondArgs()
    ensures LogPlanSteps[1].args == Object(map["text" := Str("${" + "log_content" + "}")])
  {
    assert "${" + "log_content" + "}" == "${log_content}";
  }

  lemma {:induction false} LogPlanFirstKeys(registry: ToolRegistry)
    ensures PlanOutputs(LogPlanSteps[..1], registry).Keys == {"log content"}
  {
    assert OutputKeys(LogPlanSteps[..1]) == {"log content"} by {
      assert LogPlanSteps[..1][0].outputKey == "log content";
    }
  }

  /** In the log-file plan the first step stores under "log content" while the
      second asks for `${log_content}`: the summariser always receives null. */
  lemma {:induction false} LogPlanSummaryGetsNull(registry: ToolRegistry)
    ensures ResolveArgs(LogPlanSteps[1].args, PlanOutputs(LogPlanSteps[..1], registry))
         == Object(map["text" := Null])
  {
    var prev := PlanOutputs(LogPlanSteps[..1], registry);
    LogPlanFirstKeys(registry);
    assert "log_content" != "log content" by {
      assert "log_content"[3] != "log content"[3];
    }
    assert "log_content" !in prev;
    LogPlanSecondArgs();
    ResolveOneField("text", "log_content", prev);
  }

  lemma {:induction false} DiskPlanSecondArgs()
    ensures DiskPlanSteps[1].args == Object(map["text" := Str("${" + "disk_info" + "}")])
  {
    assert "${" + "disk_info" + "}" == "${disk_info}";
  }

  /** In the disk-usage plan the summariser does receive the stored disk information. */
  lemma {:induction false} DiskPlanSummaryGetsDiskInfo(registry: ToolRegistry)
    ensures ResolveArgs(DiskPlanSteps[1].args, PlanOutputs(DiskPlanSteps[..1], registry))
         == Object(map["text" := StepValue(DiskPlanSteps[0], registry, map[])])
  {
    var init := DiskPlanSteps[..1];
    assert init[..0] == [];
    var prev := PlanOutputs(init, registry);
    assert prev == map["disk_info" := StepValue(DiskPlanSteps[0], registry, map[])];
    DiskPlanSecondArgs();
    ResolveOneField("text", "disk_info", prev);
  }

  /** `PlanningAgent::handle_input` of the local planner: plan the message,
      run the plan, and report the outputs (rendered by `show`, Rust's `{:#?}`). */
  function PlanningAgentHandle(planner: string -> Option<Plan>, registry: ToolRegistry,
                               show: map<string, Value> -> string, input: AgentInput): (r: AgentResult)
    ensures r.status.Success? <==> planner(input.message).Some?
    ensures planner(input.message).None? ==>
      r == AgentResult("Unable to plan for this goal", Error("Unrecognized goal"))
    ensures planner(input.message).Some? ==>
      r.output == show(PlanOutputs(planner(input.message).value.steps, registry))
  {
    match planner(input.message)
    case Some(plan) => AgentResult(show(PlanOutputs(plan.steps, registry)), Success)
    case None => AgentResult("Unable to plan for this goal", Error("Unrecognized goal"))
  }

  /** With the keyword planner, the agent succeeds exactly on the two recognised goals. */
  lemma {:induction false} KeywordAgentSucceeds(registry: ToolRegistry, show: map<string, Value> -> string, input: AgentInput)
    ensures PlanningAgentHandle(KeywordPlan, registry, show, input).status.Success?
        <==> Contains(input.message, "summarize log file") || Contains(input.message, "analize disk usage")
  {
  }

  // ---------------------------------------------------------------------
  // The chaining executor of the tool-using crate
  // ---------------------------------------------------------------------

  /** The chaining crate's `resolve_args`: a placeholder that ignores both the
      template and the earlier results. */
  function PlaceholderResolve(template: Value, context: map<string, ToolOutput>): (r: Value)
    ensures r == Null
  {
    match template
    case Str(_) => Null
    case Object(_) => Null
    case Array(_) => Null
    case _ => Null
  }

  /** What one chaining step stores: the tool's whole output, or a failed
      output naming the missing tool. */
  function ChainStepOutput(step: PlanStep, registry: ToolRegistry, context: map<string, ToolOutput>): (out: ToolOutput)
    ensures step.toolName in registry ==> out == registry[step.toolName].execute(Null)
    ensures step.toolName !in registry ==>
      out == ToolOutput(Null, false, Some("Tool not found: " + step.toolName))
  {
    match CallTool(registry, step.toolName, PlaceholderResolve(step.args, context))
    case Some(out) => out
    case None => ToolOutput(Null, false, Some("Tool not found: " + step.toolName))
  }

  /** The results of the chaining `execute_plan` after `steps`. */
  function ChainOutputs(steps: seq<PlanStep>, registry: ToolRegistry): (results: map<string, ToolOutput>)
    ensures results.Keys == OutputKeys(steps)
    decreases |steps|
  {
    if |steps| == 0 then map[]
    else
      var prev := ChainOutputs(steps[..|steps| - 1], registry);
      var last := steps[|steps| - 1];
      OutputKeysSnoc(steps);
      prev[last.outputKey := ChainStepOutput(last, registry, prev)]
  }

  /** In the chaining executor a key's value is its last writer's output,
      which never depends on earlier results: every tool is called on null. */
  lemma {:induction false} ChainLastWriteWins(steps: seq<PlanStep>, registry: ToolRegistry, i: nat)
    requires i < |steps|
    requires forall j :: i < j < |steps| ==> steps[j].outputKey != steps[i].outputKey
    ensures steps[i].outputKey in ChainOutputs(steps, registry)
    ensures ChainOutputs(steps, registry)[steps[i].outputKey]
         == (if steps[i].toolName in registry then registry[steps[i].toolName].execute(Null)
             else ToolOutput(Null, false, Some("Tool not found: " + steps[i].toolName)))
    decreases |steps|
  {
    var init := steps[..|steps| - 1];
    if i < |steps| - 1 {
      assert forall j :: i < j < |init| ==> init[j] == steps[j];
      ChainLastWriteWins(init, registry, i);
    }
  }

  // ---------------------------------------------------------------------
  // The fail-fast executor of the tool-chaining crate
  // ---------------------------------------------------------------------

  /** A tool of the tool-chaining crate: it receives the arguments and the
      output key, and may fail with a message. */
  datatype FallibleTool = FallibleTool(name: string, execute: (Value, string) -> Result<ToolOutput, string>)

  type FallibleRegistry = map<string, FallibleTool>

  /** `execute_tool_plan` on `steps`: the first missing or failing tool ends
      the run with an error; otherwise each tool's result is stored under its
      step's key. Arguments are passed unresolved. */
  function RunToolPlan(steps: seq<PlanStep>, registry: FallibleRegistry): (r: Result<map<string, Value>, string>)
    ensures r.Ok? ==> r.value.Keys == OutputKeys(steps)
    ensures r.Ok? ==> forall i :: 0 <= i < |steps| ==>
      && steps[i].toolName in registry
      && registry[steps[i].toolName].execute(steps[i].args, steps[i].outputKey).Ok?
    decreases |steps|
  {
    if |steps| == 0 then Ok(map[])
    else
      var init := steps[..|steps| - 1];
      var step := steps[|steps| - 1];
      match RunToolPlan(init, registry)
      case Err(e) => Err(e)
      case Ok(results) =>
        if step.toolName !in registry then Err("Tool '" + step.toolName + "' not found")
        else
          match registry[step.toolName].execute(step.args, step.outputKey)
          case Ok(output) =>
            OutputKeysSnoc(steps);
            assert forall i :: 0 <= i < |init| ==> init[i] == steps[i];
            Ok(results[step.outputKey := output.result])
          case Err(e) => Err("Error executing tool '" + step.toolName + "': " + e)
  }

  /** Once a prefix of the plan has failed, the later steps change nothing:
      the run ends with the prefix's error. */
  lemma {:induction false} FailFast(steps: seq<PlanStep>, registry: FallibleRegistry, n: nat)
    requires n <= |steps|
    requires RunToolPlan(steps[..n], registry).Err?
    ensures RunToolPlan(steps, registry) == RunToolPlan(steps[..n], registry)
    decreases |steps| - n
  {
    if n < |steps| {
      var init := steps[..|steps| - 1];
      assert init[..n] == steps[..n];
      FailFast(init, registry, n);
    } else {
      assert steps[..n] == steps;
    }
  }

  /** The first step whose tool is missing decides the outcome. */
  lemma {:induction false} MissingToolStops(steps: seq<PlanStep>, registry: FallibleRegistry, n: nat)
    requires n < |steps|
    requires RunToolPlan(steps[..n], registry).Ok?
    requires steps[n].toolName !in registry
    ensures RunToolPlan(steps, registry) == Err("Tool '" + steps[n].toolName + "' not found")
  {
    var prefix := steps[..n + 1];
    assert prefix[..n] == steps[..n];
    assert prefix[n] == steps[n];
    FailFast(steps, registry, n + 1);
  }

  /** The first failing tool decides the outcome, with its own message. */
  lemma {:induction false} FailingToolStops(steps: seq<PlanStep>, registry: FallibleRegistry, n: nat)
    requires n < |steps|
    requires RunToolPlan(steps[..n], registry).Ok?
    requires steps[n].toolName in registry
    requires registry[steps[n].toolName].execute(steps[n].args, steps[n].outputKey).Err?
    ensures RunToolPlan(steps, registry)
         == Err("Error executing tool '" + steps[n].toolName + "': "
                + registry[steps[n].toolName].execute(steps[n].args, steps[n].outputKey).error)
  {
    var prefix := steps[..n + 1];
    assert prefix[..n] == steps[..n];
    assert prefix[n] == steps[n];
    FailFast(steps, registry, n + 1);
  }

  /** On success a key holds its last writer's result, computed on the step's
      own arguments and key, whatever earlier steps produced. */
  lemma {:induction false} RunToolPlanLastWriteWins(steps: seq<PlanStep>, registry: FallibleRegistry, i: nat)
    requires i < |steps|
    requires RunToolPlan(steps, registry).Ok?
    requires forall j :: i < j < |steps| ==> steps[j].outputKey != steps[i].outputKey
    ensures steps[i].outputKey in RunToolPlan(steps, registry).value
    ensures RunToolPlan(steps, registry).value[steps[i].outputKey]
         == registry[steps[i].toolName].execute(steps[i].args, steps[i].outputKey).value.result
    decreases |steps|
  {
    var init := steps[..|steps| - 1];
    if i < |steps| - 1 {
      assert forall j :: i < j < |init| ==> init[j] == steps[j];
      assert RunToolPlan(init, registry).Ok?;
      RunToolPlanLastWriteWins(init, registry, i);
    }
  }
}

=== FILE: port_sniffer.dfy ===
/** The `port_sniffer` crate: command-line parsing and the port scan that each
    of `threads` workers runs. Worker `i` probes ports `i + 1`,
    `i + 1 + threads`, ... and stops once the distance to the highest port
    is at most `threads`.

    Opening a TCP connection, the channel and the printing are not modelled;
    parsing an IP address is a parameter (`parseIp`), and the ports a worker
    probes are what it would report when every probe succeeds.
 */
module PortSniffer {
  import opened Base
  import opened Text

  /** `MAX_PROTS`: the highest TCP port. */
  const MaxPorts: int := 65535

  /** Rust's `u16`. */
  type U16 = x: int | 0 <= x <= 65535

  datatype Arguments<Ip> = Arguments(flag: string, ipaddr: Ip, threads: U16)

  /** What `Arguments::new` does: it returns its arguments or an error message,
      or it panics indexing past the end of the argument list. */
  datatype ParseOutcome<Ip> =
    | Parsed(arguments: Arguments<Ip>)
    | Rejected(message: string)
    | IndexPanic

  /** Rust's `u16::from_str`: decimal digits, optionally after one '+', whose
      value fits 16 bits. */
  function ParseU16(s: string): (r: Option<U16>)
    ensures r.Some? ==> |s| > 0
    ensures (forall k :: 0 <= k < |s| ==> IsAsciiDigit(s[k])) && |s| > 0 && DigitsValue(s) <= 65535
            ==> r == Some(DigitsValue(s))
    ensures |s| > 0 && s[0] == '-' ==> r.None?
    ensures r.Some? <==> U16Text(s) || (|s| > 1 && s[0] == '+' && U16Text(s[1..]))
    ensures r.Some? && s[0] == '+' ==> r.value == DigitsValue(s[1..])
  {
    var digits := if |s| > 1 && s[0] == '+' then s[1..] else s;
    if |digits| > 0 && (forall k :: 0 <= k < |digits| ==> IsAsciiDigit(digits[k])) && DigitsValue(digits) <= 65535
    then Some(DigitsValue(digits))
    else None
  }

  /** A non-empty run of decimal digits whose value fits 16 bits. */
  predicate U16Text(d: string) {
    |d| > 0 && (forall k :: 0 <= k < |d| ==> IsAsciiDigit(d[k])) && DigitsValue(d) <= 65535
  }

  /** A rendered thread count, surrounded by whitespace, parses back. */
  lemma {:induction false} ParseRenderedThreads(n: U16)
    ensures ParseU16(Trim(" " + NatToString(n) + "\n")) == Some(n)
  {
    var d := NatToString(n);
    TrimPadded(d);
    assert U16Text(d);
  }

  /** A digit string between a space and a line feed trims to itself. */
  lemma {:induction false} TrimPadded(d: string)
    requires |d| > 0 && forall k :: 0 <= k < |d| ==> IsAsciiDigit(d[k])
    ensures Trim(" " + d + "\n") == d
  {
    var s := " " + d + "\n";
    var t := d + "\n";
    assert s[1..] == t;
    assert TrimStart(s) == t by {
      assert !IsWhitespace(t[0]);
      assert TrimStart(t) == t;
    }
    assert TrimEnd(t) == d by {
      assert t[..|t| - 1] == d;
      TrimDigits(d);
    }
  }

  /** A letter, a value past 16 bits and a bare sign do not parse; one leading
      '+' is accepted. */
  lemma {:induction false} ParseU16Examples()
    ensures ParseU16("x").None?
    ensures ParseU16("65536").None?
    ensures ParseU16("+").None?
    ensures ParseU16("+7") == Some(7)
  {
    ParseLetter();
    ParseTooLarge();
    ParsePlusSeven();
  }

  lemma {:induction false} ParseTooLarge()
    ensures ParseU16("65536").None?
  {
    assert "65536"[..4] == "6553" && "6553"[..3] == "655" && "655"[..2] == "65" && "65"[..1] == "6";
    assert DigitsValue("65536") == 65536;
  }

  lemma {:induction false} ParsePlusSeven()
    ensures ParseU16("+").None?
    ensures ParseU16("+7") == Some(7)
  {
    assert "+7"[1..] == "7";
    assert IsAsciiDigit("7"[0]) && DigitsValue("7") == 7;
  }

  /** The flag asks for help: "-h" or "-help" occurs in it. */
  predicate AsksHelp(f: string) {
    Contains(f, "-h") || Contains(f, "-help")
  }

  /** "-help" contains "-h", so asking for help is containing "-h". */
  lemma {:induction false} AsksHelpIsDashH(f: string)
    ensures AsksHelp(f) <==> Contains(f, "-h")
  {
    if Contains(f, "-help") {
      var i :| OccursAt(f, "-help", i);
      assert f[i..i + 2] == f[i..i + 5][..2];
      assert OccursAt(f, "-h", i);
    }
  }

  /** `Arguments::new`. */
  function NewArguments<Ip>(args: seq<string>, parseIp: string -> Option<Ip>): (r: ParseOutcome<Ip>)
    ensures |args| < 2 ==> r == Rejected("Not enough arguments!")
    ensures |args| > 4 ==> r == Rejected("Too many arguments!")
    ensures 2 <= |args| <= 4 && parseIp(args[1]).Some? ==>
      r == Parsed(Arguments("", parseIp(args[1]).value, 4))
    ensures r.IndexPanic? <==>
      2 <= |args| < 4 && parseIp(args[1]).None? && !AsksHelp(args[1]) && Contains(args[1], "-j")
    ensures r.Parsed? && r.arguments.flag != "" ==>
      && |args| == 4
      && Contains(args[1], "-j") && !AsksHelp(args[1])
      && r.arguments.flag == args[1]
      && parseIp(args[3]) == Some(r.arguments.ipaddr)
      && ParseU16(Trim(args[2])) == Some(r.arguments.threads)
    ensures r.Rejected? && 2 <= |args| <= 4 ==>
      r.message in {"help", "Too many arguments", "Incorrect behaviour!",
                    "Failed to parse threads to integer!", "Invalid syntax"}
    ensures r == Rejected("help") <==> |args| == 2 && parseIp(args[1]).None? && AsksHelp(args[1])
    ensures 3 <= |args| <= 4 && parseIp(args[1]).None? && AsksHelp(args[1]) ==>
      r == Rejected("Too many arguments")
    ensures 2 <= |args| <= 4 && parseIp(args[1]).None? && !AsksHelp(args[1]) && !Contains(args[1], "-j") ==>
      r == Rejected("Invalid syntax")
    ensures |args| == 4 && parseIp(args[1]).None? && !AsksHelp(args[1]) && Contains(args[1], "-j") ==>
      && (parseIp(args[3]).None? ==> r == Rejected("Incorrect behaviour!"))
      && (parseIp(args[3]).Some? && ParseU16(Trim(args[2])).None? ==>
            r == Rejected("Failed to parse threads to integer!"))
      && (parseIp(args[3]).Some? && ParseU16(Trim(args[2])).Some? ==>
            r == Parsed(Arguments(args[1], parseIp(args[3]).value, ParseU16(Trim(args[2])).value)))
  {
    if |args| < 2 then Rejected("Not enough arguments!")
    else if |args| > 4 then Rejected("Too many arguments!")
    else
      var f := args[1];
      match parseIp(f)
      case Some(ip) => Parsed(Arguments("", ip, 4))
      case None =>
        if AsksHelp(f) && |args| == 2 then Rejected("help")
        else if AsksHelp(f) then Rejected("Too many arguments")
        else if Contains(f, "-j") then
          if |args| < 4 then IndexPanic
          else
            match parseIp(args[3])
            case None => Rejected("Incorrect behaviour!")
            case Some(ip) =>
              match ParseU16(Trim(args[2]))
              case None => Rejected("Failed to parse threads to integer!")
              case Some(threads) =>
                // "-j" contains neither "-h" nor "-help", so the flag is never empty here.
                assert f != "";
                Parsed(Arguments(f, ip, threads))
        else Rejected("Invalid syntax")
  }

  /** "-j" is the thread flag and asks for no help. */
  lemma {:induction false} DashJFlag()
    ensures Contains("-j", "-j") && !AsksHelp("-j")
  {
    assert OccursAt("-j", "-j", 0);
    assert !OccursAt("-j", "-h", 0);
  }

  /** Digits are not whitespace: trimming a number changes nothing. */
  lemma {:induction false} TrimDigits(s: string)
    requires |s| > 0 && forall k :: 0 <= k < |s| ==> IsAsciiDigit(s[k])
    ensures Trim(s) == s
  {
    assert !IsWhitespace(s[0]);
    assert TrimStart(s) == s;
    assert !IsWhitespace(s[|s| - 1]);
  }

  /** "100" parses to 100 threads. */
  lemma {:induction false} HundredThreads()
    ensures ParseU16(Trim("100")) == Some(100)
  {
    TrimDigits("100");
    assert "100"[..2] == "10" && "10"[..1] == "1";
    assert DigitsValue("100") == 100;
  }

  /** A bare address scans with four threads. */
  lemma {:induction false} BareAddress<Ip>(parseIp: string -> Option<Ip>, ip: Ip)
    requires parseIp("192.168.1.1") == Some(ip)
    ensures NewArguments(["port_sniffer", "192.168.1.1"], parseIp) == Parsed(Arguments("", ip, 4))
  {
  }

  /** "-j" with a count and an address uses that count. */
  lemma {:induction false} ThreadsFlag<Ip>(parseIp: string -> Option<Ip>, ip: Ip)
    requires parseIp("192.168.1.1") == Some(ip) && parseIp("-j") == None
    ensures NewArguments(["port_sniffer", "-j", "100", "192.168.1.1"], parseIp) == Parsed(Arguments("-j", ip, 100))
  {
    var args := ["port_sniffer", "-j", "100", "192.168.1.1"];
    assert args[1] == "-j" && args[2] == "100" && args[3] == "192.168.1.1";
    DashJFlag();
    HundredThreads();
    ThreadsFlagParsed(args, parseIp, ip, 100);
  }

  /** A thread flag, a count that parses and an address give those arguments. */
  lemma {:induction false} ThreadsFlagParsed<Ip>(args: seq<string>, parseIp: string -> Option<Ip>, ip: Ip, threads: U16)
    requires |args| == 4 && parseIp(args[1]).None? && !AsksHelp(args[1]) && Contains(args[1], "-j")
    requires parseIp(args[3]) == Some(ip) && ParseU16(Trim(args[2])) == Some(threads)
    ensures NewArguments(args, parseIp) == Parsed(Arguments(args[1], ip, threads))
  {
  }

  /** A thread count rendered in decimal after "-j" comes back as the count. */
  lemma {:induction false} ThreadsFlagRendered<Ip>(parseIp: string -> Option<Ip>, ipText: string, ip: Ip, n: U16)
    requires parseIp(ipText) == Some(ip) && parseIp("-j") == None
    ensures NewArguments(["port_sniffer", "-j", NatToString(n), ipText], parseIp) == Parsed(Arguments("-j", ip, n))
  {
    var d := NatToString(n);
    var args := ["port_sniffer", "-j", d, ipText];
    assert args[1] == "-j" && args[2] == d && args[3] == ipText;
    DashJFlag();
    ParseRenderedCount(n);
    ThreadsFlagParsed(args, parseIp, ip, n);
  }

  /** A rendered count, trimmed, parses back. */
  lemma {:induction false} ParseRenderedCount(n: U16)
    ensures ParseU16(Trim(NatToString(n))) == Some(n)
  {
    var d := NatToString(n);
    TrimDigits(d);
    assert ParseU16(d) == Some(DigitsValue(d));
  }

  /** Each rejection message belongs to its own kind of bad command line. */
  lemma {:induction false} RejectionMessages<Ip>(parseIp: string -> Option<Ip>, ip: Ip)
    requires parseIp("-h") == None && parseIp("-j") == None && parseIp("x") == None && parseIp("nope") == None
    requires parseIp("10.0.0.1") == Some(ip)
    ensures NewArguments(["port_sniffer", "-h", "x"], parseIp) == Rejected("Too many arguments")
    ensures NewArguments(["port_sniffer", "x"], parseIp) == Rejected("Invalid syntax")
    ensures NewArguments(["port_sniffer", "-j", "100", "nope"], parseIp) == Rejected("Incorrect behaviour!")
    ensures NewArguments(["port_sniffer", "-j", "x", "10.0.0.1"], parseIp) == Rejected("Failed to parse threads to integer!")
  {
    HelpWithExtraArgument(parseIp);
    UnknownArgument(parseIp);
    ThreadsFlagBadAddress(parseIp);
    ThreadsFlagBadCount(parseIp, ip);
  }

  lemma {:induction false} HelpWithExtraArgument<Ip>(parseIp: string -> Option<Ip>)
    requires parseIp("-h") == None
    ensures NewArguments(["port_sniffer", "-h", "x"], parseIp) == Rejected("Too many arguments")
  {
    assert OccursAt("-h", "-h", 0);
  }

  lemma {:induction false} UnknownArgument<Ip>(parseIp: string -> Option<Ip>)
    requires parseIp("x") == None
    ensures NewArguments(["port_sniffer", "x"], parseIp) == Rejected("Invalid syntax")
  {
    assert !OccursAt("x", "-h", 0) && !OccursAt("x", "-help", 0) && !OccursAt("x", "-j", 0);
  }

  lemma {:induction false} ThreadsFlagBadAddress<Ip>(parseIp: string -> Option<Ip>)
    requires parseIp("-j") == None && parseIp("nope") == None
    ensures NewArguments(["port_sniffer", "-j", "100", "nope"], parseIp) == Rejected("Incorrect behaviour!")
  {
    DashJFlag();
  }

  lemma {:induction false} ThreadsFlagBadCount<Ip>(parseIp: string -> Option<Ip>, ip: Ip)
    requires parseIp("-j") == None && parseIp("10.0.0.1") == Some(ip)
    ensures NewArguments(["port_sniffer", "-j", "x", "10.0.0.1"], parseIp) == Rejected("Failed to parse threads to integer!")
  {
    var args := ["port_sniffer", "-j", "x", "10.0.0.1"];
    assert args[1] == "-j" && args[2] == "x" && args[3] == "10.0.0.1";
    DashJFlag();
    LetterNotThreads();
  }

  /** "x" is no thread count. */
  lemma {:induction false} LetterNotThreads()
    ensures ParseU16(Trim("x")).None?
  {
    TrimLetter();
    ParseLetter();
  }

  lemma {:induction false} TrimLetter()
    ensures Trim("x") == "x"
  {
    assert !IsWhitespace("x"[0]);
    assert TrimStart("x") == "x";
  }

  lemma {:induction false} ParseLetter()
    ensures ParseU16("x").None?
  {
    assert !IsAsciiDigit("x"[0]);
  }

  /** "-j" without an address indexes past the end of the arguments. */
  lemma {:induction false} ThreadsFlagWithoutAddress<Ip>(parseIp: string -> Option<Ip>)
    requires parseIp("-j") == None
    ensures NewArguments(["port_sniffer", "-j", "100"], parseIp) == IndexPanic
  {
    DashJFlag();
  }

  // ---------------------------------------------------------------- scanning

  /** The ports `scan` probes from `port` on, with the break test as written:
      stop once `MAX_PROTS - port <= threads`. */
  function Probes(port: int, threads: int): (r: seq<int>)
    requires 1 <= port <= MaxPorts && 1 <= threads
    ensures |r| > 0 && r[0] == port
    ensures forall k :: 0 <= k < |r| ==> port <= r[k] <= MaxPorts
    ensures forall k :: 0 <= k < |r| ==> r[k] == port + k * threads
    ensures MaxPorts - r[|r| - 1] <= threads
    ensures forall k :: 0 <= k < |r| - 1 ==> MaxPorts - r[k] > threads
    decreases MaxPorts - port
  {
    if MaxPorts - port <= threads then [port]
    else
      var rest := Probes(port + threads, threads);
      assert forall k :: 1 <= k < |rest| + 1 ==> port + threads + (k - 1) * threads == port + k * threads;
      [port] + rest
  }

  /** As written, a worker probes `MAX_PROTS` only when it starts there:
      every later probe lies below it. */
  lemma {:induction false} ProbesBelowMax(port: int, threads: int)
    requires 1 <= port <= MaxPorts && 1 <= threads
    ensures forall q :: q in Probes(port, threads) ==> q == port || q < MaxPorts
    decreases MaxPorts - port
  {
    if MaxPorts - port > threads {
      ProbesBelowMax(port + threads, threads);
    }
  }

  /** As written, a worker probes every port of its track below `MAX_PROTS`. */
  lemma {:induction false} ProbesReach(port: int, threads: int, k: nat)
    requires 1 <= port && 1 <= threads && port + k * threads < MaxPorts
    ensures port + k * threads in Probes(port, threads)
  {
    var r := Probes(port, threads);
    var n := |r|;
    // The last probe lies within `threads` of the top, so the track's
    // `k`-th port, still below it, comes earlier.
    assert r[n - 1] == port + (n - 1) * threads;
    MulMonotone(n, n, threads);
    MulCancel(k, n, threads);
    assert r[k] == port + k * threads;
  }

  /** The ports `scan` probes with the break test `MAX_PROTS - port < threads`:
      it continues while one more step stays within the port range. */
  function ProbesFixed(port: int, threads: int): (r: seq<int>)
    requires 1 <= port <= MaxPorts && 1 <= threads
    ensures |r| > 0 && r[0] == port
    ensures forall k :: 0 <= k < |r| ==> port <= r[k] <= MaxPorts
    ensures forall k :: 0 <= k < |r| ==> r[k] == port + k * threads
    ensures MaxPorts - r[|r| - 1] < threads
    ensures forall k :: 0 <= k < |r| - 1 ==> MaxPorts - r[k] >= threads
    decreases MaxPorts - port
  {
    if MaxPorts - port < threads then [port]
    else
      var rest := ProbesFixed(port + threads, threads);
      assert forall k :: 1 <= k < |rest| + 1 ==> port + threads + (k - 1) * threads == port + k * threads;
      [port] + rest
  }

  /** With the corrected test, a worker probes every port of its track up to
      `MAX_PROTS` inclusive. */
  lemma {:induction false} ProbesFixedReach(port: int, threads: int, k: nat)
    requires 1 <= port && 1 <= threads && port + k * threads <= MaxPorts
    ensures port + k * threads in ProbesFixed(port, threads)
  {
    var r := ProbesFixed(port, threads);
    var n := |r|;
    // The last probe lies less than `threads` below the top, so the track's
    // `k`-th port, still within range, comes no later.
    assert r[n - 1] == port + (n - 1) * threads;
    MulMonotone(n, n, threads);
    MulCancel(k, n, threads);
    assert r[k] == port + k * threads;
  }

  /** One more step of the track adds `t`. */
  lemma {:induction false} MulMonotone(a: int, b: int, t: int)
    requires a <= b && 0 <= t
    ensures a * t <= b * t
    ensures (a - 1) * t + t == a * t
  {
    assert b * t - a * t == (b - a) * t;
  }

  /** A positive factor can be cancelled from a strict inequality. */
  lemma {:induction false} MulCancel(a: int, b: int, t: int)
    requires 0 < t && a * t < b * t
    ensures a < b
  {
    if a >= b {
      MulMonotone(b, a, t);
    }
  }

  /** What one call of `scan(start_point, threads)` does. */
  datatype ScanOutcome =
    | Probed(ports: seq<int>)
    | Overflow   // `start_point + 1` exceeds `u16`
    | Diverges   // zero threads: the port never advances

  /** `scan` as written. */
  function Scan(start: U16, threads: U16): (r: ScanOutcome)
    ensures r.Overflow? <==> start == MaxPorts
    ensures r.Diverges? <==> start < MaxPorts - 1 && threads == 0
    ensures r.Probed? && threads > 0 ==> r.ports == Probes(start + 1, threads)
    ensures r.Probed? && threads == 0 ==> r.ports == [MaxPorts]
  {
    if start == MaxPorts then Overflow
    else if threads == 0 then (if start + 1 == MaxPorts then Probed([MaxPorts]) else Diverges)
    else Probed(Probes(start + 1, threads))
  }

  /** `scan` with the corrected break test. */
  function ScanFixed(start: U16, threads: U16): (r: ScanOutcome)
    ensures r.Overflow? <==> start == MaxPorts
    ensures r.Diverges? <==> start < MaxPorts && threads == 0
    ensures r.Probed? ==> threads > 0 && r.ports == ProbesFixed(start + 1, threads)
  {
    if start == MaxPorts then Overflow
    else if threads == 0 then Diverges
    else Probed(ProbesFixed(start + 1, threads))
  }

  /** The ports worker `i` of `main` probes (as written): `main` starts worker
      `i` at `i`, so its first probe is `i + 1`. The worker covers its residue
      class modulo `threads`, but only below `MAX_PROTS` unless it starts there. */
  function WorkerProbes(i: int, threads: int): (r: seq<int>)
    requires 0 <= i < threads <= MaxPorts
    ensures forall q :: q in r <==>
      1 <= q <= MaxPorts && (q - 1) % threads == i && (q < MaxPorts || q == i + 1)
  {
    var r := Probes(i + 1, threads);
    WorkerTrack(i, threads, r);
    r
  }

  /** The ports worker `i` probes with the corrected test: its whole residue
      class modulo `threads` within the port range. */
  function WorkerProbesFixed(i: int, threads: int): (r: seq<int>)
    requires 0 <= i < threads <= MaxPorts
    ensures forall q :: q in r <==> 1 <= q <= MaxPorts && (q - 1) % threads == i
  {
    var r := ProbesFixed(i + 1, threads);
    WorkerTrackFixed(i, threads, r);
    r
  }

  /** The `k`-th port of a track starting at `i + 1` is `i + 1` modulo `t`. */
  lemma {:induction false} TrackResidue(i: int, k: nat, t: int)
    requires 0 <= i < t
    ensures (i + k * t) % t == i
  {
    var x := i + k * t;
    var d, m := x / t, x % t;
    assert (d - k) * t == i - m;
    if d - k >= 1 {
      MulMonotone(1, d - k, t);
    } else if d - k <= -1 {
      MulMonotone(d - k, -1, t);
    }
  }

  /** Every port of a track from `i + 1` is `i + 1` modulo `t`. */
  lemma {:induction false} TrackResidues(i: int, t: int, r: seq<int>)
    requires 0 <= i < t
    requires forall k :: 0 <= k < |r| ==> r[k] == i + 1 + k * t
    ensures forall q :: q in r ==> (q - 1) % t == i
  {
    forall q | q in r ensures (q - 1) % t == i {
      var k :| 0 <= k < |r| && r[k] == q;
      TrackResidue(i, k, t);
    }
  }

  /** As written, the ports a worker probes are its residue class below
      `MAX_PROTS`, and its first port. */
  lemma {:induction false} WorkerTrack(i: int, threads: int, r: seq<int>)
    requires 0 <= i < threads <= MaxPorts && r == Probes(i + 1, threads)
    ensures forall q :: q in r <==>
      1 <= q <= MaxPorts && (q - 1) % threads == i && (q < MaxPorts || q == i + 1)
  {
    WorkerTrackSound(i, threads, r);
    WorkerTrackComplete(i, threads, r);
  }

  lemma {:induction false} WorkerTrackSound(i: int, threads: int, r: seq<int>)
    requires 0 <= i < threads <= MaxPorts && r == Probes(i + 1, threads)
    ensures forall q :: q in r ==>
      1 <= q <= MaxPorts && (q - 1) % threads == i && (q < MaxPorts || q == i + 1)
  {
    ProbesBelowMax(i + 1, threads);
    TrackResidues(i, threads, r);
  }

  lemma {:induction false} WorkerTrackComplete(i: int, threads: int, r: seq<int>)
    requires 0 <= i < threads <= MaxPorts && r == Probes(i + 1, threads)
    ensures forall q :: 1 <= q <= MaxPorts && (q - 1) % threads == i && (q < MaxPorts || q == i + 1) ==> q in r
  {
    forall q | 1 <= q <= MaxPorts && (q - 1) % threads == i && (q < MaxPorts || q == i + 1)
      ensures q in r
    {
      var j, k := TrackOf(q, threads);
      if q < MaxPorts {
        ProbesReach(i + 1, threads, k);
      } else {
        assert r[0] == q;
      }
    }
  }

  /** With the corrected test, the ports a worker probes are its whole residue
      class within the port range. */
  lemma {:induction false} WorkerTrackFixed(i: int, threads: int, r: seq<int>)
    requires 0 <= i < threads <= MaxPorts && r == ProbesFixed(i + 1, threads)
    ensures forall q :: q in r <==>
      1 <= q <= MaxPorts && (q - 1) % threads == i
  {
    WorkerTrackFixedSound(i, threads, r);
    WorkerTrackFixedComplete(i, threads, r);
  }

  lemma {:induction false} WorkerTrackFixedSound(i: int, threads: int, r: seq<int>)
    requires 0 <= i < threads <= MaxPorts && r == ProbesFixed(i + 1, threads)
    ensures forall q :: q in r ==> 1 <= q <= MaxPorts && (q - 1) % threads == i
  {
    TrackResidues(i, threads, r);
  }

  lemma {:induction false} WorkerTrackFixedComplete(i: int, threads: int, r: seq<int>)
    requires 0 <= i < threads <= MaxPorts && r == ProbesFixed(i + 1, threads)
    ensures forall q :: 1 <= q <= MaxPorts && (q - 1) % threads == i ==> q in r
  {
    forall q | 1 <= q <= MaxPorts && (q - 1) % threads == i ensures q in r {
      var j, k := TrackOf(q, threads);
      ProbesFixedReach(i + 1, threads, k);
    }
  }

  /** Some worker of `main` probes port `q` (as written). */
  predicate Scanned(threads: U16, q: int) {
    exists i :: 0 <= i < threads && q in WorkerProbes(i, threads)
  }

  /** Some worker probes port `q` (corrected). */
  predicate ScannedFixed(threads: U16, q: int) {
    exists i :: 0 <= i < threads && q in WorkerProbesFixed(i, threads)
  }

  /** Port `q` lies on the track of worker `(q - 1) % threads`, `k` steps
      after its first port. */
  lemma {:induction false} TrackOf(q: int, threads: int) returns (i: int, k: nat)
    requires 1 <= threads && 1 <= q
    ensures i == (q - 1) % threads && 0 <= i < threads
    ensures i + 1 + k * threads == q
  {
    i, k := (q - 1) % threads, (q - 1) / threads;
  }

  /** As written, the worker whose track holds `q` probes it when `q` is below `MAX_PROTS`. */
  lemma {:induction false} WorkerReaches(threads: U16, q: int)
    requires 1 <= threads && 1 <= q < MaxPorts
    ensures q in WorkerProbes((q - 1) % threads, threads)
  {
    var i, k := TrackOf(q, threads);
    ProbesReach(i + 1, threads, k);
  }

  /** With the corrected test, the worker whose track holds `q` probes it. */
  lemma {:induction false} WorkerFixedReaches(threads: U16, q: int)
    requires 1 <= threads && 1 <= q <= MaxPorts
    ensures q in WorkerProbesFixed((q - 1) % threads, threads)
  {
    var i, k := TrackOf(q, threads);
    ProbesFixedReach(i + 1, threads, k);
  }

  /** As written, the workers of `main` probe every port but the last: port
      65535 is missed whenever fewer than 65535 threads run. */
  lemma {:induction false} ScanMissesLastPort(threads: U16, q: int)
    requires 1 <= threads < MaxPorts && 1 <= q <= MaxPorts
    ensures Scanned(threads, q) <==> q != MaxPorts
  {
    if q < MaxPorts {
      WorkerReaches(threads, q);
    }
    forall i | 0 <= i < threads ensures MaxPorts !in WorkerProbes(i, threads) {
      ProbesBelowMax(i + 1, threads);
    }
  }

  /** Concretely: with the default four threads, nobody probes port 65535. */
  lemma {:induction false} DefaultScanMissesLastPort()
    ensures !Scanned(4, 65535)
  {
    ScanMissesLastPort(4, 65535);
  }

  /** With the corrected test, the workers probe every port from 1 to 65535. */
  lemma {:induction false} ScanFixedCoversAll(threads: U16, q: int)
    requires 1 <= threads && 1 <= q <= MaxPorts
    ensures ScannedFixed(threads, q)
  {
    WorkerFixedReaches(threads, q);
  }

  /** With the corrected test and four threads, port 65535 is probed. */
  lemma {:induction false} DefaultScanFixedReachesLastPort()
    ensures ScannedFixed(4, 65535)
  {
    ScanFixedCoversAll(4, 65535);
  }
}

=== FILE: process.dfy ===
/** What the operating system reports about a child process, as the model
    sees it: processes are never started here, their outcomes are inputs.
 */
module Process {
  import opened Base

  /** What running a process to completion gives: its exit code (none when a
      signal ended it) and its output already decoded as text, or the error
      that kept it from starting. */
  datatype ProcessOutcome =
    | Exited(code: Option<int>, stdout: string, stderr: string)
    | SpawnFailed(error: string)

  /** The outcome of a run bounded by a timeout. */
  datatype TimedOutcome = Finished(outcome: ProcessOutcome) | TimedOut

  /** `ExitStatus::success`: the process exited with code 0. */
  predicate ExitedOk(p: ProcessOutcome) {
    p.Exited? && p.code == Some(0)
  }

  /** A process runner: command name and arguments to outcome. */
  type Runner = (string, seq<string>) -> ProcessOutcome

  /** A process runner bounded by a timeout. */
  type TimedRunner = (string, seq<string>) -> TimedOutcome
}

=== FILE: registry.dfy ===
/** Tool registries: a map from tool name to tool, filled by `register_tool`
    and queried by `call_tool_by_name` / `get_tool`, plus the `length` tool in
    its two versions (serde-decoded arguments and direct field lookup).

    A tool is its name, its description and its `execute` behaviour, a
    function from the argument value to a `ToolOutput`. The shared
    `RwLock` around the map is not modelled: every operation sees one whole
    map before and produces one whole map after.
 */
module Registry {
  import opened Base
  import opened Text
  import opened Json

  datatype Tool = Tool(name: string, description: string, execute: Value -> ToolOutput)

  type ToolRegistry = map<string, Tool>

  /** `new_registry`: no tool is registered. */
  function NewRegistry(): (r: ToolRegistry)
    ensures forall name :: name !in r
  {
    map[]
  }

  /** `register_tool`: insert `tool` under its own name, replacing any tool
      already registered under that name. */
  function Register(registry: ToolRegistry, tool: Tool): (r: ToolRegistry)
    ensures tool.name in r && r[tool.name] == tool
    ensures r.Keys == registry.Keys + {tool.name}
    ensures forall name :: name in registry && name != tool.name ==> r[name] == registry[name]
  {
    registry[tool.name := tool]
  }

  /** `call_tool_by_name` / `get_tool`: run the named tool on `args`, or
      report `None` when no tool has that name. */
  function CallTool(registry: ToolRegistry, name: string, args: Value): (r: Option<ToolOutput>)
    ensures r.None? <==> name !in registry
    ensures r.Some? ==> r.value == registry[name].execute(args)
  {
    if name in registry then Some(registry[name].execute(args)) else None
  }

  /** A registered tool is found under its name and receives the arguments unchanged. */
  lemma {:induction false} CallAfterRegister(registry: ToolRegistry, tool: Tool, args: Value)
    ensures CallTool(Register(registry, tool), tool.name, args) == Some(tool.execute(args))
  {
  }

  /** Registering one tool leaves every lookup of another name as it was. */
  lemma {:induction false} RegisterKeepsOthers(registry: ToolRegistry, tool: Tool, name: string, args: Value)
    requires name != tool.name
    ensures CallTool(Register(registry, tool), name, args) == CallTool(registry, name, args)
  {
  }

  /** `LengthTool::execute` with serde decoding of `TextArgs { text }`: the
      UTF-8 byte length of `text`, or an "Invalid input" failure. */
  function LengthExecute(args: Value): (out: ToolOutput)
    ensures out.success <==> FromValueSingleString(args, "text", "TextArgs").Ok?
    ensures out.success ==>
      out == ToolOutput(Number(Utf8Len(FromValueSingleString(args, "text", "TextArgs").value)), true, None)
    ensures !out.success ==>
      && out.result == Null
      && out.message.Some?
      && StartsWith(out.message.value, "Invalid input: ")
  {
    match FromValueSingleString(args, "text", "TextArgs")
    case Ok(text) => ToolOutput(Number(Utf8Len(text)), true, None)
    case Err(e) => ToolOutput(Null, false, Some("Invalid input: " + SerdeMessage(e)))
  }

  /** The `LengthTool` of the tool-using crate. */
  function LengthTool(): (t: Tool)
    ensures t.name == "length"
    ensures forall args :: t.execute(args) == LengthExecute(args)
  {
    Tool("length", "Calculates the length of a given string", LengthExecute)
  }

  /** `LengthTool::execute` of the draft crate: looks up the `text` field
      directly, so only an object with a string `text` succeeds. */
  function LengthExecuteByField(args: Value): (out: ToolOutput)
    ensures out.success <==> Get(args, "text").Some? && Get(args, "text").value.Str?
    ensures out.success ==> out == ToolOutput(Number(Utf8Len(args.fields["text"].s)), true, None)
    ensures !out.success ==> out == ToolOutput(Null, false, Some("Missing or invalid 'text' argument"))
  {
    match Get(args, "text")
    case Some(Str(text)) => ToolOutput(Number(Utf8Len(text)), true, None)
    case _ => ToolOutput(Null, false, Some("Missing or invalid 'text' argument"))
  }

  /** The `LengthTool` of the draft crate. */
  function LengthToolByField(): (t: Tool)
    ensures t.name == "length"
    ensures forall args :: t.execute(args) == LengthExecuteByField(args)
  {
    Tool("length", "Calculates the length of a given string", LengthExecuteByField)
  }

  /** On object arguments both versions give the same result and success flag;
      they differ only in the failure message. A one-string array succeeds
      only with serde decoding. */
  lemma {:induction false} LengthVersionsAgreeOnObjects(args: Value)
    ensures args.Object? ==>
      && LengthExecute(args).result == LengthExecuteByField(args).result
      && LengthExecute(args).success == LengthExecuteByField(args).success
    ensures args.Array? && |args.items| == 1 && args.items[0].Str? ==>
      LengthExecute(args).success && !LengthExecuteByField(args).success
  {
  }

  /** `{"text": "hi"}` measures 2 bytes. */
  lemma {:induction false} LengthOfHi()
    ensures CallTool(Register(NewRegistry(), LengthTool()), "length", Object(map["text" := Str("hi")]))
         == Some(ToolOutput(Number(2), true, None))
  {
    var args := Object(map["text" := Str("hi")]);
    assert FromValueSingleString(args, "text", "TextArgs") == Ok("hi");
    assert Utf8Len("hi") == 2 by {
      assert "hi"[1..] == "i";
      assert "i"[1..] == "";
    }
  }
}

=== FILE: resolver.dfy ===
/** Argument resolution of the local planner (`resolve_args`): a string that is
    exactly `${name}` is replaced by the earlier output stored under `name`,
    keeping that output's JSON type; arrays and objects are resolved element by
    element; everything else is copied.
 */
module Resolver {
  import opened Base
  import opened Text
  import opened Json

  /** `strip_prefix("${")` followed by `strip_suffix("}")`. */
  function PlaceholderName(s: string): (r: Option<string>)
    ensures r.Some? ==> s == "${" + r.value + "}"
  {
    if StartsWith(s, "${") && EndsWith(s[2..], "}") then Some(s[2..|s| - 1]) else None
  }

  /** Every `${name}` string is recognised, whatever `name` holds (even "}"). */
  lemma {:induction false} PlaceholderNameOf(name: string)
    ensures PlaceholderName("${" + name + "}") == Some(name)
  {
    var s := "${" + name + "}";
    assert s[..2] == "${";
    assert s[2..][|s[2..]| - 1..] == "}";
    assert s[2..|s| - 1] == name;
  }

  /** Substitute earlier outputs for the `${name}` strings of `template`. */
  function ResolveArgs(template: Value, outputs: map<string, Value>): (r: Value)
    ensures template.Str? && PlaceholderName(template.s).Some? ==>
      var name := PlaceholderName(template.s).value;
      r == (if name in outputs then outputs[name] else Null)
    ensures template.Str? && PlaceholderName(template.s).None? ==> r == template
    ensures template.Null? || template.Bool? || template.Number? ==> r == template
    ensures template.Array? ==>
      && r.Array?
      && |r.items| == |template.items|
      && forall i :: 0 <= i < |template.items| ==> r.items[i] == ResolveArgs(template.items[i], outputs)
    ensures template.Object? ==>
      && r.Object?
      && r.fields.Keys == template.fields.Keys
      && forall k :: k in template.fields ==> r.fields[k] == ResolveArgs(template.fields[k], outputs)
  {
    match template
    case Str(s) =>
      (match PlaceholderName(s)
       case Some(name) => if name in outputs then outputs[name] else Null
       case None => template)
    case Object(m) => Object(map k | k in m :: ResolveArgs(m[k], outputs))
    case Array(a) => Array(seq(|a|, i requires 0 <= i < |a| => ResolveArgs(a[i], outputs)))
    case _ => template
  }

  /** The names a template refers to through `${name}` strings. */
  function Refs(v: Value): set<string> {
    match v
    case Str(s) => if PlaceholderName(s).Some? then {PlaceholderName(s).value} else {}
    case Array(a) => set i, n | 0 <= i < |a| && n in Refs(a[i]) :: n
    case Object(m) => set k, n | k in m && n in Refs(m[k]) :: n
    case _ => {}
  }

  /** Two contexts that agree on every name `v` refers to resolve `v` alike:
      a step only sees the outputs it names. */
  lemma {:induction false} ResolveLocal(v: Value, o1: map<string, Value>, o2: map<string, Value>)
    requires forall n :: n in Refs(v) ==> (n in o1 <==> n in o2)
    requires forall n :: n in Refs(v) && n in o1 ==> o1[n] == o2[n]
    ensures ResolveArgs(v, o1) == ResolveArgs(v, o2)
  {
    match v
    case Str(s) =>
    case Array(a) =>
      forall i | 0 <= i < |a| ensures ResolveArgs(a[i], o1) == ResolveArgs(a[i], o2) {
        ResolveLocal(a[i], o1, o2);
      }
      assert ResolveArgs(v, o1).items == ResolveArgs(v, o2).items;
    case Object(m) =>
      forall k | k in m ensures ResolveArgs(m[k], o1) == ResolveArgs(m[k], o2) {
        ResolveLocal(m[k], o1, o2);
      }
      assert ResolveArgs(v, o1).fields == ResolveArgs(v, o2).fields;
    case _ =>
  }

  /** A template without placeholders resolves to itself. */
  lemma {:induction false} ResolveWithoutRefs(v: Value, outputs: map<string, Value>)
    requires Refs(v) == {}
    ensures ResolveArgs(v, outputs) == v
  {
    match v
    case Array(a) =>
      forall i | 0 <= i < |a| ensures ResolveArgs(a[i], outputs) == a[i] {
        ResolveWithoutRefs(a[i], outputs);
      }
      assert ResolveArgs(v, outputs).items == a;
    case Object(m) =>
      forall k | k in m ensures ResolveArgs(m[k], outputs) == m[k] {
        ResolveWithoutRefs(m[k], outputs);
      }
      assert ResolveArgs(v, outputs).fields == m;
    case _ =>
  }

  /** When no stored output holds a placeholder, resolution leaves none behind,
      so resolving a second time changes nothing. */
  lemma {:induction false} ResolveIdempotent(v: Value, outputs: map<string, Value>)
    requires forall k :: k in outputs ==> Refs(outputs[k]) == {}
    ensures Refs(ResolveArgs(v, outputs)) == {}
    ensures ResolveArgs(ResolveArgs(v, outputs), outputs) == ResolveArgs(v, outputs)
  {
    var r := ResolveArgs(v, outputs);
    match v {
    case Str(s) =>
    case Array(a) =>
      forall i | 0 <= i < |a| ensures Refs(r.items[i]) == {} {
        ResolveIdempotent(a[i], outputs);
      }
    case Object(m) =>
      forall k | k in m ensures Refs(r.fields[k]) == {} {
        ResolveIdempotent(m[k], outputs);
      }
    case _ =>
    }
    ResolveWithoutRefs(r, outputs);
  }

  /** `"${x}"` with `x` bound to 42 yields the number 42, not a string. */
  lemma {:induction false} ResolveKeepsType()
    ensures ResolveArgs(Str("${x}"), map["x" := Number(42)]) == Number(42)
  {
    PlaceholderNameOf("x");
    assert "${" + "x" + "}" == "${x}";
  }

  /** An unbound name resolves to `Null`. */
  lemma {:induction false} ResolveMissingIsNull()
    ensures ResolveArgs(Str("${missing}"), map["x" := Number(42)]) == Null
  {
    PlaceholderNameOf("missing");
    assert "${" + "missing" + "}" == "${missing}";
  }

  /** A placeholder inside a longer string is left alone. */
  lemma {:induction false} ResolveEmbeddedUnchanged()
    ensures ResolveArgs(Str("prefix ${x} suffix"), map["x" := Number(42)]) == Str("prefix ${x} suffix")
  {
    assert "prefix ${x} suffix"[0] != "${"[0];
  }
}

=== FILE: scanner.dfy ===
/** The `scanner` crate: a hand-written lexer that turns source text into
    tokens one `scan_token` call at a time.

    Positions are character indices into `source`; the lexeme of a token is
    the text between the scanner's `start` and `current`. A `scan_token` call
    that would unwrap a missing character is a `Panicked` outcome.
 */
module Scanner {
  import opened Base
  import opened Text
  import opened Seqs

  datatype TokenType =
    | LeftParen | RightParen | LeftBrace | RightBrace
    | Comma | Minus | Plus
    | RightShift | LeftShift
    | Semicolon | Slash | Star
    | Bang | BangEqual
    | Equal | EqualEqual
    | Greater | GreaterEqual
    | Less | LessEqual
    | Identifier | Str | Number
    | And | Else | False
    | Fun | If | Noth | For
    | Print | Return | Or
    | Var | While | True
    | Error | Eof

  datatype Token = Token(tokenType: TokenType, lexeme: string, line: nat)

  datatype Scanner = Scanner(source: string, start: nat, current: nat, line: nat)

  /** The reserved words and their token types (`Scanner::new`). */
  const Keywords: map<string, TokenType> := map[
    "if" := If, "else" := Else, "for" := For, "while" := While,
    "and" := And, "or" := Or, "true" := True, "false" := False,
    "noth" := Noth, "fun" := Fun, "var" := Var, "print" := Print,
    "return" := Return]

  /** `Scanner::new`: at the start of the first line. */
  function NewScanner(source: string): (sc: Scanner)
    ensures Valid(sc) && sc.current == 0 && sc.line == 1
  {
    Scanner(source, 0, 0, 1)
  }

  /** The scanner's own invariant: the token start is not past the current
      position, which is not past the end, and lines count from 1. */
  predicate Valid(sc: Scanner) {
    sc.start <= sc.current <= |sc.source| && sc.line >= 1
  }

  /** `source.chars().nth(i)`. */
  function Peek(source: string, i: int): (r: Option<char>)
    ensures r.Some? <==> 0 <= i < |source|
    ensures r.Some? ==> r.value == source[i]
  {
    if 0 <= i < |source| then Some(source[i]) else None
  }

  /** The token from `start` to `current`, on the current line (`make_token`). */
  function MakeToken(sc: Scanner, tokenType: TokenType): (t: Token)
    requires Valid(sc)
    ensures t.tokenType == tokenType && t.line == sc.line
    ensures t.lexeme == sc.source[sc.start..sc.current]
  {
    Token(tokenType, sc.source[sc.start..sc.current], sc.line)
  }

  predicate IsIdentChar(c: char) {
    IsAsciiAlphabetic(c) || c == '_'
  }

  /** The end of the run of `IsAsciiDigit` characters starting at `i`. */
  function DigitRunEnd(source: string, i: nat): (j: nat)
    requires i <= |source|
    ensures i <= j <= |source|
    ensures forall k :: i <= k < j ==> IsAsciiDigit(source[k])
    ensures j == |source| || !IsAsciiDigit(source[j])
    decreases |source| - i
  {
    if i < |source| && IsAsciiDigit(source[i]) then DigitRunEnd(source, i + 1) else i
  }

  /** The end of the run of letters and underscores starting at `i`. */
  function IdentRunEnd(source: string, i: nat): (j: nat)
    requires i <= |source|
    ensures i <= j <= |source|
    ensures forall k :: i <= k < j ==> IsIdentChar(source[k])
    ensures j == |source| || !IsIdentChar(source[j])
    decreases |source| - i
  {
    if i < |source| && IsIdentChar(source[i]) then IdentRunEnd(source, i + 1) else i
  }

  /** The end of a `//` comment starting at `i`: the next '\n', which is left
      in place, or the end of the source. */
  function CommentEnd(source: string, i: nat): (j: nat)
    requires i <= |source|
    ensures i <= j <= |source|
    ensures forall k :: i <= k < j ==> source[k] != '\n'
    ensures j == |source| || source[j] == '\n'
    decreases |source| - i
  {
    if i < |source| && source[i] != '\n' then CommentEnd(source, i + 1) else i
  }

  /** `//` starts at `i`. */
  predicate CommentAt(source: string, i: int) {
    Peek(source, i) == Some('/') && Peek(source, i + 1) == Some('/')
  }

  /** A character `skip_whitespace` steps over. */
  predicate IsBlank(c: char) {
    c == ' ' || c == '\t' || c == '\r' || c == '\n'
  }

  /** Position `k` lies inside a `//` comment that starts at or before it on
      the same line. */
  predicate InComment(source: string, k: int) {
    exists j :: 0 <= j <= k < |source| && CommentAt(source, j) && (forall m :: j <= m <= k ==> source[m] != '\n')
  }

  /** Counting line feeds one character at a time. */
  lemma {:induction false} CountCharStep(source: string, i: nat, j: nat)
    requires i < j <= |source|
    ensures CountChar(source[i..j], '\n') == (if source[i] == '\n' then 1 else 0) + CountChar(source[i + 1..j], '\n')
  {
    assert source[i..j][1..] == source[i + 1..j];
  }

  /** A stretch without line feeds counts none. */
  lemma {:induction false} CountCharNone(s: string)
    requires forall k :: 0 <= k < |s| ==> s[k] != '\n'
    ensures CountChar(s, '\n') == 0
    decreases |s|
  {
    if |s| > 0 {
      CountCharNone(s[1..]);
    }
  }

  /** `skip_whitespace`: step over blanks, counting each '\n' as a new line;
      a `//` comment is skipped up to, not over, its '\n', and then skipping
      stops. */
  function SkipWhitespace(sc: Scanner): (r: Scanner)
    requires Valid(sc)
    ensures Valid(r) && r.source == sc.source && r.start == sc.start
    ensures sc.current <= r.current
    ensures r.line == sc.line + CountChar(sc.source[sc.current..r.current], '\n')
    ensures r.current < |r.source| ==>
      r.source[r.current] == '\n' || (!IsBlank(r.source[r.current]) && !CommentAt(r.source, r.current))
    ensures r.current < |r.source| && r.source[r.current] == '\n' ==>
      sc.current < r.current && InComment(r.source, r.current - 1)
    decreases |sc.source| - sc.current
  {
    var src := sc.source;
    var i := sc.current;
    match Peek(src, i)
    case Some(c) =>
      if c == ' ' || c == '\t' || c == '\r' || c == '\n' then
        var next := sc.(current := i + 1, line := if c == '\n' then sc.line + 1 else sc.line);
        var r := SkipWhitespace(next);
        CountCharStep(src, i, r.current);
        r
      else if CommentAt(src, i) then
        var j := CommentEnd(src, i);
        CountCharNone(src[i..j]);
        assert j < |src| ==> InComment(src, j - 1) by {
          if j < |src| {
            assert forall m :: i <= m <= j - 1 ==> src[m] != '\n';
          }
        }
        sc.(current := j)
      else
        assert src[i..i] == [];
        sc
    case None =>
      assert src[i..i] == [];
      sc
  }

  /** Every position `skip_whitespace` steps over holds a blank or lies
      inside a `//` comment. */
  lemma {:induction false} SkippedBlankOrComment(sc: Scanner)
    requires Valid(sc)
    ensures var r := SkipWhitespace(sc);
      forall k :: sc.current <= k < r.current ==> IsBlank(sc.source[k]) || InComment(sc.source, k)
    decreases |sc.source| - sc.current
  {
    var src := sc.source;
    var i := sc.current;
    if i < |src| && IsBlank(src[i]) {
      var next := sc.(current := i + 1, line := if src[i] == '\n' then sc.line + 1 else sc.line);
      SkipBlankStep(sc);
      SkippedBlankOrComment(next);
      var r := SkipWhitespace(next);
      forall k | i <= k < r.current ensures IsBlank(src[k]) || InComment(src, k) {
        if k == i {
          assert IsBlank(src[k]);
        }
      }
    } else if i < |src| && CommentAt(src, i) {
      SkipCommentStep(sc);
      CommentSpan(src, i);
    } else {
      SkipNoneStep(sc);
    }
  }

  /** The text from `//` up to its line's end lies inside that comment. */
  lemma {:induction false} CommentSpan(source: string, i: nat)
    requires i < |source| && CommentAt(source, i)
    ensures forall k :: i <= k < CommentEnd(source, i) ==> InComment(source, k)
  {
    var j := CommentEnd(source, i);
    forall k | i <= k < j ensures InComment(source, k) {
      assert CommentAt(source, i) && forall m :: i <= m <= k ==> source[m] != '\n';
    }
  }

  /** The outcome of one `scan_token` call. */
  datatype ScanResult = Scanned(token: Token, next: Scanner) | Panicked

  /** A character that ends `string`'s loop: the closing quote or a '$'. */
  predicate EndsString(c: char) {
    c == '"' || c == '$'
  }

  /** The first position from `i` on holding a '"' or a '$', or the end of
      the source. */
  function StringEnd(source: string, i: nat): (j: nat)
    requires i <= |source|
    ensures i <= j <= |source|
    ensures forall k :: i <= k < j ==> !EndsString(source[k])
    ensures j == |source| || EndsString(source[j])
    decreases |source| - i
  {
    if i < |source| && !EndsString(source[i]) then StringEnd(source, i + 1) else i
  }

  /** `string`, called after the opening '"': scan up to and including the
      closing '"'. A '$' anywhere in the string ends it with an Error token,
      because `match_char('{')` looks at the '$' itself; an unterminated
      string is an Error token. Every '\n' inside starts a new line. */
  function ScanString(sc: Scanner): (r: (Token, Scanner))
    requires Valid(sc)
    ensures Valid(r.1) && r.1.source == sc.source && r.1.start == sc.start
    ensures r.0 == MakeToken(r.1, r.0.tokenType)
    ensures var e := StringEnd(sc.source, sc.current);
      && r.1.current == (if e < |sc.source| then e + 1 else e)
      && r.1.line == sc.line + CountChar(sc.source[sc.current..e], '\n')
      && (r.0.tokenType == Str <==> e < |sc.source| && sc.source[e] == '"')
      && (r.0.tokenType != Str ==> r.0.tokenType == Error)
  {
    var src := sc.source;
    var e := StringEnd(src, sc.current);
    var next := sc.(current := if e < |src| then e + 1 else e,
                    line := sc.line + CountChar(src[sc.current..e], '\n'));
    (MakeToken(next, if e < |src| && src[e] == '"' then Str else Error), next)
  }

  /** `source[i..j]` continues a number literal: digits, with at most one '.'
      that a digit follows, ending where no digit follows, and not stopping
      before a '.' and digit when no '.' was taken yet. */
  predicate NumberSpan(source: string, i: nat, j: nat) {
    && i <= j <= |source|
    && (forall k :: i <= k < j ==> IsAsciiDigit(source[k]) || source[k] == '.')
    && (j == |source| || !IsAsciiDigit(source[j]))
    && (forall p, q :: i <= p < q < j && source[p] == '.' ==> source[q] != '.')
    && (forall p :: i <= p < j && source[p] == '.' ==> p + 1 < j && IsAsciiDigit(source[p + 1]))
    && ((forall k :: i <= k < j ==> source[k] != '.') ==>
          !(j + 1 < |source| && source[j] == '.' && IsAsciiDigit(source[j + 1])))
  }

  /** `numbers`: a maximal run of digits, then a '.' and a second run only
      when a digit follows the '.'. */
  function NumberEnd(source: string, i: nat): (j: nat)
    requires i <= |source|
    ensures NumberSpan(source, i, j)
  {
    var d := DigitRunEnd(source, i);
    if Peek(source, d) == Some('.') && Peek(source, d + 1).Some? && IsAsciiDigit(source[d + 1])
    then DigitRunEnd(source, d + 1) else d
  }

  /** A run of digits ends in one place only. */
  lemma {:induction false} DigitRunUnique(source: string, i: nat, j: nat)
    requires i <= j <= |source|
    requires forall k :: i <= k < j ==> IsAsciiDigit(source[k])
    requires j == |source| || !IsAsciiDigit(source[j])
    ensures j == DigitRunEnd(source, i)
    decreases j - i
  {
    if i < j {
      DigitRunUnique(source, i + 1, j);
    }
  }

  /** `NumberSpan` pins the end down: `numbers` stops at the only place it
      can. */
  lemma {:induction false} NumberSpanUnique(source: string, i: nat, j: nat)
    requires NumberSpan(source, i, j)
    ensures j == NumberEnd(source, i)
  {
    var d := DigitRunEnd(source, i);
    if j <= d {
      assert forall k :: i <= k < j ==> source[k] != '.';
    } else {
      assert source[d] == '.';
      assert forall k :: d < k < j ==> IsAsciiDigit(source[k]);
      DigitRunUnique(source, d + 1, j);
    }
  }

  /** The token type of an identifier's text: its keyword, if it is one. */
  function KeywordOr(text: string): (t: TokenType)
    ensures text in Keywords ==> t == Keywords[text]
    ensures text !in Keywords ==> t == Identifier
  {
    if text in Keywords then Keywords[text] else Identifier
  }

  /** The token type of a one-character token, if `c` is one. */
  function SingleCharType(c: char): Option<TokenType> {
    match c
    case '+' => Some(Plus)
    case '-' => Some(Minus)
    case '*' => Some(Star)
    case '/' => Some(Slash)
    case '(' => Some(LeftParen)
    case ')' => Some(RightParen)
    case '{' => Some(LeftBrace)
    case '}' => Some(RightBrace)
    case ',' => Some(Comma)
    case ';' => Some(Semicolon)
    case _ => None
  }

  /** A scanner positioned at the start of a token. */
  predicate AtTokenStart(st: Scanner) {
    Valid(st) && st.start == st.current
  }

  /** What every scanned token satisfies: it is the text from `start` to
      `current`, it is Eof exactly at the end, and any other token is not
      empty. */
  predicate WellScanned(st: Scanner, r: ScanResult) {
    r.Scanned? ==>
      && Valid(r.next) && r.next.source == st.source && r.next.start == st.start
      && r.token == MakeToken(r.next, r.token.tokenType)
      && (r.token.tokenType == Eof <==> r.next.start == |st.source|)
      && (r.token.tokenType != Eof ==> r.next.start < r.next.current)
  }

  /** Numbers and identifiers or keywords. */
  function ScanWord(st: Scanner): (r: ScanResult)
    requires AtTokenStart(st) && st.current < |st.source|
    requires IsAsciiDigit(st.source[st.current]) || IsAsciiAlphabetic(st.source[st.current])
    ensures WellScanned(st, r) && r.Scanned?
    ensures IsAsciiDigit(st.source[st.current]) ==>
      r.token.tokenType == Number && r.next.current == NumberEnd(st.source, st.current + 1)
    ensures !IsAsciiDigit(st.source[st.current]) ==>
      r.next.current == IdentRunEnd(st.source, st.current + 1) && r.token.tokenType == KeywordOr(r.token.lexeme)
  {
    var src := st.source;
    if IsAsciiDigit(src[st.current]) then
      var next := st.(current := NumberEnd(src, st.current + 1));
      Scanned(MakeToken(next, Number), next)
    else
      var next := st.(current := IdentRunEnd(src, st.current + 1));
      Scanned(MakeToken(next, KeywordOr(src[st.current..next.current])), next)
  }

  /** `=`, `!`, `<` and `>`: the first two take an optional '=', the last
      two always take the next character
      (`self.source.chars().nth(self.current).unwrap()`), panicking at the end. */
  function ScanOperator(st: Scanner): (r: ScanResult)
    requires AtTokenStart(st) && st.current < |st.source|
    requires var c := st.source[st.current]; c == '=' || c == '!' || c == '<' || c == '>'
    ensures WellScanned(st, r)
    ensures var c := st.source[st.current]; var i := st.current;
      var two := i + 1 < |st.source| && st.source[i + 1] == '=';
      && ((c == '=' || c == '!') ==>
            && r.Scanned? && r.next.current == (if two then i + 2 else i + 1)
            && r.token.tokenType == (if c == '=' then (if two then EqualEqual else Equal)
                                     else (if two then BangEqual else Bang)))
      && ((c == '<' || c == '>') ==>
            && (r.Panicked? <==> i + 1 == |st.source|)
            && (r.Scanned? ==>
                  var e := st.source[i + 1];
                  && r.next.current == i + 2
                  && r.token.tokenType ==
                       (if c == '<' then (if e == '=' then LessEqual else if e == '<' then LeftShift else Less)
                        else (if e == '=' then GreaterEqual else if e == '>' then RightShift else Greater))))
  {
    var src := st.source;
    var c := src[st.current];
    var adv := st.(current := st.current + 1);
    if c == '=' || c == '!' then
      var two := Peek(src, adv.current) == Some('=');
      var next := if two then adv.(current := adv.current + 1) else adv;
      var t := if c == '=' then (if two then EqualEqual else Equal) else (if two then BangEqual else Bang);
      Scanned(MakeToken(next, t), next)
    else
      match Peek(src, adv.current)
      case None => Panicked
      case Some(e) =>
        var next := adv.(current := adv.current + 1);
        var t := if c == '<' then (if e == '=' then LessEqual else if e == '<' then LeftShift else Less)
                 else (if e == '=' then GreaterEqual else if e == '>' then RightShift else Greater);
        Scanned(MakeToken(next, t), next)
  }

  /** Read one token starting at the scanner's position: `scan_token` after
      `skip_whitespace`. */
  function ScanAt(st: Scanner): (r: ScanResult)
    requires AtTokenStart(st)
    ensures WellScanned(st, r)
    ensures r.Scanned? && r.token.tokenType != Str && r.token.tokenType != Error ==> r.next.line == st.line
  {
    var src := st.source;
    if st.current >= |src| then
      Scanned(MakeToken(st, Eof), st)
    else
      var c := src[st.current];
      var adv := st.(current := st.current + 1);
      if SingleCharType(c).Some? then Scanned(MakeToken(adv, SingleCharType(c).value), adv)
      else if c == '"' then
        var (t, next) := ScanString(adv);
        Scanned(t, next)
      else if IsAsciiDigit(c) || IsAsciiAlphabetic(c) then ScanWord(st)
      else if c == '=' || c == '!' || c == '<' || c == '>' then ScanOperator(st)
      else Scanned(MakeToken(adv, Error), adv)
  }

  /** Where `scan_token` starts its token: after blanks and comments. */
  function TokenStart(sc: Scanner): (st: Scanner)
    requires Valid(sc)
    ensures AtTokenStart(st) && st.source == sc.source && sc.current <= st.current
    ensures st.current == SkipWhitespace(sc).current && st.line == SkipWhitespace(sc).line
  {
    SkipWhitespace(sc).(start := SkipWhitespace(sc).current)
  }

  /** `scan_token`: skip blanks and comments, then read one token starting
      at the first remaining character. */
  function ScanToken(sc: Scanner): (r: ScanResult)
    requires Valid(sc)
    ensures r.Scanned? ==>
      && Valid(r.next) && r.next.source == sc.source
      && sc.current <= r.next.start
      && r.token == MakeToken(r.next, r.token.tokenType)
      && (r.token.tokenType == Eof <==> r.next.start == |sc.source|)
      && (r.token.tokenType != Eof ==> r.next.start < r.next.current)
  {
    ScanAt(TokenStart(sc))
  }

  // ------------------------------------------------------------ what a token is

  /** At the end of the input, after blanks and comments, the token is Eof
      with an empty lexeme; scanning again gives Eof again. */
  lemma {:induction false} EofSticks(sc: Scanner)
    requires Valid(sc) && SkipWhitespace(sc).current == |sc.source|
    ensures ScanToken(sc).Scanned?
    ensures var r := ScanToken(sc);
      && r.token.tokenType == Eof && r.token.lexeme == ""
      && ScanToken(r.next) == r
  {
    var r := ScanToken(sc);
    assert SkipWhitespace(r.next) == r.next;
  }

  /** The punctuation and operator characters `( ) { } , ; + - * /` are
      one-character tokens of their own type. */
  lemma {:induction false} SingleCharToken(st: Scanner)
    requires AtTokenStart(st) && st.current < |st.source|
    requires SingleCharType(st.source[st.current]).Some?
    ensures var r := ScanAt(st);
      && r.Scanned?
      && r.token.tokenType == SingleCharType(st.source[st.current]).value
      && r.token.lexeme == [st.source[st.current]]
  {
    var i := st.current;
    SliceOne(st.source, i);
  }

  /** `=` and `!` take a following `=` when there is one (longest match). */
  lemma {:induction false} EqualBangLongestMatch(st: Scanner)
    requires AtTokenStart(st) && st.current < |st.source|
    requires st.source[st.current] == '=' || st.source[st.current] == '!'
    ensures var r := ScanAt(st); var i := st.current; var c := st.source[i];
      var two := i + 1 < |st.source| && st.source[i + 1] == '=';
      && r.Scanned?
      && r.token.lexeme == (if two then [c, '='] else [c])
      && r.token.tokenType == (if c == '=' then (if two then EqualEqual else Equal)
                               else (if two then BangEqual else Bang))
  {
    var i := st.current;
    var c := st.source[i];
    assert SingleCharType(c).None?;
    assert ScanAt(st) == ScanOperator(st);
    if i + 1 < |st.source| && st.source[i + 1] == '=' {
      SliceTwo(st.source, i);
    } else {
      SliceOne(st.source, i);
    }
  }

  /** `<` and `>` always take the next character too, whatever it is: a
      `<` or `>` at the very end panics. */
  lemma {:induction false} AngleTakesNext(st: Scanner)
    requires AtTokenStart(st) && st.current < |st.source|
    requires st.source[st.current] == '<' || st.source[st.current] == '>'
    ensures var r := ScanAt(st); var i := st.current; var c := st.source[i];
      && (r.Panicked? <==> i + 1 == |st.source|)
      && (r.Scanned? ==>
            var e := st.source[i + 1];
            && r.token.lexeme == [c, e]
            && r.token.tokenType ==
                 (if c == '<' then (if e == '=' then LessEqual else if e == '<' then LeftShift else Less)
                  else (if e == '=' then GreaterEqual else if e == '>' then RightShift else Greater)))
  {
    var i := st.current;
    var c := st.source[i];
    assert SingleCharType(c).None?;
    assert ScanAt(st) == ScanOperator(st);
    if i + 1 < |st.source| {
      SliceTwo(st.source, i);
    }
  }

  /** An identifier is a letter followed by the longest run of letters and
      underscores; its type is its keyword's, or Identifier. */
  lemma {:induction false} IdentifierToken(st: Scanner)
    requires AtTokenStart(st) && st.current < |st.source|
    requires IsAsciiAlphabetic(st.source[st.current])
    ensures var r := ScanAt(st); var end := IdentRunEnd(st.source, st.current + 1);
      && r.Scanned?
      && r.token.lexeme == st.source[st.current..end]
      && (forall k :: st.current <= k < end ==> IsIdentChar(st.source[k]))
      && (end == |st.source| || !IsIdentChar(st.source[end]))
      && r.token.tokenType == KeywordOr(r.token.lexeme)
  {
    var c := st.source[st.current];
    assert SingleCharType(c).None?;
    assert ScanAt(st) == ScanWord(st);
  }

  /** A number is the longest run of digits, with a fraction only when the
      '.' after it is followed by a digit. */
  lemma {:induction false} NumberToken(st: Scanner)
    requires AtTokenStart(st) && st.current < |st.source|
    requires IsAsciiDigit(st.source[st.current])
    ensures var r := ScanAt(st);
      && r.Scanned? && r.token.tokenType == Number
      && r.token.lexeme == st.source[st.current..NumberEnd(st.source, st.current + 1)]
  {
    var c := st.source[st.current];
    assert SingleCharType(c).None?;
    assert ScanAt(st) == ScanWord(st);
  }

  /** A character that starts no token of its own. */
  predicate Unknown(c: char) {
    SingleCharType(c).None? && c != '"' && !IsAsciiDigit(c) && !IsAsciiAlphabetic(c)
    && c != '=' && c != '!' && c != '<' && c != '>'
  }

  /** An unknown character gives a one-character Error token. */
  lemma {:induction false} UnknownIsError(st: Scanner)
    requires AtTokenStart(st) && st.current < |st.source|
    requires Unknown(st.source[st.current])
    ensures var r := ScanAt(st);
      && r.Scanned? && r.token.tokenType == Error
      && r.token.lexeme == [st.source[st.current]]
  {
    var i := st.current;
    SliceOne(st.source, i);
  }

  /** Every token but a string's or an error's is on the line `scan_token`
      reached after skipping: the scanner's line plus the line feeds
      skipped. */
  lemma {:induction false} TokenLine(sc: Scanner)
    requires Valid(sc) && ScanToken(sc).Scanned?
    ensures var ws := SkipWhitespace(sc); var r := ScanToken(sc);
      r.token.tokenType != Str && r.token.tokenType != Error ==>
        r.token.line == sc.line + CountChar(sc.source[sc.current..ws.current], '\n')
  {
    assert ScanToken(sc) == ScanAt(TokenStart(sc));
  }

  /** The comment quirk: skipping a `//` comment stops at its '\n', which the
      next `scan_token` reports as an Error token, on the line where the
      comment began. */
  lemma {:induction false} CommentLeavesNewline(sc: Scanner, j: nat)
    requires Valid(sc) && sc.current <= j < |sc.source|
    requires forall k :: sc.current <= k < j ==> IsBlank(sc.source[k])
    requires CommentAt(sc.source, j) && CommentEnd(sc.source, j) < |sc.source|
    ensures var r := ScanToken(sc);
      r.Scanned? && r.token == Token(Error, "\n", sc.line + CountChar(sc.source[sc.current..j], '\n'))
  {
    SkipsToCommentEnd(sc, j);
    var st := TokenStart(sc);
    UnknownIsError(st);
    assert ScanToken(sc) == ScanAt(st);
  }

  /** On "// c\nx" the comment's '\n' is an Error token on line 1. */
  lemma {:induction false} CommentLeavesNewlineExample()
    ensures var r := ScanToken(NewScanner("// c\nx"));
      r.Scanned? && r.token == Token(Error, "\n", 1)
  {
    var src := "// c\nx";
    var sc := NewScanner(src);
    assert CommentAt(src, 0);
    assert CommentEnd(src, 4) == 4;
    assert CommentEnd(src, 0) == 4;
    assert SkipWhitespace(sc).current == 4;
    assert src[4..5] == "\n";
  }

  /** The '$' quirk: a '$' inside a string ends it as an Error token. */
  lemma {:induction false} DollarEndsString()
    ensures var r := ScanToken(NewScanner("\"a$b\""));
      r.Scanned? && r.token.tokenType == Error && r.token.lexeme == "\"a$"
  {
    var src := "\"a$b\"";
    assert SkipWhitespace(NewScanner(src)).current == 0;
    assert src[0..3] == "\"a$";
  }

  // ------------------------------------------------------------ whole input

  /** The tokens `main` prints: `scan_token` until Eof, which is included;
      `true` when a call panicked before Eof. */
  function TokensFrom(sc: Scanner): (r: (seq<Token>, bool))
    requires Valid(sc)
    ensures EofOnlyAtEnd(r.0, r.1)
    decreases |sc.source| - sc.current
  {
    match ScanToken(sc)
    case Panicked => ([], true)
    case Scanned(t, next) =>
      if t.tokenType == Eof then ([t], false)
      else
        var rest := TokensFrom(next);
        EofOnlyLast(t, rest.0, rest.1);
        ([t] + rest.0, rest.1)
  }

  /** Only the last token is Eof, unless the run ended in a panic. */
  predicate EofOnlyAtEnd(ts: seq<Token>, panicked: bool) {
    && (!panicked ==> |ts| > 0 && ts[|ts| - 1].tokenType == Eof)
    && (forall k :: 0 <= k < |ts| - (if panicked then 0 else 1) ==> ts[k].tokenType != Eof)
  }

  /** A non-Eof token in front keeps Eof at the end only. */
  lemma {:induction false} EofOnlyLast(t: Token, ts: seq<Token>, panicked: bool)
    requires t.tokenType != Eof
    requires EofOnlyAtEnd(ts, panicked)
    ensures EofOnlyAtEnd([t] + ts, panicked)
  {
    var out := [t] + ts;
    assert forall k :: 1 <= k < |out| ==> out[k] == ts[k - 1];
  }

  /** One step of `TokensFrom`. */
  lemma {:induction false} TokensFromStep(sc: Scanner)
    requires Valid(sc)
    ensures var r := ScanToken(sc);
      && (r.Panicked? ==> TokensFrom(sc) == ([], true))
      && (r.Scanned? && r.token.tokenType == Eof ==> TokensFrom(sc) == ([r.token], false))
      && (r.Scanned? && r.token.tokenType != Eof ==>
            TokensFrom(sc) == ([r.token] + TokensFrom(r.next).0, TokensFrom(r.next).1))
  {
  }

  lemma {:induction false} AppendAssoc<T>(a: seq<T>, b: seq<T>, c: seq<T>)
    ensures a + (b + c) == (a + b) + c
  {
  }

  /** `main`'s loop: scan tokens until Eof or a panic. */
  method ScanAll(source: string) returns (tokens: seq<Token>, panicked: bool)
    ensures (tokens, panicked) == TokensFrom(NewScanner(source))
    ensures !panicked ==> |tokens| > 0 && tokens[|tokens| - 1].tokenType == Eof
    ensures forall k :: 0 <= k < |tokens| - 1 ==> tokens[k].tokenType != Eof
  {
    var sc := NewScanner(source);
    ghost var all := TokensFrom(sc);
    tokens := [];
    while true
      invariant Valid(sc) && sc.source == source
      invariant tokens + TokensFrom(sc).0 == all.0 && TokensFrom(sc).1 == all.1
      decreases |source| - sc.current
    {
      var r := ScanToken(sc);
      TokensFromStep(sc);
      if r.Panicked? {
        assert tokens + [] == tokens;
        return tokens, true;
      }
      if r.token.tokenType == Eof {
        tokens := tokens + [r.token];
        return tokens, false;
      }
      ghost var rest := TokensFrom(r.next).0;
      assert TokensFrom(sc).0 == [r.token] + rest;
      AppendAssoc(tokens, [r.token], rest);
      tokens := tokens + [r.token];
      sc := r.next;
    }
  }

  // ------------------------------------------------------------ the tests' inputs

  function Types(tokens: seq<Token>): (ts: seq<TokenType>)
    ensures |ts| == |tokens| && forall k :: 0 <= k < |tokens| ==> ts[k] == tokens[k].tokenType
  {
    seq(|tokens|, k requires 0 <= k < |tokens| => tokens[k].tokenType)
  }

  /** Nothing to skip at the end or before a character that is neither
      blank nor the start of a comment. */
  lemma {:induction false} StartsHere(sc: Scanner)
    requires Valid(sc)
    requires sc.current < |sc.source| ==> !IsBlank(sc.source[sc.current]) && !CommentAt(sc.source, sc.current)
    ensures TokenStart(sc) == sc.(start := sc.current)
  {
  }

  /** One space is skipped before a character that is neither blank nor the
      start of a comment. */
  lemma {:induction false} StartsAfterSpace(sc: Scanner)
    requires Valid(sc) && sc.current + 1 < |sc.source| && sc.source[sc.current] == ' '
    requires !IsBlank(sc.source[sc.current + 1]) && !CommentAt(sc.source, sc.current + 1)
    ensures TokenStart(sc) == sc.(start := sc.current + 1, current := sc.current + 1)
  {
    var i := sc.current;
    assert SkipWhitespace(sc) == SkipWhitespace(sc.(current := i + 1));
    assert sc.source[i..i + 1] == " ";
  }

  /** A stretch of blanks without comments is skipped, counting its line
      feeds. */
  lemma {:induction false} StartsAfterBlanks(sc: Scanner, j: nat)
    requires Valid(sc) && sc.current <= j <= |sc.source|
    requires forall k :: sc.current <= k < j ==> IsBlank(sc.source[k])
    requires j < |sc.source| ==> !IsBlank(sc.source[j]) && !CommentAt(sc.source, j)
    ensures TokenStart(sc) ==
      sc.(start := j, current := j, line := sc.line + CountChar(sc.source[sc.current..j], '\n'))
    decreases j - sc.current
  {
    var i := sc.current;
    if i == j {
      StartsHere(sc);
      assert sc.source[i..j] == [];
    } else {
      var c := sc.source[i];
      var next := sc.(current := i + 1, line := if c == '\n' then sc.line + 1 else sc.line);
      SkipOneBlank(sc);
      StartsAfterBlanks(next, j);
      CountCharStep(sc.source, i, j);
    }
  }

  /** A blank at the current position is stepped over, and a '\n' counts. */
  lemma {:induction false} SkipOneBlank(sc: Scanner)
    requires Valid(sc) && sc.current < |sc.source| && IsBlank(sc.source[sc.current])
    ensures var c := sc.source[sc.current];
      TokenStart(sc) == TokenStart(sc.(current := sc.current + 1, line := if c == '\n' then sc.line + 1 else sc.line))
  {
    SkipBlankStep(sc);
  }

  /** `skip_whitespace` from a blank goes on from the next position. */
  lemma {:induction false} SkipBlankStep(sc: Scanner)
    requires Valid(sc) && sc.current < |sc.source| && IsBlank(sc.source[sc.current])
    ensures var c := sc.source[sc.current];
      SkipWhitespace(sc) == SkipWhitespace(sc.(current := sc.current + 1, line := if c == '\n' then sc.line + 1 else sc.line))
  {
  }

  /** `skip_whitespace` at a `//` stops at the end of the comment, on the
      same line. */
  lemma {:induction false} SkipCommentStep(sc: Scanner)
    requires Valid(sc) && sc.current < |sc.source| && !IsBlank(sc.source[sc.current]) && CommentAt(sc.source, sc.current)
    ensures SkipWhitespace(sc) == sc.(current := CommentEnd(sc.source, sc.current))
  {
  }

  /** Blanks up to `j` and a `//` there: skipping stops at the end of that
      comment, before its '\n', having counted the blanks' line feeds. */
  lemma {:induction false} SkipsToCommentEnd(sc: Scanner, j: nat)
    requires Valid(sc) && sc.current <= j < |sc.source|
    requires forall k :: sc.current <= k < j ==> IsBlank(sc.source[k])
    requires CommentAt(sc.source, j)
    ensures SkipWhitespace(sc) ==
      sc.(current := CommentEnd(sc.source, j), line := sc.line + CountChar(sc.source[sc.current..j], '\n'))
    decreases j - sc.current
  {
    var i := sc.current;
    if i == j {
      SkipCommentStep(sc);
      assert sc.source[i..j] == [];
    } else {
      var c := sc.source[i];
      var next := sc.(current := i + 1, line := if c == '\n' then sc.line + 1 else sc.line);
      SkipBlankStep(sc);
      SkipsToCommentEnd(next, j);
      CountCharStep(sc.source, i, j);
    }
  }

  /** On "//\nb" skipping stops at the comment's '\n', position 2. */
  lemma {:induction false} EmptyCommentStop()
    ensures SkipWhitespace(NewScanner("//\nb")).current == 2
  {
    var src := "//\nb";
    assert CommentAt(src, 0);
    assert CommentEnd(src, 2) == 2;
    assert CommentEnd(src, 0) == 2;
    SkipsToCommentEnd(NewScanner(src), 0);
  }

  /** `skip_whitespace` elsewhere does not move. */
  lemma {:induction false} SkipNoneStep(sc: Scanner)
    requires Valid(sc)
    requires sc.current < |sc.source| ==> !IsBlank(sc.source[sc.current]) && !CommentAt(sc.source, sc.current)
    ensures SkipWhitespace(sc).current == sc.current
  {
  }

  /** A lone `=` at the token start. */
  lemma {:induction false} EqualAt(st: Scanner)
    requires AtTokenStart(st) && st.current + 1 < |st.source|
    requires st.source[st.current] == '=' && st.source[st.current + 1] != '='
    ensures ScanAt(st) == Scanned(Token(Equal, "=", st.line), st.(current := st.current + 1))
  {
    EqualBangLongestMatch(st);
  }

  /** A `<` at the token start followed by a character other than `=` and
      `<`: the two make a Less token. */
  lemma {:induction false} LessAt(st: Scanner)
    requires AtTokenStart(st) && st.current + 1 < |st.source|
    requires st.source[st.current] == '<'
    requires st.source[st.current + 1] != '=' && st.source[st.current + 1] != '<'
    ensures var i := st.current;
      ScanAt(st) == Scanned(Token(Less, st.source[i..i + 2], st.line), st.(current := i + 2))
  {
    AngleTakesNext(st);
  }

  /** Unfolding `TokensFrom` at a token that is not Eof. */
  lemma {:induction false} TokensFromScanned(sc: Scanner, t: Token, next: Scanner)
    requires Valid(sc) && ScanToken(sc) == Scanned(t, next) && t.tokenType != Eof
    ensures Valid(next)
    ensures TokensFrom(sc) == ([t] + TokensFrom(next).0, TokensFrom(next).1)
  {
  }

  /** The run of digits from `i` ends at `j`. */
  lemma {:induction false} DigitRunEndAt(source: string, i: nat, j: nat)
    requires i <= j <= |source|
    requires forall k :: i <= k < j ==> IsAsciiDigit(source[k])
    requires j == |source| || !IsAsciiDigit(source[j])
    ensures DigitRunEnd(source, i) == j
    decreases j - i
  {
    if i < j {
      DigitRunEndAt(source, i + 1, j);
    }
  }

  /** The run of letters and underscores from `i` ends at `j`. */
  lemma {:induction false} IdentRunEndAt(source: string, i: nat, j: nat)
    requires i <= j <= |source|
    requires forall k :: i <= k < j ==> IsIdentChar(source[k])
    requires j == |source| || !IsIdentChar(source[j])
    ensures IdentRunEnd(source, i) == j
    decreases j - i
  {
    if i < j {
      IdentRunEndAt(source, i + 1, j);
    }
  }

  /** A word from the token start to `j`. */
  lemma {:induction false} WordAt(st: Scanner, j: nat)
    requires AtTokenStart(st) && st.current < j <= |st.source|
    requires IsAsciiAlphabetic(st.source[st.current])
    requires forall k :: st.current < k < j ==> IsIdentChar(st.source[k])
    requires j == |st.source| || !IsIdentChar(st.source[j])
    ensures var next := st.(current := j);
      ScanAt(st) == Scanned(Token(KeywordOr(st.source[st.current..j]), st.source[st.current..j], st.line), next)
  {
    IdentifierToken(st);
    IdentRunEndAt(st.source, st.current + 1, j);
  }

  /** A whole number from the token start to `j`. */
  lemma {:induction false} IntegerAt(st: Scanner, j: nat)
    requires AtTokenStart(st) && st.current < j <= |st.source|
    requires forall k :: st.current <= k < j ==> IsAsciiDigit(st.source[k])
    requires j == |st.source| || (!IsAsciiDigit(st.source[j]) && st.source[j] != '.')
    ensures var next := st.(current := j);
      ScanAt(st) == Scanned(Token(Number, st.source[st.current..j], st.line), next)
  {
    NumberToken(st);
    DigitRunEndAt(st.source, st.current + 1, j);
  }

  /** A one-character token at the token start. */
  lemma {:induction false} SingleAt(st: Scanner)
    requires AtTokenStart(st) && st.current < |st.source|
    requires SingleCharType(st.source[st.current]).Some?
    ensures var next := st.(current := st.current + 1);
      ScanAt(st) == Scanned(Token(SingleCharType(st.source[st.current]).value, [st.source[st.current]], st.line), next)
  {
    SingleCharToken(st);
  }

  /** The end of the input. */
  lemma {:induction false} EofAt(st: Scanner)
    requires AtTokenStart(st) && st.current == |st.source|
    ensures ScanAt(st) == Scanned(Token(Eof, "", st.line), st)
  {
  }

  /** One `scan_token` call: `sc` scans to `t` and leaves `next`. */
  predicate StepsTo(sc: Scanner, t: Token, next: Scanner) {
    Valid(sc) && ScanToken(sc) == Scanned(t, next)
  }

  /** From index `k` on, each scanner in `states` scans to the matching token
      and the next scanner. */
  predicate ScansFrom(states: seq<Scanner>, tokens: seq<Token>, k: nat)
    decreases |tokens| - k
  {
    k >= |tokens| || (k + 1 < |states| && StepsTo(states[k], tokens[k], states[k + 1]) && ScansFrom(states, tokens, k + 1))
  }

  /** A chain of `scan_token` calls that ends at its only Eof is what
      `TokensFrom` collects. */
  lemma {:induction false} TokensOfScans(states: seq<Scanner>, tokens: seq<Token>, k: nat)
    requires |states| == |tokens| + 1 && k < |tokens| && ScansFrom(states, tokens, k)
    requires tokens[|tokens| - 1].tokenType == Eof
    requires forall j :: k <= j < |tokens| - 1 ==> tokens[j].tokenType != Eof
    ensures Valid(states[k])
    ensures TokensFrom(states[k]) == (tokens[k..], false)
    decreases |tokens| - k
  {
    assert StepsTo(states[k], tokens[k], states[k + 1]);
    if k == |tokens| - 1 {
      TokensFromEof(states[k], tokens[k], states[k + 1]);
      assert tokens[k..] == [tokens[k]];
    } else {
      TokensOfScans(states, tokens, k + 1);
      TokensFromScanned(states[k], tokens[k], states[k + 1]);
      SuffixCons(tokens, k);
    }
  }

  /** Unfolding `TokensFrom` at Eof. */
  lemma {:induction false} TokensFromEof(sc: Scanner, t: Token, next: Scanner)
    requires Valid(sc) && ScanToken(sc) == Scanned(t, next) && t.tokenType == Eof
    ensures TokensFrom(sc) == ([t], false)
  {
  }

  /** The source of the `print` test. */
  const PrintSource: string := "print(1 + 2 / 86)"

  function PrintAt(start: nat, current: nat): Scanner {
    Scanner(PrintSource, start, current, 1)
  }

  /** The scanner before each `scan_token` call of the `print` test. */
  const PrintStates: seq<Scanner> := [
    PrintAt(0, 0), PrintAt(0, 5), PrintAt(5, 6), PrintAt(6, 7), PrintAt(8, 9),
    PrintAt(10, 11), PrintAt(12, 13), PrintAt(14, 16), PrintAt(16, 17), PrintAt(17, 17)]

  /** The tokens the `print` test expects, with their lexemes. */
  const PrintTokens: seq<Token> := [
    Token(Print, "print", 1), Token(LeftParen, "(", 1), Token(Number, "1", 1),
    Token(Plus, "+", 1), Token(Number, "2", 1), Token(Slash, "/", 1),
    Token(Number, "86", 1), Token(RightParen, ")", 1), Token(Eof, "", 1)]

  // Each `scan_token` call of the test, split in two: skipping to where the
  // token starts, then scanning it.

  lemma {:induction false} PrintStart0()
    ensures Valid(PrintStates[0]) && TokenStart(PrintStates[0]) == PrintAt(0, 0)
  {
    assert PrintStates[0] == PrintAt(0, 0);
    StartsHere(PrintAt(0, 0));
  }

  lemma {:induction false} PrintToken0()
    ensures AtTokenStart(PrintAt(0, 0)) && ScanAt(PrintAt(0, 0)) == Scanned(PrintTokens[0], PrintStates[1])
  {
    assert PrintStates[1] == PrintAt(0, 5);
    assert PrintTokens[0] == Token(Print, "print", 1);
    WordAt(PrintAt(0, 0), 5);
    assert PrintSource[0..5] == "print";
    KeywordPrint();
  }

  lemma {:induction false} PrintStep0()
    ensures StepsTo(PrintStates[0], PrintTokens[0], PrintStates[1])
  {
    PrintStart0();
    PrintToken0();
  }

  lemma {:induction false} PrintStart1()
    ensures Valid(PrintStates[1]) && TokenStart(PrintStates[1]) == PrintAt(5, 5)
  {
    assert PrintStates[1] == PrintAt(0, 5);
    StartsHere(PrintAt(0, 5));
  }

  lemma {:induction false} PrintToken1()
    ensures AtTokenStart(PrintAt(5, 5)) && ScanAt(PrintAt(5, 5)) == Scanned(PrintTokens[1], PrintStates[2])
  {
    assert PrintStates[2] == PrintAt(5, 6);
    assert PrintTokens[1] == Token(LeftParen, "(", 1);
    SingleAt(PrintAt(5, 5));
  }

  lemma {:induction false} PrintStep1()
    ensures StepsTo(PrintStates[1], PrintTokens[1], PrintStates[2])
  {
    PrintStart1();
    PrintToken1();
  }

  lemma {:induction false} PrintStart2()
    ensures Valid(PrintStates[2]) && TokenStart(PrintStates[2]) == PrintAt(6, 6)
  {
    assert PrintStates[2] == PrintAt(5, 6);
    StartsHere(PrintAt(5, 6));
  }

  lemma {:induction false} PrintToken2()
    ensures AtTokenStart(PrintAt(6, 6)) && ScanAt(PrintAt(6, 6)) == Scanned(PrintTokens[2], PrintStates[3])
  {
    assert PrintStates[3] == PrintAt(6, 7);
    assert PrintTokens[2] == Token(Number, "1", 1);
    IntegerAt(PrintAt(6, 6), 7);
    assert PrintSource[6..7] == "1";
  }

  lemma {:induction false} PrintStep2()
    ensures StepsTo(PrintStates[2], PrintTokens[2], PrintStates[3])
  {
    PrintStart2();
    PrintToken2();
  }

  lemma {:induction false} PrintStart3()
    ensures Valid(PrintStates[3]) && TokenStart(PrintStates[3]) == PrintAt(8, 8)
  {
    assert PrintStates[3] == PrintAt(6, 7);
    StartsAfterSpace(PrintAt(6, 7));
  }

  lemma {:induction false} PrintToken3()
    ensures AtTokenStart(PrintAt(8, 8)) && ScanAt(PrintAt(8, 8)) == Scanned(PrintTokens[3], PrintStates[4])
  {
    assert PrintStates[4] == PrintAt(8, 9);
    assert PrintTokens[3] == Token(Plus, "+", 1);
    SingleAt(PrintAt(8, 8));
  }

  lemma {:induction false} PrintStep3()
    ensures StepsTo(PrintStates[3], PrintTokens[3], PrintStates[4])
  {
    PrintStart3();
    PrintToken3();
  }

  lemma {:induction false} PrintStart4()
    ensures Valid(PrintStates[4]) && TokenStart(PrintStates[4]) == PrintAt(10, 10)
  {
    assert PrintStates[4] == PrintAt(8, 9);
    StartsAfterSpace(PrintAt(8, 9));
  }

  lemma {:induction false} PrintToken4()
    ensures AtTokenStart(PrintAt(10, 10)) && ScanAt(PrintAt(10, 10)) == Scanned(PrintTokens[4], PrintStates[5])
  {
    assert PrintStates[5] == PrintAt(10, 11);
    assert PrintTokens[4] == Token(Number, "2", 1);
    IntegerAt(PrintAt(10, 10), 11);
    assert PrintSource[10..11] == "2";
  }

  lemma {:induction false} PrintStep4()
    ensures StepsTo(PrintStates[4], PrintTokens[4], PrintStates[5])
  {
    PrintStart4();
    PrintToken4();
  }

  lemma {:induction false} PrintStart5()
    ensures Valid(PrintStates[5]) && TokenStart(PrintStates[5]) == PrintAt(12, 12)
  {
    assert PrintStates[5] == PrintAt(10, 11);
    StartsAfterSpace(PrintAt(10, 11));
  }

  lemma {:induction false} PrintToken5()
    ensures AtTokenStart(PrintAt(12, 12)) && ScanAt(PrintAt(12, 12)) == Scanned(PrintTokens[5], PrintStates[6])
  {
    assert PrintStates[6] == PrintAt(12, 13);
    assert PrintTokens[5] == Token(Slash, "/", 1);
    SingleAt(PrintAt(12, 12));
  }

  lemma {:induction false} PrintStep5()
    ensures StepsTo(PrintStates[5], PrintTokens[5], PrintStates[6])
  {
    PrintStart5();
    PrintToken5();
  }

  lemma {:induction false} PrintStart6()
    ensures Valid(PrintStates[6]) && TokenStart(PrintStates[6]) == PrintAt(14, 14)
  {
    assert PrintStates[6] == PrintAt(12, 13);
    StartsAfterSpace(PrintAt(12, 13));
  }

  lemma {:induction false} PrintToken6()
    ensures AtTokenStart(PrintAt(14, 14)) && ScanAt(PrintAt(14, 14)) == Scanned(PrintTokens[6], PrintStates[7])
  {
    assert PrintStates[7] == PrintAt(14, 16);
    assert PrintTokens[6] == Token(Number, "86", 1);
    IntegerAt(PrintAt(14, 14), 16);
    assert PrintSource[14..16] == "86";
  }

  lemma {:induction false} PrintStep6()
    ensures StepsTo(PrintStates[6], PrintTokens[6], PrintStates[7])
  {
    PrintStart6();
    PrintToken6();
  }

  lemma {:induction false} PrintStart7()
    ensures Valid(PrintStates[7]) && TokenStart(PrintStates[7]) == PrintAt(16, 16)
  {
    assert PrintStates[7] == PrintAt(14, 16);
    StartsHere(PrintAt(14, 16));
  }

  lemma {:induction false} PrintToken7()
    ensures AtTokenStart(PrintAt(16, 16)) && ScanAt(PrintAt(16, 16)) == Scanned(PrintTokens[7], PrintStates[8])
  {
    assert PrintStates[8] == PrintAt(16, 17);
    assert PrintTokens[7] == Token(RightParen, ")", 1);
    SingleAt(PrintAt(16, 16));
  }

  lemma {:induction false} PrintStep7()
    ensures StepsTo(PrintStates[7], PrintTokens[7], PrintStates[8])
  {
    PrintStart7();
    PrintToken7();
  }

  lemma {:induction false} PrintStart8()
    ensures Valid(PrintStates[8]) && TokenStart(PrintStates[8]) == PrintAt(17, 17)
  {
    assert PrintStates[8] == PrintAt(16, 17);
    StartsHere(PrintAt(16, 17));
  }

  lemma {:induction false} PrintToken8()
    ensures AtTokenStart(PrintAt(17, 17)) && ScanAt(PrintAt(17, 17)) == Scanned(PrintTokens[8], PrintStates[9])
  {
    assert PrintStates[9] == PrintAt(17, 17);
    assert PrintTokens[8] == Token(Eof, "", 1);
    EofAt(PrintAt(17, 17));
  }

  lemma {:induction false} PrintStep8()
    ensures StepsTo(PrintStates[8], PrintTokens[8], PrintStates[9])
  {
    PrintStart8();
    PrintToken8();
  }

  lemma {:induction false} PrintScans()
    ensures ScansFrom(PrintStates, PrintTokens, 0)
  {
    PrintStep8();
    assert ScansFrom(PrintStates, PrintTokens, 8);
    PrintStep7();
    assert ScansFrom(PrintStates, PrintTokens, 7);
    PrintStep6();
    assert ScansFrom(PrintStates, PrintTokens, 6);
    PrintStep5();
    assert ScansFrom(PrintStates, PrintTokens, 5);
    PrintStep4();
    assert ScansFrom(PrintStates, PrintTokens, 4);
    PrintStep3();
    assert ScansFrom(PrintStates, PrintTokens, 3);
    PrintStep2();
    assert ScansFrom(PrintStates, PrintTokens, 2);
    PrintStep1();
    assert ScansFrom(PrintStates, PrintTokens, 1);
    PrintStep0();
    assert ScansFrom(PrintStates, PrintTokens, 0);
  }

  /** A chain of `scan_token` calls from a fresh scanner that ends at its
      only Eof is everything `main` prints. */
  lemma {:induction false} WholeScan(source: string, states: seq<Scanner>, tokens: seq<Token>)
    requires |states| == |tokens| + 1 && |tokens| > 0 && states[0] == NewScanner(source)
    requires ScansFrom(states, tokens, 0)
    requires tokens[|tokens| - 1].tokenType == Eof
    requires forall j :: 0 <= j < |tokens| - 1 ==> tokens[j].tokenType != Eof
    ensures TokensFrom(NewScanner(source)) == (tokens, false)
  {
    TokensOfScans(states, tokens, 0);
    SuffixZero(tokens);
  }

  /** The `print` test: `print(1 + 2 / 86)` scans to these tokens and Eof. */
  lemma {:induction false} PrintExpression()
    ensures TokensFrom(NewScanner(PrintSource)) == (PrintTokens, false)
  {
    PrintScans();
    PrintEofLast();
    WholeScan(PrintSource, PrintStates, PrintTokens);
  }

  /** Only the last token of the `print` test is Eof. */
  lemma {:induction false} PrintEofLast()
    ensures |PrintStates| == |PrintTokens| + 1 == 10
    ensures PrintTokens[8].tokenType == Eof
    ensures forall j :: 0 <= j < 8 ==> PrintTokens[j].tokenType != Eof
  {
  }

  /** The source of the `for` loop test. */
  const ForSource: string :=
    "for (var i " + ("= 0; i < 10; " + ("i = i + 1) {" + ("\n\tprint(i)" + "\n}")))

  function ForAt(start: nat, current: nat, line: nat): Scanner {
    Scanner(ForSource, start, current, line)
  }

  /** The scanner before each `scan_token` call of the `for` loop test. */
  const ForStates: seq<Scanner> :=
    [ForAt(0, 0, 1), ForAt(0, 3, 1), ForAt(4, 5, 1), ForAt(5, 8, 1), ForAt(9, 10, 1)] +
    ([ForAt(11, 12, 1), ForAt(13, 14, 1), ForAt(14, 15, 1), ForAt(16, 17, 1), ForAt(18, 20, 1)] +
    ([ForAt(20, 22, 1), ForAt(22, 23, 1), ForAt(24, 25, 1), ForAt(26, 27, 1), ForAt(28, 29, 1)] +
    ([ForAt(30, 31, 1), ForAt(32, 33, 1), ForAt(33, 34, 1), ForAt(35, 36, 1), ForAt(38, 43, 2)] +
    [ForAt(43, 44, 2), ForAt(44, 45, 2), ForAt(45, 46, 2), ForAt(47, 48, 3), ForAt(48, 48, 3)])))

  /** The tokens the `for` loop test expects, with their lexemes and lines. */
  const ForTokens: seq<Token> :=
    [Token(For, "for", 1), Token(LeftParen, "(", 1), Token(Var, "var", 1)] +
    ([Token(Identifier, "i", 1), Token(Equal, "=", 1), Token(Number, "0", 1)] +
    ([Token(Semicolon, ";", 1), Token(Identifier, "i", 1), Token(Less, "< ", 1)] +
    ([Token(Number, "10", 1), Token(Semicolon, ";", 1), Token(Identifier, "i", 1)] +
    ([Token(Equal, "=", 1), Token(Identifier, "i", 1), Token(Plus, "+", 1)] +
    ([Token(Number, "1", 1), Token(RightParen, ")", 1), Token(LeftBrace, "{", 1)] +
    ([Token(Print, "print", 2), Token(LeftParen, "(", 2), Token(Identifier, "i", 2)] +
    [Token(RightParen, ")", 2), Token(RightBrace, "}", 3), Token(Eof, "", 3)]))))))

  // Each `scan_token` call of the test, split in two: skipping to where the
  // token starts, then reading the token there.

  lemma {:induction false} ForStart0()
    ensures Valid(ForStates[0]) && TokenStart(ForStates[0]) == ForAt(0, 0, 1)
  {
    assert ForStates[0] == ForAt(0, 0, 1);
    StartsHere(ForAt(0, 0, 1));
  }

  lemma {:induction false} ForToken0()
    ensures AtTokenStart(ForAt(0, 0, 1)) && ScanAt(ForAt(0, 0, 1)) == Scanned(ForTokens[0], ForStates[1])
  {
    assert ForStates[1] == ForAt(0, 3, 1);
    assert ForTokens[0] == Token(For, "for", 1);
    WordAt(ForAt(0, 0, 1), 3);
    assert ForSource[0..3] == "for";
    KeywordFor();
  }

  lemma {:induction false} ForStep0()
    ensures StepsTo(ForStates[0], ForTokens[0], ForStates[1])
  {
    ForStart0();
    ForToken0();
  }

  lemma {:induction false} ForStart1()
    ensures Valid(ForStates[1]) && TokenStart(ForStates[1]) == ForAt(4, 4, 1)
  {
    assert ForStates[1] == ForAt(0, 3, 1);
    StartsAfterSpace(ForAt(0, 3, 1));
  }

  lemma {:induction false} ForToken1()
    ensures AtTokenStart(ForAt(4, 4, 1)) && ScanAt(ForAt(4, 4, 1)) == Scanned(ForTokens[1], ForStates[2])
  {
    assert ForStates[2] == ForAt(4, 5, 1);
    assert ForTokens[1] == Token(LeftParen, "(", 1);
    SingleAt(ForAt(4, 4, 1));
  }

  lemma {:induction false} ForStep1()
    ensures StepsTo(ForStates[1], ForTokens[1], ForStates[2])
  {
    ForStart1();
    ForToken1();
  }

  lemma {:induction false} ForStart2()
    ensures Valid(ForStates[2]) && TokenStart(ForStates[2]) == ForAt(5, 5, 1)
  {
    assert ForStates[2] == ForAt(4, 5, 1);
    StartsHere(ForAt(4, 5, 1));
  }

  lemma {:induction false} ForToken2()
    ensures AtTokenStart(ForAt(5, 5, 1)) && ScanAt(ForAt(5, 5, 1)) == Scanned(ForTokens[2], ForStates[3])
  {
    assert ForStates[3] == ForAt(5, 8, 1);
    assert ForTokens[2] == Token(Var, "var", 1);
    WordAt(ForAt(5, 5, 1), 8);
    assert ForSource[5..8] == "var";
    KeywordVar();
  }

  lemma {:induction false} ForStep2()
    ensures StepsTo(ForStates[2], ForTokens[2], ForStates[3])
  {
    ForStart2();
    ForToken2();
  }

  lemma {:induction false} ForStart3()
    ensures Valid(ForStates[3]) && TokenStart(ForStates[3]) == ForAt(9, 9, 1)
  {
    assert ForStates[3] == ForAt(5, 8, 1);
    StartsAfterSpace(ForAt(5, 8, 1));
  }

  lemma {:induction false} ForToken3()
    ensures AtTokenStart(ForAt(9, 9, 1)) && ScanAt(ForAt(9, 9, 1)) == Scanned(ForTokens[3], ForStates[4])
  {
    assert ForStates[4] == ForAt(9, 10, 1);
    assert ForTokens[3] == Token(Identifier, "i", 1);
    WordAt(ForAt(9, 9, 1), 10);
    assert ForSource[9..10] == "i";
    NotKeywordI();
  }

  lemma {:induction false} ForStep3()
    ensures StepsTo(ForStates[3], ForTokens[3], ForStates[4])
  {
    ForStart3();
    ForToken3();
  }

  lemma {:induction false} ForStart4()
    ensures Valid(ForStates[4]) && TokenStart(ForStates[4]) == ForAt(11, 11, 1)
  {
    assert ForStates[4] == ForAt(9, 10, 1);
    StartsAfterSpace(ForAt(9, 10, 1));
  }

  lemma {:induction false} ForToken4()
    ensures AtTokenStart(ForAt(11, 11, 1)) && ScanAt(ForAt(11, 11, 1)) == Scanned(ForTokens[4], ForStates[5])
  {
    assert ForStates[5] == ForAt(11, 12, 1);
    assert ForTokens[4] == Token(Equal, "=", 1);
    EqualAt(ForAt(11, 11, 1));
  }

  lemma {:induction false} ForStep4()
    ensures StepsTo(ForStates[4], ForTokens[4], ForStates[5])
  {
    ForStart4();
    ForToken4();
  }

  lemma {:induction false} ForStart5()
    ensures Valid(ForStates[5]) && TokenStart(ForStates[5]) == ForAt(13, 13, 1)
  {
    assert ForStates[5] == ForAt(11, 12, 1);
    StartsAfterSpace(ForAt(11, 12, 1));
  }

  lemma {:induction false} ForToken5()
    ensures AtTokenStart(ForAt(13, 13, 1)) && ScanAt(ForAt(13, 13, 1)) == Scanned(ForTokens[5], ForStates[6])
  {
    assert ForStates[6] == ForAt(13, 14, 1);
    assert ForTokens[5] == Token(Number, "0", 1);
    IntegerAt(ForAt(13, 13, 1), 14);
    assert ForSource[13..14] == "0";
  }

  lemma {:induction false} ForStep5()
    ensures StepsTo(ForStates[5], ForTokens[5], ForStates[6])
  {
    ForStart5();
    ForToken5();
  }

  lemma {:induction false} ForStart6()
    ensures Valid(ForStates[6]) && TokenStart(ForStates[6]) == ForAt(14, 14, 1)
  {
    assert ForStates[6] == ForAt(13, 14, 1);
    StartsHere(ForAt(13, 14, 1));
  }

  lemma {:induction false} ForToken6()
    ensures AtTokenStart(ForAt(14, 14, 1)) && ScanAt(ForAt(14, 14, 1)) == Scanned(ForTokens[6], ForStates[7])
  {
    assert ForStates[7] == ForAt(14, 15, 1);
    assert ForTokens[6] == Token(Semicolon, ";", 1);
    SingleAt(ForAt(14, 14, 1));
  }

  lemma {:induction false} ForStep6()
    ensures StepsTo(ForStates[6], ForTokens[6], ForStates[7])
  {
    ForStart6();
    ForToken6();
  }

  lemma {:induction false} ForStart7()
    ensures Valid(ForStates[7]) && TokenStart(ForStates[7]) == ForAt(16, 16, 1)
  {
    assert ForStates[7] == ForAt(14, 15, 1);
    StartsAfterSpace(ForAt(14, 15, 1));
  }

  lemma {:induction false} ForToken7()
    ensures AtTokenStart(ForAt(16, 16, 1)) && ScanAt(ForAt(16, 16, 1)) == Scanned(ForTokens[7], ForStates[8])
  {
    assert ForStates[8] == ForAt(16, 17, 1);
    assert ForTokens[7] == Token(Identifier, "i", 1);
    WordAt(ForAt(16, 16, 1), 17);
    assert ForSource[16..17] == "i";
    NotKeywordI();
  }

  lemma {:induction false} ForStep7()
    ensures StepsTo(ForStates[7], ForTokens[7], ForStates[8])
  {
    ForStart7();
    ForToken7();
  }

  lemma {:induction false} ForStart8()
    ensures Valid(ForStates[8]) && TokenStart(ForStates[8]) == ForAt(18, 18, 1)
  {
    assert ForStates[8] == ForAt(16, 17, 1);
    StartsAfterSpace(ForAt(16, 17, 1));
  }

  lemma {:induction false} ForToken8()
    ensures AtTokenStart(ForAt(18, 18, 1)) && ScanAt(ForAt(18, 18, 1)) == Scanned(ForTokens[8], ForStates[9])
  {
    assert ForStates[9] == ForAt(18, 20, 1);
    assert ForTokens[8] == Token(Less, "< ", 1);
    LessAt(ForAt(18, 18, 1));
    assert ForSource[18..20] == "< ";
  }

  lemma {:induction false} ForStep8()
    ensures StepsTo(ForStates[8], ForTokens[8], ForStates[9])
  {
    ForStart8();
    ForToken8();
  }

  lemma {:induction false} ForStart9()
    ensures Valid(ForStates[9]) && TokenStart(ForStates[9]) == ForAt(20, 20, 1)
  {
    assert ForStates[9] == ForAt(18, 20, 1);
    StartsHere(ForAt(18, 20, 1));
  }

  lemma {:induction false} ForToken9()
    ensures AtTokenStart(ForAt(20, 20, 1)) && ScanAt(ForAt(20, 20, 1)) == Scanned(ForTokens[9], ForStates[10])
  {
    assert ForStates[10] == ForAt(20, 22, 1);
    assert ForTokens[9] == Token(Number, "10", 1);
    IntegerAt(ForAt(20, 20, 1), 22);
    assert ForSource[20..22] == "10";
  }

  lemma {:induction false} ForStep9()
    ensures StepsTo(ForStates[9], ForTokens[9], ForStates[10])
  {
    ForStart9();
    ForToken9();
  }

  lemma {:induction false} ForStart10()
    ensures Valid(ForStates[10]) && TokenStart(ForStates[10]) == ForAt(22, 22, 1)
  {
    assert ForStates[10] == ForAt(20, 22, 1);
    StartsHere(ForAt(20, 22, 1));
  }

  lemma {:induction false} ForToken10()
    ensures AtTokenStart(ForAt(22, 22, 1)) && ScanAt(ForAt(22, 22, 1)) == Scanned(ForTokens[10], ForStates[11])
  {
    assert ForStates[11] == ForAt(22, 23, 1);
    assert ForTokens[10] == Token(Semicolon, ";", 1);
    SingleAt(ForAt(22, 22, 1));
  }

  lemma {:induction false} ForStep10()
    ensures StepsTo(ForStates[10], ForTokens[10], ForStates[11])
  {
    ForStart10();
    ForToken10();
  }

  lemma {:induction false} ForStart11()
    ensures Valid(ForStates[11]) && TokenStart(ForStates[11]) == ForAt(24, 24, 1)
  {
    assert ForStates[11] == ForAt(22, 23, 1);
    StartsAfterSpace(ForAt(22, 23, 1));
  }

  lemma {:induction false} ForToken11()
    ensures AtTokenStart(ForAt(24, 24, 1)) && ScanAt(ForAt(24, 24, 1)) == Scanned(ForTokens[11], ForStates[12])
  {
    assert ForStates[12] == ForAt(24, 25, 1);
    assert ForTokens[11] == Token(Identifier, "i", 1);
    WordAt(ForAt(24, 24, 1), 25);
    assert ForSource[24..25] == "i";
    NotKeywordI();
  }

  lemma {:induction false} ForStep11()
    ensures StepsTo(ForStates[11], ForTokens[11], ForStates[12])
  {
    ForStart11();
    ForToken11();
  }

  lemma {:induction false} ForStart12()
    ensures Valid(ForStates[12]) && TokenStart(ForStates[12]) == ForAt(26, 26, 1)
  {
    assert ForStates[12] == ForAt(24, 25, 1);
    StartsAfterSpace(ForAt(24, 25, 1));
  }

  lemma {:induction false} ForToken12()
    ensures AtTokenStart(ForAt(26, 26, 1)) && ScanAt(ForAt(26, 26, 1)) == Scanned(ForTokens[12], ForStates[13])
  {
    assert ForStates[13] == ForAt(26, 27, 1);
    assert ForTokens[12] == Token(Equal, "=", 1);
    EqualAt(ForAt(26, 26, 1));
  }

  lemma {:induction false} ForStep12()
    ensures StepsTo(ForStates[12], ForTokens[12], ForStates[13])
  {
    ForStart12();
    ForToken12();
  }

  lemma {:induction false} ForStart13()
    ensures Valid(ForStates[13]) && TokenStart(ForStates[13]) == ForAt(28, 28, 1)
  {
    assert ForStates[13] == ForAt(26, 27, 1);
    StartsAfterSpace(ForAt(26, 27, 1));
  }

  lemma {:induction false} ForToken13()
    ensures AtTokenStart(ForAt(28, 28, 1)) && ScanAt(ForAt(28, 28, 1)) == Scanned(ForTokens[13], ForStates[14])
  {
    assert ForStates[14] == ForAt(28, 29, 1);
    assert ForTokens[13] == Token(Identifier, "i", 1);
    WordAt(ForAt(28, 28, 1), 29);
    assert ForSource[28..29] == "i";
    NotKeywordI();
  }

  lemma {:induction false} ForStep13()
    ensures StepsTo(ForStates[13], ForTokens[13], ForStates[14])
  {
    ForStart13();
    ForToken13();
  }

  lemma {:induction false} ForStart14()
    ensures Valid(ForStates[14]) && TokenStart(ForStates[14]) == ForAt(30, 30, 1)
  {
    assert ForStates[14] == ForAt(28, 29, 1);
    StartsAfterSpace(ForAt(28, 29, 1));
  }

  lemma {:induction false} ForToken14()
    ensures AtTokenStart(ForAt(30, 30, 1)) && ScanAt(ForAt(30, 30, 1)) == Scanned(ForTokens[14], ForStates[15])
  {
    assert ForStates[15] == ForAt(30, 31, 1);
    assert ForTokens[14] == Token(Plus, "+", 1);
    SingleAt(ForAt(30, 30, 1));
  }

  lemma {:induction false} ForStep14()
    ensures StepsTo(ForStates[14], ForTokens[14], ForStates[15])
  {
    ForStart14();
    ForToken14();
  }

  lemma {:induction false} ForStart15()
    ensures Valid(ForStates[15]) && TokenStart(ForStates[15]) == ForAt(32, 32, 1)
  {
    assert ForStates[15] == ForAt(30, 31, 1);
    StartsAfterSpace(ForAt(30, 31, 1));
  }

  lemma {:induction false} ForToken15()
    ensures AtTokenStart(ForAt(32, 32, 1)) && ScanAt(ForAt(32, 32, 1)) == Scanned(ForTokens[15], ForStates[16])
  {
    assert ForStates[16] == ForAt(32, 33, 1);
    assert ForTokens[15] == Token(Number, "1", 1);
    IntegerAt(ForAt(32, 32, 1), 33);
    assert ForSource[32..33] == "1";
  }

  lemma {:induction false} ForStep15()
    ensures StepsTo(ForStates[15], ForTokens[15], ForStates[16])
  {
    ForStart15();
    ForToken15();
  }

  lemma {:induction false} ForStart16()
    ensures Valid(ForStates[16]) && TokenStart(ForStates[16]) == ForAt(33, 33, 1)
  {
    assert ForStates[16] == ForAt(32, 33, 1);
    StartsHere(ForAt(32, 33, 1));
  }

  lemma {:induction false} ForToken16()
    ensures AtTokenStart(ForAt(33, 33, 1)) && ScanAt(ForAt(33, 33, 1)) == Scanned(ForTokens[16], ForStates[17])
  {
    assert ForStates[17] == ForAt(33, 34, 1);
    assert ForTokens[16] == Token(RightParen, ")", 1);
    SingleAt(ForAt(33, 33, 1));
  }

  lemma {:induction false} ForStep16()
    ensures StepsTo(ForStates[16], ForTokens[16], ForStates[17])
  {
    ForStart16();
    ForToken16();
  }

  lemma {:induction false} ForStart17()
    ensures Valid(ForStates[17]) && TokenStart(ForStates[17]) == ForAt(35, 35, 1)
  {
    assert ForStates[17] == ForAt(33, 34, 1);
    StartsAfterSpace(ForAt(33, 34, 1));
  }

  lemma {:induction false} ForToken17()
    ensures AtTokenStart(ForAt(35, 35, 1)) && ScanAt(ForAt(35, 35, 1)) == Scanned(ForTokens[17], ForStates[18])
  {
    assert ForStates[18] == ForAt(35, 36, 1);
    assert ForTokens[17] == Token(LeftBrace, "{", 1);
    SingleAt(ForAt(35, 35, 1));
  }

  lemma {:induction false} ForStep17()
    ensures StepsTo(ForStates[17], ForTokens[17], ForStates[18])
  {
    ForStart17();
    ForToken17();
  }

  lemma {:induction false} ForStart18()
    ensures Valid(ForStates[18]) && TokenStart(ForStates[18]) == ForAt(38, 38, 2)
  {
    assert ForStates[18] == ForAt(35, 36, 1);
    assert ForSource[36..38] == "\n\t";
    StartsAfterBlanks(ForAt(35, 36, 1), 38);
  }

  lemma {:induction false} ForToken18()
    ensures AtTokenStart(ForAt(38, 38, 2)) && ScanAt(ForAt(38, 38, 2)) == Scanned(ForTokens[18], ForStates[19])
  {
    assert ForStates[19] == ForAt(38, 43, 2);
    assert ForTokens[18] == Token(Print, "print", 2);
    ForPrintWord();
    WordAt(ForAt(38, 38, 2), 43);
    KeywordPrint();
  }

  /** The word `print` on the second line of the `for` loop test. */
  lemma {:induction false} ForPrintWord()
    ensures ForSource[38..43] == "print" && ForSource[43] == '('
  {
    var tail := "\n\tprint(i)" + "\n}";
    assert ForSource[36..] == tail;
    assert tail[2] == 'p' && tail[3] == 'r' && tail[4] == 'i' && tail[5] == 'n' && tail[6] == 't';
    assert ForSource[38] == 'p' && ForSource[39] == 'r' && ForSource[40] == 'i'
        && ForSource[41] == 'n' && ForSource[42] == 't' && ForSource[43] == '(';
    assert ForSource[38..43] == ['p', 'r', 'i', 'n', 't'];
  }

  lemma {:induction false} ForStep18()
    ensures StepsTo(ForStates[18], ForTokens[18], ForStates[19])
  {
    ForStart18();
    ForToken18();
  }

  lemma {:induction false} ForStart19()
    ensures Valid(ForStates[19]) && TokenStart(ForStates[19]) == ForAt(43, 43, 2)
  {
    assert ForStates[19] == ForAt(38, 43, 2);
    StartsHere(ForAt(38, 43, 2));
  }

  lemma {:induction false} ForToken19()
    ensures AtTokenStart(ForAt(43, 43, 2)) && ScanAt(ForAt(43, 43, 2)) == Scanned(ForTokens[19], ForStates[20])
  {
    assert ForStates[20] == ForAt(43, 44, 2);
    assert ForTokens[19] == Token(LeftParen, "(", 2);
    SingleAt(ForAt(43, 43, 2));
  }

  lemma {:induction false} ForStep19()
    ensures StepsTo(ForStates[19], ForTokens[19], ForStates[20])
  {
    ForStart19();
    ForToken19();
  }

  lemma {:induction false} ForStart20()
    ensures Valid(ForStates[20]) && TokenStart(ForStates[20]) == ForAt(44, 44, 2)
  {
    assert ForStates[20] == ForAt(43, 44, 2);
    StartsHere(ForAt(43, 44, 2));
  }

  lemma {:induction false} ForToken20()
    ensures AtTokenStart(ForAt(44, 44, 2)) && ScanAt(ForAt(44, 44, 2)) == Scanned(ForTokens[20], ForStates[21])
  {
    assert ForStates[21] == ForAt(44, 45, 2);
    assert ForTokens[20] == Token(Identifier, "i", 2);
    WordAt(ForAt(44, 44, 2), 45);
    assert ForSource[44..45] == "i";
    NotKeywordI();
  }

  lemma {:induction false} ForStep20()
    ensures StepsTo(ForStates[20], ForTokens[20], ForStates[21])
  {
    ForStart20();
    ForToken20();
  }

  lemma {:induction false} ForStart21()
    ensures Valid(ForStates[21]) && TokenStart(ForStates[21]) == ForAt(45, 45, 2)
  {
    assert ForStates[21] == ForAt(44, 45, 2);
    StartsHere(ForAt(44, 45, 2));
  }

  lemma {:induction false} ForToken21()
    ensures AtTokenStart(ForAt(45, 45, 2)) && ScanAt(ForAt(45, 45, 2)) == Scanned(ForTokens[21], ForStates[22])
  {
    assert ForStates[22] == ForAt(45, 46, 2);
    assert ForTokens[21] == Token(RightParen, ")", 2);
    SingleAt(ForAt(45, 45, 2));
  }

  lemma {:induction false} ForStep21()
    ensures StepsTo(ForStates[21], ForTokens[21], ForStates[22])
  {
    ForStart21();
    ForToken21();
  }

  lemma {:induction false} ForStart22()
    ensures Valid(ForStates[22]) && TokenStart(ForStates[22]) == ForAt(47, 47, 3)
  {
    assert ForStates[22] == ForAt(45, 46, 2);
    assert ForSource[46..47] == "\n";
    StartsAfterBlanks(ForAt(45, 46, 2), 47);
  }

  lemma {:induction false} ForToken22()
    ensures AtTokenStart(ForAt(47, 47, 3)) && ScanAt(ForAt(47, 47, 3)) == Scanned(ForTokens[22], ForStates[23])
  {
    assert ForStates[23] == ForAt(47, 48, 3);
    assert ForTokens[22] == Token(RightBrace, "}", 3);
    SingleAt(ForAt(47, 47, 3));
  }

  lemma {:induction false} ForStep22()
    ensures StepsTo(ForStates[22], ForTokens[22], ForStates[23])
  {
    ForStart22();
    ForToken22();
  }

  lemma {:induction false} ForStart23()
    ensures Valid(ForStates[23]) && TokenStart(ForStates[23]) == ForAt(48, 48, 3)
  {
    assert ForStates[23] == ForAt(47, 48, 3);
    StartsHere(ForAt(47, 48, 3));
  }

  lemma {:induction false} ForToken23()
    ensures AtTokenStart(ForAt(48, 48, 3)) && ScanAt(ForAt(48, 48, 3)) == Scanned(ForTokens[23], ForStates[24])
  {
    assert ForStates[24] == ForAt(48, 48, 3);
    assert ForTokens[23] == Token(Eof, "", 3);
    EofAt(ForAt(48, 48, 3));
  }

  lemma {:induction false} ForStep23()
    ensures StepsTo(ForStates[23], ForTokens[23], ForStates[24])
  {
    ForStart23();
    ForToken23();
  }

  lemma {:induction false} ForScansFrom20()
    ensures ScansFrom(ForStates, ForTokens, 20)
  {
    ForStep23();
    assert ScansFrom(ForStates, ForTokens, 23);
    ForStep22();
    assert ScansFrom(ForStates, ForTokens, 22);
    ForStep21();
    assert ScansFrom(ForStates, ForTokens, 21);
    ForStep20();
    assert ScansFrom(ForStates, ForTokens, 20);
  }

  lemma {:induction false} ForScansFrom16()
    ensures ScansFrom(ForStates, ForTokens, 16)
  {
    ForScansFrom20();
    ForStep19();
    assert ScansFrom(ForStates, ForTokens, 19);
    ForStep18();
    assert ScansFrom(ForStates, ForTokens, 18);
    ForStep17();
    assert ScansFrom(ForStates, ForTokens, 17);
    ForStep16();
    assert ScansFrom(ForStates, ForTokens, 16);
  }

  lemma {:induction false} ForScansFrom12()
    ensures ScansFrom(ForStates, ForTokens, 12)
  {
    ForScansFrom16();
    ForStep15();
    assert ScansFrom(ForStates, ForTokens, 15);
    ForStep14();
    assert ScansFrom(ForStates, ForTokens, 14);
    ForStep13();
    assert ScansFrom(ForStates, ForTokens, 13);
    ForStep12();
    assert ScansFrom(ForStates, ForTokens, 12);
  }

  lemma {:induction false} ForScansFrom8()
    ensures ScansFrom(ForStates, ForTokens, 8)
  {
    ForScansFrom12();
    ForStep11();
    assert ScansFrom(ForStates, ForTokens, 11);
    ForStep10();
    assert ScansFrom(ForStates, ForTokens, 10);
    ForStep9();
    assert ScansFrom(ForStates, ForTokens, 9);
    ForStep8();
    assert ScansFrom(ForStates, ForTokens, 8);
  }

  lemma {:induction false} ForScansFrom4()
    ensures ScansFrom(ForStates, ForTokens, 4)
  {
    ForScansFrom8();
    ForStep7();
    assert ScansFrom(ForStates, ForTokens, 7);
    ForStep6();
    assert ScansFrom(ForStates, ForTokens, 6);
    ForStep5();
    assert ScansFrom(ForStates, ForTokens, 5);
    ForStep4();
    assert ScansFrom(ForStates, ForTokens, 4);
  }

  lemma {:induction false} ForScansFrom0()
    ensures ScansFrom(ForStates, ForTokens, 0)
  {
    ForScansFrom4();
    ForStep3();
    assert ScansFrom(ForStates, ForTokens, 3);
    ForStep2();
    assert ScansFrom(ForStates, ForTokens, 2);
    ForStep1();
    assert ScansFrom(ForStates, ForTokens, 1);
    ForStep0();
    assert ScansFrom(ForStates, ForTokens, 0);
  }

  /** The `for` loop test: the tokens of a three-line `for` loop, ending in
      Eof on the third line. */
  lemma {:induction false} ForLoop()
    ensures TokensFrom(NewScanner(ForSource)) == (ForTokens, false)
  {
    ForScansFrom0();
    ForEofLast();
    WholeScan(ForSource, ForStates, ForTokens);
  }

  /** Only the last token of the `for` loop test is Eof. */
  lemma {:induction false} ForEofLast()
    ensures |ForStates| == |ForTokens| + 1 == 25
    ensures ForTokens[23].tokenType == Eof
    ensures forall j :: 0 <= j < 23 ==> ForTokens[j].tokenType != Eof
  {
  }

  lemma {:induction false} KeywordPrint() ensures KeywordOr("print") == Print {}
  lemma {:induction false} KeywordFor() ensures KeywordOr("for") == For {}
  lemma {:induction false} KeywordVar() ensures KeywordOr("var") == Var {}
  lemma {:induction false} NotKeywordI() ensures KeywordOr("i") == Identifier {}
}

=== FILE: sed.dfy ===
/** The `sed` crate: parse an `s|old|new|flag` pattern and rewrite every line
    of a text, replacing the first occurrence of `old` in each line, or every
    occurrence when the flag is "g". Reading and writing the file are not
    modelled; the content is a parameter and the edited text the result.
 */
module Sed {
  import opened Base
  import opened Text
  import opened Seqs

  datatype Sed = Sed(oldString: string, newString: string, flag: string, file: string)

  const PatternError: string :=
    "Pattern should have pipes '|' characters as a splitters and should have 4 parts, (s, oldstring, newstring, flag)"

  const ArgsError: string :=
    "You have to pass at least three arguments. <cargo run> <pattern> <file> [optional_output_file]"

  /** `Sed::new`: split the pattern at every '|'; exactly four pieces are
      accepted, and the first (normally "s") is ignored. */
  function NewSed(pattern: string, file: string): (r: Result<Sed, string>)
    ensures r.Ok? <==> CountChar(pattern, '|') == 3
    ensures r.Err? ==> r.error == PatternError
    ensures r.Ok? ==>
      && r.value.file == file
      && '|' !in r.value.oldString && '|' !in r.value.newString && '|' !in r.value.flag
      && exists head :: '|' !in head &&
           pattern == head + "|" + r.value.oldString + "|" + r.value.newString + "|" + r.value.flag
  {
    var parts := Split(pattern, '|');
    if |parts| == 4 then
      JoinFour(parts[0], parts[1], parts[2], parts[3], "|");
      assert parts == [parts[0], parts[1], parts[2], parts[3]];
      Ok(Sed(parts[1], parts[2], parts[3], file))
    else Err(PatternError)
  }

  /** A pattern written from four pipe-free fields parses back into them. */
  lemma {:induction false} NewSedOfFields(head: string, target: string, replacement: string, flag: string, file: string)
    requires '|' !in head && '|' !in target && '|' !in replacement && '|' !in flag
    ensures NewSed(head + "|" + target + "|" + replacement + "|" + flag, file) == Ok(Sed(target, replacement, flag, file))
  {
    var parts := [head, target, replacement, flag];
    SplitJoin(parts, '|');
    JoinFour(head, target, replacement, flag, "|");
  }

  /** `distribute_args`: the pattern and the file name follow the program name. */
  function DistributeArgs(args: seq<string>): (r: Result<(string, string), string>)
    ensures r.Ok? <==> |args| > 2
    ensures r.Ok? ==> r.value == (args[1], args[2])
    ensures r.Err? ==> r.error == ArgsError
  {
    if |args| > 2 then Ok((args[1], args[2])) else Err(ArgsError)
  }

  /** Rust's `str::replace` with an empty pattern: `to` before every character
      and at the end. */
  function InsertEverywhere(s: string, to: string): (r: string)
    ensures |r| == |s| + (|s| + 1) * |to|
    decreases |s|
  {
    if |s| == 0 then to else to + [s[0]] + InsertEverywhere(s[1..], to)
  }

  /** Rust's `str::replace`: walk the occurrences `str::find` would return,
      left to right, replacing each and resuming right after it, so replaced
      occurrences never overlap. */
  function ReplaceAll(s: string, from: string, to: string): (r: string)
    ensures |from| > 0 && !Contains(s, from) ==> r == s
    ensures |from| > 0 && FindFirst(s, from).Some? ==> var i := FindFirst(s, from).value;
      i + |to| <= |r| && r[..i] == s[..i] && r[i..i + |to|] == to
    decreases |s|, 1
  {
    if |from| == 0 then InsertEverywhere(s, to)
    else
      match FindFirst(s, from)
      case None => s
      case Some(i) => ReplacedAt(s, from, to, i)
  }

  /** The text before the occurrence of `from` at `i`, then `to`, then the
      rest of the text with every occurrence replaced. */
  function ReplacedAt(s: string, from: string, to: string, i: nat): (r: string)
    requires 0 < |from| && OccursAt(s, from, i)
    ensures i + |to| <= |r| && r[..i] == s[..i] && r[i..i + |to|] == to
    decreases |s|, 0
  {
    var r := s[..i] + to + ReplaceAll(s[i + |from|..], from, to);
    assert r[..i] == s[..i] && r[i..i + |to|] == to;
    r
  }

  /** Rust's `str::replacen(from, to, 1)`: only the first occurrence, found as
      `str::find` finds it, is replaced. */
  function ReplaceFirst(s: string, from: string, to: string): (r: string)
    ensures !Contains(s, from) ==> r == s
    ensures Contains(s, from) ==> exists i ::
      && OccursAt(s, from, i)
      && (forall j :: 0 <= j < i ==> !OccursAt(s, from, j))
      && r == s[..i] + to + s[i + |from|..]
  {
    match FindFirst(s, from)
    case None => s
    case Some(i) => s[..i] + to + s[i + |from|..]
  }

  /** Replacing a pattern that occurs nowhere changes nothing. */
  lemma {:induction false} ReplaceAllAbsent(s: string, from: string, to: string)
    requires |from| > 0 && !Contains(s, from)
    ensures ReplaceAll(s, from, to) == s
  {
  }

  /** With a single occurrence, replacing all and replacing the first agree. */
  lemma {:induction false} ReplaceAllOnce(s: string, from: string, to: string, i: nat)
    requires |from| > 0 && OccursAt(s, from, i)
    requires forall j :: OccursAt(s, from, j) ==> j == i
    ensures ReplaceAll(s, from, to) == s[..i] + to + s[i + |from|..]
    ensures ReplaceFirst(s, from, to) == s[..i] + to + s[i + |from|..]
  {
    FindOnly(s, from, i);
    NothingAfterOnly(s, from, i);
    ReplaceAllLast(s, from, to, i);
    ReplaceFirstAt(s, from, to, i);
  }

  /** `replacen(from, to, 1)` replaces the occurrence `str::find` returns. */
  lemma {:induction false} ReplaceFirstAt(s: string, from: string, to: string, i: nat)
    requires FindFirst(s, from) == Some(i)
    ensures ReplaceFirst(s, from, to) == s[..i] + to + s[i + |from|..]
  {
  }

  /** Replacing all when the first occurrence of `from`, at `i`, is also the
      last. */
  lemma {:induction false} ReplaceAllLast(s: string, from: string, to: string, i: nat)
    requires |from| > 0 && FindFirst(s, from) == Some(i)
    requires !Contains(s[i + |from|..], from)
    ensures ReplaceAll(s, from, to) == s[..i] + to + s[i + |from|..]
  {
    ReplaceAllAbsent(s[i + |from|..], from, to);
    ReplaceAllStep(s, from, to, i);
  }

  /** One step of the scan: the first occurrence is replaced and the scan
      resumes right after it. */
  lemma {:induction false} ReplaceAllStep(s: string, from: string, to: string, i: nat)
    requires |from| > 0 && FindFirst(s, from) == Some(i)
    ensures ReplaceAll(s, from, to) == s[..i] + to + ReplaceAll(s[i + |from|..], from, to)
  {
    UnfoldReplaceAll(s, from, to, i);
    UnfoldReplacedAt(s, from, to, i);
  }

  lemma {:induction false} UnfoldReplaceAll(s: string, from: string, to: string, i: nat)
    requires |from| > 0 && FindFirst(s, from) == Some(i)
    ensures ReplaceAll(s, from, to) == ReplacedAt(s, from, to, i)
  {
  }

  lemma {:induction false} UnfoldReplacedAt(s: string, from: string, to: string, i: nat)
    requires |from| > 0 && OccursAt(s, from, i)
    ensures ReplacedAt(s, from, to, i) == s[..i] + to + ReplaceAll(s[i + |from|..], from, to)
  {
  }

  /** Replacing every occurrence of one character is splitting at that
      character and joining the pieces with the replacement: each piece
      between two occurrences is kept, and every occurrence is replaced. */
  lemma {:induction false} ReplaceCharSplitJoin(s: string, c: char, to: string)
    ensures ReplaceAll(s, [c], to) == Join(Split(s, c), to)
    decreases |s|
  {
    match FindFirst(s, [c])
    case None =>
      forall k | 0 <= k < |s| ensures s[k] != c {
        assert !OccursAt(s, [c], k);
        assert s[k..k + 1] == [s[k]];
      }
      SplitAlone(s, c);
    case Some(i) =>
      var before, after := s[..i], s[i + 1..];
      forall k | 0 <= k < |before| ensures before[k] != c {
        assert !OccursAt(s, [c], k);
        assert s[k..k + 1] == [s[k]];
      }
      assert s[i..i + 1] == [c];
      assert s == before + [c] + after;
      SplitCons(before, c, after);
      ReplaceAllStep(s, [c], to, i);
      ReplaceCharSplitJoin(after, c, to);
      JoinCons(before, Split(after, c), to);
  }

  /** Replacing every occurrence of a character by a text without it leaves
      no occurrence, and each occurrence changes the length by the
      replacement's length minus one. */
  lemma {:induction false} ReplaceCharEverywhere(s: string, c: char, to: string)
    requires c !in to
    ensures c !in ReplaceAll(s, [c], to)
    ensures |ReplaceAll(s, [c], to)| == |s| + CountChar(s, c) * (|to| - 1)
  {
    ReplaceCharSplitJoin(s, c, to);
    JoinKeepsOut(Split(s, c), to, c);
    JoinSplitLength(s, c, to);
  }

  /** Replacing every occurrence of a non-empty pattern: cut the text at the
      leftmost non-overlapping occurrences and join the pieces with the
      replacement. Any cut meeting `LeftmostPieces` gives the same result. */
  lemma {:induction false} ReplaceAllByPieces(s: string, from: string, to: string, p: seq<string>)
    requires |from| > 0 && LeftmostPieces(s, from, p)
    ensures ReplaceAll(s, from, to) == Join(p, to)
    decreases |p|
  {
    if |p| == 1 {
      ReplaceAllAbsent(s, from, to);
    } else {
      var rest := p[1..];
      PiecesHead(s, from, p);
      ReplaceAllStep(s, from, to, |p[0]|);
      ReplaceAllByPieces(Join(rest, from), from, to, rest);
      JoinCons(p[0], rest, to);
      assert p == [p[0]] + rest;
    }
  }

  /** The first piece ends at the first occurrence, and the rest of the
      pieces cut the text after it. */
  lemma {:induction false} PiecesHead(s: string, from: string, p: seq<string>)
    requires |from| > 0 && LeftmostPieces(s, from, p) && |p| > 1
    ensures FindFirst(s, from) == Some(|p[0]|)
    ensures s[..|p[0]|] == p[0] && s[|p[0]| + |from|..] == Join(p[1..], from)
    ensures LeftmostPieces(Join(p[1..], from), from, p[1..])
  {
    var rest := p[1..];
    var i := |p[0]|;
    JoinCons(p[0], rest, from);
    assert p == [p[0]] + rest;
    assert s[..i] == p[0] && s[i..i + |from|] == from && s[i + |from|..] == Join(rest, from);
    forall j | 0 <= j < i ensures !OccursAt(s, from, j) {
      assert !OccursAt(p[0] + from, from, j);
      OccursBefore(s, from, i, j);
    }
    FirstAt(s, from, i);
    assert forall k :: 0 <= k < |rest| - 1 ==> rest[k] == p[k + 1];
  }

  /** Replacing every occurrence of a non-empty pattern is `split` then
      `join`, as `s.split(from).collect::<Vec<_>>().join(to)`. */
  lemma {:induction false} ReplaceAllSplitJoin(s: string, from: string, to: string)
    requires |from| > 0
    ensures ReplaceAll(s, from, to) == Join(SplitStr(s, from), to)
  {
    ReplaceAllByPieces(s, from, to, SplitStr(s, from));
  }

  /** On "abab", replacing "ab" by "x" everywhere replaces both occurrences. */
  lemma {:induction false} ReplaceAllTwoPieces()
    ensures ReplaceAll("abab", "ab", "x") == "xx"
  {
    var p := ["", "", ""];
    assert Join(p, "ab") == "abab" && Join(p, "x") == "xx";
    assert NoEarlierMatch("", "ab") && !Contains("", "ab");
    ReplaceAllByPieces("abab", "ab", "x", p);
  }

  /** An occurrence with none before it is the one `str::find` returns. */
  lemma {:induction false} FirstAt(s: string, from: string, i: nat)
    requires OccursAt(s, from, i)
    requires forall j :: 0 <= j < i ==> !OccursAt(s, from, j)
    ensures FindFirst(s, from) == Some(i)
  {
  }

  /** On "aa", replacing "a" everywhere replaces both occurrences. */
  lemma {:induction false} ReplaceAllTwice()
    ensures ReplaceAll("aa", "a", "b") == "bb"
  {
    assert "aa"[1..] == "a";
    assert OccursAt("aa", "a", 0) && OccursAt("a", "a", 0);
    assert ReplaceAll("a", "a", "b") == "b" + ReplaceAll("", "a", "b");
  }

  /** The only occurrence is the first one. */
  lemma {:induction false} FindOnly(s: string, from: string, i: nat)
    requires OccursAt(s, from, i)
    requires forall j :: OccursAt(s, from, j) ==> j == i
    ensures FindFirst(s, from) == Some(i)
  {
  }

  /** Past the only occurrence of `from`, `from` does not occur. */
  lemma {:induction false} NothingAfterOnly(s: string, from: string, i: nat)
    requires |from| > 0 && OccursAt(s, from, i)
    requires forall j :: OccursAt(s, from, j) ==> j == i
    ensures !Contains(s[i + |from|..], from)
  {
    var rest := s[i + |from|..];
    forall j | 0 <= j ensures !OccursAt(rest, from, j) {
      if j + |from| <= |rest| {
        assert s[i + |from| + j..i + |from| + j + |from|] == rest[j..j + |from|];
        assert !OccursAt(s, from, i + |from| + j);
      }
    }
  }

  /** Replacing a pattern by itself, everywhere, changes nothing. */
  lemma {:induction false} ReplaceAllSelf(s: string, from: string)
    ensures ReplaceAll(s, from, from) == s
    decreases |s|
  {
    if |from| == 0 {
      InsertNothing(s);
    } else if FindFirst(s, from).Some? {
      var i := FindFirst(s, from).value;
      ReplaceAllSelf(s[i + |from|..], from);
      assert s[i..i + |from|] == from;
      SplitThree(s, i, i + |from|);
    }
  }

  /** With an empty pattern, character `k` of the line sits right after the
      `k + 1`-th copy of the replacement. */
  lemma {:induction false} InsertEverywhereAt(s: string, to: string, k: nat)
    requires k <= |s|
    ensures var r := InsertEverywhere(s, to); var at := k * (|to| + 1);
      && at + |to| <= |r|
      && r[at..at + |to|] == to
      && (k < |s| ==> r[at + |to|] == s[k])
    decreases k
  {
    var r := InsertEverywhere(s, to);
    if k > 0 {
      var rest := InsertEverywhere(s[1..], to);
      InsertEverywhereAt(s[1..], to, k - 1);
      var at := k * (|to| + 1);
      var at' := (k - 1) * (|to| + 1);
      assert at == at' + |to| + 1;
      assert r == to + [s[0]] + rest;
      assert r[at..at + |to|] == rest[at'..at' + |to|];
    }
  }

  /** Inserting the empty string everywhere changes nothing. */
  lemma {:induction false} InsertNothing(s: string)
    ensures InsertEverywhere(s, "") == s
    decreases |s|
  {
    if |s| > 0 {
      InsertNothing(s[1..]);
      assert [s[0]] + s[1..] == s;
    }
  }

  /** A character found neither in the text nor in the replacement is not
      in the result of replacing every occurrence. */
  lemma {:induction false} ReplaceAllKeepsOut(s: string, from: string, to: string, c: char)
    requires c !in s && c !in to
    ensures c !in ReplaceAll(s, from, to)
    decreases |s|
  {
    if |from| == 0 {
      InsertEverywhereKeepsOut(s, to, c);
    } else if FindFirst(s, from).Some? {
      var i := FindFirst(s, from).value;
      var rest := s[i + |from|..];
      assert forall k :: 0 <= k < |rest| ==> rest[k] == s[i + |from| + k];
      ReplaceAllKeepsOut(rest, from, to, c);
    }
  }

  lemma {:induction false} InsertEverywhereKeepsOut(s: string, to: string, c: char)
    requires c !in s && c !in to
    ensures c !in InsertEverywhere(s, to)
    decreases |s|
  {
    if |s| > 0 {
      InsertEverywhereKeepsOut(s[1..], to, c);
    }
  }

  /** The edit `stream_editor` makes to one line. */
  function EditLine(line: string, sed: Sed): (r: string)
    ensures !Contains(line, sed.oldString) ==> r == line
    ensures Contains(line, sed.oldString) && sed.flag == "g" ==> r == ReplaceAll(line, sed.oldString, sed.newString)
    ensures Contains(line, sed.oldString) && sed.flag != "g" ==> r == ReplaceFirst(line, sed.oldString, sed.newString)
  {
    if Contains(line, sed.oldString) then
      if sed.flag == "g" then ReplaceAll(line, sed.oldString, sed.newString)
      else ReplaceFirst(line, sed.oldString, sed.newString)
    else line
  }

  /** Replacing a pattern by itself leaves a line as it was, whatever the flag. */
  lemma {:induction false} EditLineSelf(line: string, sed: Sed)
    requires sed.newString == sed.oldString
    ensures EditLine(line, sed) == line
  {
    if Contains(line, sed.oldString) {
      ReplaceAllSelf(line, sed.oldString);
      var i := FindFirst(line, sed.oldString).value;
      assert line[..i] + sed.oldString + line[i + |sed.oldString|..] == line by {
        assert line[i..i + |sed.oldString|] == sed.oldString;
        SplitThree(line, i, i + |sed.oldString|);
      }
    }
  }

  /** Every line of `ls`, edited. */
  function EditLines(ls: seq<string>, sed: Sed): (r: seq<string>)
    ensures |r| == |ls|
    ensures forall k :: 0 <= k < |ls| ==> r[k] == EditLine(ls[k], sed)
  {
    seq(|ls|, k requires 0 <= k < |ls| => EditLine(ls[k], sed))
  }

  /** `stream_editor`: edit each line of `content` and join them with "\n".
      Unless the replacement itself holds a '\n', splitting the result at
      '\n' gives back exactly the edited lines, one per input line. */
  function StreamEditor(content: string, sed: Sed): (r: string)
    ensures |content| == 0 ==> r == ""
    ensures |content| > 0 && '\n' !in sed.newString ==>
      Split(r, '\n') == EditLines(Lines(content), sed)
  {
    var edited := EditLines(Lines(content), sed);
    if |content| > 0 && '\n' !in sed.newString then
      EditLinesKeepOut(Lines(content), sed, '\n');
      SplitJoin(edited, '\n');
      Join(edited, "\n")
    else
      Join(edited, "\n")
  }

  /** A character in none of the lines and not in the replacement is in none
      of the edited lines. */
  lemma {:induction false} EditLinesKeepOut(ls: seq<string>, sed: Sed, c: char)
    requires forall k :: 0 <= k < |ls| ==> c !in ls[k]
    requires c !in sed.newString
    ensures forall k :: 0 <= k < |ls| ==> c !in EditLines(ls, sed)[k]
  {
    forall k | 0 <= k < |ls| ensures c !in EditLines(ls, sed)[k] {
      EditLineKeepsOut(ls[k], sed, c);
    }
  }

  /** A character in neither the line nor the replacement is not in the
      edited line. */
  lemma {:induction false} EditLineKeepsOut(line: string, sed: Sed, c: char)
    requires c !in line && c !in sed.newString
    ensures c !in EditLine(line, sed)
  {
    if Contains(line, sed.oldString) {
      if sed.flag == "g" {
        ReplaceAllKeepsOut(line, sed.oldString, sed.newString, c);
      } else {
        var i := FindFirst(line, sed.oldString).value;
        var before, after := line[..i], line[i + |sed.oldString|..];
        assert forall k :: 0 <= k < |before| ==> before[k] == line[k];
        assert forall k :: 0 <= k < |after| ==> after[k] == line[i + |sed.oldString| + k];
      }
    }
  }

  /** When no edit changes a line, the editor only normalises line ends: a text
      without '\r' and without a final '\n' comes back unchanged. */
  lemma {:induction false} StreamEditorUnchanged(content: string, sed: Sed)
    requires '\r' !in content && !EndsWith(content, "\n")
    requires sed.newString == sed.oldString || forall l :: l in Lines(content) ==> !Contains(l, sed.oldString)
    ensures StreamEditor(content, sed) == content
  {
    var ls := Lines(content);
    if sed.newString == sed.oldString {
      EditLinesSelf(ls, sed);
    } else {
      assert EditLines(ls, sed) == ls;
    }
    JoinLines(content);
  }

  /** The lines of "a\r\nb\n": the '\r' and the final '\n' are dropped. */
  lemma {:induction false} LinesOfCrLfText()
    ensures Lines("a\r\nb\n") == ["a", "b"]
  {
    LinesCons("b", "");
    assert "b" + "\n" + "" == "b\n";
    LinesCons("a\r", "b\n");
    assert "a\r" + "\n" + "b\n" == "a\r\nb\n";
    assert StripCR("a\r") == "a";
  }

  /** A final line terminator and "\r\n" line ends do not survive the editor. */
  lemma {:induction false} StreamEditorDropsFinalNewline(sed: Sed)
    requires sed.newString == sed.oldString
    ensures StreamEditor("a\r\nb\n", sed) == "a\nb"
  {
    LinesOfCrLfText();
    EditLinesSelf(["a", "b"], sed);
    JoinCons("a", ["b"], "\n");
    assert ["a"] + ["b"] == ["a", "b"];
    assert "a" + "\n" + "b" == "a\nb";
  }

  /** Replacing a pattern by itself leaves every line as it was. */
  lemma {:induction false} EditLinesSelf(ls: seq<string>, sed: Sed)
    requires sed.newString == sed.oldString
    ensures EditLines(ls, sed) == ls
  {
    forall k | 0 <= k < |ls| ensures EditLine(ls[k], sed) == ls[k] {
      EditLineSelf(ls[k], sed);
    }
  }
}

=== FILE: seqs.dfy ===
/** Order-preserving filtering and the subsequence relation, used wherever the
    source keeps the elements of a list that pass a test (`grep`'s line search,
    the chat server's client retention, the file finders).
 */
module Seqs {

  /** `a` can be obtained from `b` by deleting elements. */
  predicate IsSubsequence<T(==)>(a: seq<T>, b: seq<T>)
    decreases |b|
  {
    if |a| == 0 then true
    else if |b| == 0 then false
    else if a[0] == b[0] then IsSubsequence(a[1..], b[1..])
    else IsSubsequence(a, b[1..])
  }

  lemma {:induction false} SubsequenceDropHead<T>(a: seq<T>, b: seq<T>)
    requires |a| > 0 && IsSubsequence(a, b)
    ensures IsSubsequence(a[1..], b)
    decreases |b|, 1
  {
    if a[0] == b[0] {
      SubsequenceOfTail(a[1..], b);
    } else {
      SubsequenceDropHead(a, b[1..]);
      SubsequenceOfTail(a[1..], b);
    }
  }

  lemma {:induction false} SubsequenceOfTail<T>(a: seq<T>, b: seq<T>)
    requires |b| > 0 && IsSubsequence(a, b[1..])
    ensures IsSubsequence(a, b)
    decreases |b|, 0
  {
    if |a| > 0 && a[0] == b[0] {
      SubsequenceDropHead(a, b[1..]);
    }
  }

  /** Number of elements of `s` that pass `p`. */
  function CountWhere<T>(s: seq<T>, p: T -> bool): nat {
    if |s| == 0 then 0 else (if p(s[0]) then 1 else 0) + CountWhere(s[1..], p)
  }

  /** The elements of `s` that pass `p`, in their original order (Rust's
      `iter().filter(p).collect()`). */
  function Filter<T(==)>(s: seq<T>, p: T -> bool): (r: seq<T>)
    ensures forall k :: 0 <= k < |r| ==> p(r[k])
    ensures forall x :: x in s && p(x) ==> x in r
    ensures forall x :: x in r ==> x in s
    ensures IsSubsequence(r, s)
    ensures |r| == CountWhere(s, p)
    decreases |s|
  {
    if |s| == 0 then []
    else
      var rest := Filter(s[1..], p);
      assert forall x :: x in s ==> x == s[0] || x in s[1..];
      if p(s[0]) then
        var r := [s[0]] + rest;
        assert r[1..] == rest;
        r
      else
        SubsequenceOfTail(rest, s);
        rest
  }

  /** Filtering a sequence with a known first element. */
  lemma {:induction false} FilterCons<T>(x: T, s: seq<T>, p: T -> bool)
    ensures Filter([x] + s, p) == (if p(x) then [x] else []) + Filter(s, p)
  {
    assert ([x] + s)[1..] == s;
  }

  /** Filtering with two tests that agree on every element gives the same result. */
  lemma {:induction false} FilterCongruent<T>(s: seq<T>, p: T -> bool, q: T -> bool)
    requires forall k :: 0 <= k < |s| ==> p(s[k]) == q(s[k])
    ensures Filter(s, p) == Filter(s, q)
    decreases |s|
  {
    if |s| > 0 {
      FilterCongruent(s[1..], p, q);
    }
  }

  /** Filtering with a weaker test keeps at least the same elements, in order. */
  lemma {:induction false} FilterWeaker<T>(s: seq<T>, p: T -> bool, q: T -> bool)
    requires forall k :: 0 <= k < |s| ==> p(s[k]) ==> q(s[k])
    ensures IsSubsequence(Filter(s, p), Filter(s, q))
    decreases |s|
  {
    if |s| > 0 {
      FilterWeaker(s[1..], p, q);
      var a, b := Filter(s[1..], p), Filter(s[1..], q);
      if p(s[0]) {
        assert Filter(s, p) == [s[0]] + a && Filter(s, q) == [s[0]] + b;
        assert ([s[0]] + a)[1..] == a && ([s[0]] + b)[1..] == b;
      } else if q(s[0]) {
        assert Filter(s, q) == [s[0]] + b;
        assert ([s[0]] + b)[1..] == b;
        SubsequenceOfTail(a, [s[0]] + b);
      }
    }
  }

  /** A suffix is its first element followed by the next suffix. */
  lemma {:induction false} SuffixCons<T>(s: seq<T>, k: nat)
    requires k < |s|
    ensures s[k..] == [s[k]] + s[k + 1..]
  {
  }

  lemma {:induction false} SuffixZero<T>(s: seq<T>)
    ensures s[0..] == s
  {
  }

  /** Cutting a sequence in three and putting the pieces back together. */
  lemma {:induction false} SplitThree<T>(s: seq<T>, i: nat, j: nat)
    requires i <= j <= |s|
    ensures s[..i] + s[i..j] + s[j..] == s
  {
  }

  /** A slice of length one. */
  lemma SliceOne<T>(s: seq<T>, i: nat)
    requires i < |s|
    ensures s[i..i + 1] == [s[i]]
  {
  }

  /** A slice of length two. */
  lemma SliceTwo<T>(s: seq<T>, i: nat)
    requires i + 1 < |s|
    ensures s[i..i + 2] == [s[i], s[i + 1]]
  {
  }
}

=== FILE: system_commands.dfy ===
/** Safe execution of system commands: `safe_exec` with its five-second
    timeout (in the tool-using crate, which trims the output, and in the
    system-level-commands crate, which does not), the `list_directory` tool
    with its path filter, and the command alias tables.
 */
module SystemCommands {
  import opened Base
  import opened Text
  import opened Json
  import opened Process

  /** The five-second bound on a command. */
  const TimeoutSeconds: nat := 5

  /** `safe_exec` of the tool-using crate: the trimmed standard output of a
      command that exits with code 0; otherwise an error naming the cause. */
  function SafeExec(command: string, args: seq<string>, run: TimedRunner): (r: Result<string, string>)
    ensures var t := run(command, args);
      && (r.Ok? <==> t.Finished? && ExitedOk(t.outcome))
      && (r.Ok? ==> r.value == Trim(t.outcome.stdout))
      && (t.TimedOut? ==> r == Err("Command timed out"))
      && (t.Finished? && t.outcome.SpawnFailed? ==> r == Err("Execution error: " + t.outcome.error))
      && (t.Finished? && t.outcome.Exited? && !ExitedOk(t.outcome) ==>
            r == Err("Command failed: " + Trim(t.outcome.stderr)))
  {
    match run(command, args)
    case Finished(Exited(code, stdout, stderr)) =>
      if code == Some(0) then Ok(Trim(stdout)) else Err("Command failed: " + Trim(stderr))
    case Finished(SpawnFailed(e)) => Err("Execution error: " + e)
    case TimedOut => Err("Command timed out")
  }

  /** `safe_exec` of the system-level-commands crate: the same decisions, but
      the output is not trimmed and a spawn error reads differently. */
  function SafeExecUntrimmed(command: string, args: seq<string>, run: TimedRunner): (r: Result<string, string>)
    ensures var t := run(command, args);
      && (r.Ok? <==> t.Finished? && ExitedOk(t.outcome))
      && (r.Ok? ==> r.value == t.outcome.stdout)
      && (t.TimedOut? ==> r == Err("Command timed out"))
      && (t.Finished? && t.outcome.SpawnFailed? ==> r == Err("Failed to execute command: " + t.outcome.error))
      && (t.Finished? && t.outcome.Exited? && !ExitedOk(t.outcome) ==>
            r == Err("Command failed: " + t.outcome.stderr))
  {
    match run(command, args)
    case Finished(Exited(code, stdout, stderr)) =>
      if code == Some(0) then Ok(stdout) else Err("Command failed: " + stderr)
    case Finished(SpawnFailed(e)) => Err("Failed to execute command: " + e)
    case TimedOut => Err("Command timed out")
  }

  /** Both versions succeed on the same runs, and the trimming one answers the
      other's output with surrounding whitespace removed. */
  lemma {:induction false} SafeExecVersionsAgree(command: string, args: seq<string>, run: TimedRunner)
    ensures SafeExec(command, args, run).Ok? == SafeExecUntrimmed(command, args, run).Ok?
    ensures SafeExec(command, args, run).Ok? ==>
      SafeExec(command, args, run).value == Trim(SafeExecUntrimmed(command, args, run).value)
  {
  }

  /** The result of the `list_directory` tool: the crate's output record
      (a success flag and a message) and the command it ran, if any. */
  datatype ListDirRun = ListDirRun(success: bool, message: string, ran: Option<(string, seq<string>)>)

  /** The path filter of `list_directory`. */
  predicate PathAllowed(path: string) {
    !Contains(path, "..") && !Contains(path, ";")
  }

  /** `ListDirTool::execute`: decode `{ path }`, refuse a path holding ".." or
      ";" without running anything, else list it with `ls`. */
  function ListDirExecute(args: Value, run: TimedRunner): (r: ListDirRun)
    ensures r.ran.Some? <==>
      FromValueSingleString(args, "path", "LsArgs").Ok? && PathAllowed(FromValueSingleString(args, "path", "LsArgs").value)
    ensures r.ran.Some? ==> r.ran.value == ("ls", [FromValueSingleString(args, "path", "LsArgs").value])
    ensures r.success <==> r.ran.Some? && SafeExecUntrimmed(r.ran.value.0, r.ran.value.1, run).Ok?
    ensures FromValueSingleString(args, "path", "LsArgs").Err? ==>
      !r.success && StartsWith(r.message, "Invalid arguments: ")
    ensures FromValueSingleString(args, "path", "LsArgs").Ok? && !PathAllowed(FromValueSingleString(args, "path", "LsArgs").value) ==>
      r == ListDirRun(false, "Path traversal is not allowed.", None)
    ensures r.ran.Some? ==>
      var outcome := SafeExecUntrimmed(r.ran.value.0, r.ran.value.1, run);
      && (outcome.Ok? ==> r.message == outcome.value)
      && (outcome.Err? ==> r.message == outcome.error)
  {
    match FromValueSingleString(args, "path", "LsArgs")
    case Err(e) => ListDirRun(false, "Invalid arguments: " + SerdeMessage(e), None)
    case Ok(path) =>
      if Contains(path, "..") || Contains(path, ";") then ListDirRun(false, "Path traversal is not allowed.", None)
      else
        match SafeExecUntrimmed("ls", [path], run)
        case Ok(output) => ListDirRun(true, output, Some(("ls", [path])))
        case Err(e) => ListDirRun(false, e, Some(("ls", [path])))
  }

  /** An allowed path sent as `{"path": ...}` is listed with `ls`, and the
      tool reports exactly what `safe_exec` reports. */
  lemma {:induction false} ListDirListsAllowed(path: string, run: TimedRunner)
    requires PathAllowed(path)
    ensures var r := ListDirExecute(Object(map["path" := Str(path)]), run);
      var o := SafeExecUntrimmed("ls", [path], run);
      && r.ran == Some(("ls", [path]))
      && r.success == o.Ok?
      && r.message == (if o.Ok? then o.value else o.error)
  {
    var args := Object(map["path" := Str(path)]);
    assert FromValueSingleString(args, "path", "LsArgs") == Ok(path);
  }

  /** A path that climbs with ".." is never listed, whatever the runner does. */
  lemma {:induction false} ListDirRefusesParent(run: TimedRunner)
    ensures ListDirExecute(Object(map["path" := Str("../etc")]), run) == ListDirRun(false, "Path traversal is not allowed.", None)
  {
    assert OccursAt("../etc", "..", 0);
  }

  /** `get_command_alias` of the tool-using crate. */
  function CommandAlias(name: string): (r: Option<string>)
    ensures r.Some? <==> name == "list" || name == "disk"
    ensures name == "list" ==> r == Some("ls")
    ensures name == "disk" ==> r == Some("df")
  {
    match name
    case "list" => Some("ls")
    case "disk" => Some("df")
    case _ => None
  }

  /** `get_command_alias_linux` of the system-level-commands crate. */
  function CommandAliasLinux(name: string): (r: Option<string>)
    ensures r.Some? <==> name == "list" || name == "disk" || name == "memory"
    ensures name == "memory" ==> r == Some("free")
  {
    match name
    case "list" => Some("ls")
    case "disk" => Some("df")
    case "memory" => Some("free")
    case _ => None
  }

  /** The second table extends the first by "memory" alone. */
  lemma {:induction false} AliasTablesAgree(name: string)
    ensures CommandAlias(name).Some? ==> CommandAliasLinux(name) == CommandAlias(name)
    ensures CommandAliasLinux(name).Some? && CommandAlias(name).None? <==> name == "memory"
  {
  }
}

=== FILE: task_exec.dfy ===
/** The task executor of the core architecture: three kinds of invocation
    (a shell command, an HTTP POST, an internal operation), the `ToolAgent`
    that runs `echo` through an executor, and `retry_http`.

    The operating system and the network are parameters: `Env` says what
    spawning a process and sending a request return.
 */
module TaskExec {
  import opened Base
  import opened Text
  import Agents
  import opened Process
  import SystemCommands

  datatype Invocation =
    | ShellCommand(command: string, args: seq<string>)
    | HttpRequest(url: string, payload: string)
    | Internal(operation: string)

  datatype TaskStatus = Success | Failed(reason: string) | Skipped

  datatype TaskResult = TaskResult(output: Option<string>, status: TaskStatus)

  /** What sending a request gives: the status code, its canonical reason
      phrase if the code has one, and the body or the error reading it; or the
      error that kept the request from completing. */
  datatype HttpOutcome =
    | Responded(code: int, reason: Option<string>, body: Result<string, string>)
    | SendFailed(error: string)

  datatype Env = Env(run: Runner, post: (string, string) -> HttpOutcome)

  /** `StatusCode::is_success`: 200 to 299. */
  predicate IsSuccessCode(code: int) {
    200 <= code <= 299
  }

  /** `Display` of a status code: the number and its reason phrase. */
  function StatusText(code: int, reason: Option<string>): string {
    IntToString(code) + " " + reason.GetOr("<unknown status code>")
  }

  /** `DefaultExecutor::execute`. */
  function Execute(invocation: Invocation, env: Env): (r: TaskResult)
    ensures r.status.Success? ==> r.output.Some?
    ensures r.status.Skipped? == false
    ensures invocation.ShellCommand? ==>
      var p := env.run(invocation.command, invocation.args);
      && (r.status.Success? <==> ExitedOk(p))
      && (ExitedOk(p) ==> r.output == Some(p.stdout))
      && (p.Exited? && !ExitedOk(p) ==> r == TaskResult(Some(p.stderr), Failed("Command failed")))
      && (p.SpawnFailed? ==> r == TaskResult(None, Failed("Execution failed: " + p.error)))
    ensures invocation.HttpRequest? ==>
      var h := env.post(invocation.url, invocation.payload);
      && (r.status.Success? <==> h.Responded? && IsSuccessCode(h.code) && h.body.Ok?)
      && (r.status.Success? ==> r.output == Some(h.body.value))
      && (!r.status.Success? ==> r.output == None)
      && (h.Responded? && !IsSuccessCode(h.code) ==>
            r.status == Failed("HTTP error: " + StatusText(h.code, h.reason)))
      && (h.Responded? && IsSuccessCode(h.code) && h.body.Err? ==>
            r.status == Failed("Read body failed: " + h.body.error))
      && (h.SendFailed? ==> r.status == Failed("Request failed: " + h.error))
    ensures invocation.Internal? ==>
      r == (if invocation.operation == "ping" then TaskResult(Some("[png"), Success)
            else TaskResult(None, Failed("Unknown internal operation")))
  {
    match invocation
    case ShellCommand(command, args) =>
      (match env.run(command, args)
       case Exited(code, stdout, stderr) =>
         if code == Some(0) then TaskResult(Some(stdout), Success)
         else TaskResult(Some(stderr), Failed("Command failed"))
       case SpawnFailed(e) => TaskResult(None, Failed("Execution failed: " + e)))
    case HttpRequest(url, payload) =>
      (match env.post(url, payload)
       case Responded(code, reason, body) =>
         if IsSuccessCode(code) then
           (match body
            case Ok(text) => TaskResult(Some(text), Success)
            case Err(e) => TaskResult(None, Failed("Read body failed: " + e)))
         else TaskResult(None, Failed("HTTP error: " + StatusText(code, reason)))
       case SendFailed(e) => TaskResult(None, Failed("Request failed: " + e)))
    case Internal(operation) =>
      var result := if operation == "ping" then Some("[png") else None;
      match result
      case Some(value) => TaskResult(Some(value), Success)
      case None => TaskResult(None, Failed("Unknown internal operation"))
  }

  /** The executor's shell arm and `safe_exec` decide alike: on a run that
      finishes, both succeed exactly when the process exits with code 0, and
      `safe_exec` answers the executor's output trimmed. */
  lemma {:induction false} ExecuteAgreesWithSafeExec(command: string, args: seq<string>, env: Env, timed: TimedRunner)
    requires timed(command, args) == Finished(env.run(command, args))
    ensures var t := Execute(ShellCommand(command, args), env);
      var s := SystemCommands.SafeExec(command, args, timed);
      && (t.status.Success? <==> s.Ok?)
      && (s.Ok? ==> s.value == Trim(t.output.value))
  {
  }

  /** `ToolAgent::handle_input`: run `echo <message>` and turn the task status
      into an agent status. */
  function ToolAgentHandle(executor: Invocation -> TaskResult, input: Agents.AgentInput): (r: Agents.AgentResult)
    ensures var t := executor(ShellCommand("echo", [input.message]));
      && (t.status.Success? ==> r == Agents.AgentResult(t.output.GetOr(""), Agents.Success))
      && (t.status.Failed? ==> r == Agents.AgentResult("Error: " + t.status.reason, Agents.Error(t.status.reason)))
      && (t.status.Skipped? ==> r == Agents.AgentResult("Task skipped", Agents.InProgress))
  {
    var t := executor(ShellCommand("echo", [input.message]));
    match t.status
    case Success => Agents.AgentResult(t.output.GetOr(""), Agents.Success)
    case Failed(e) => Agents.AgentResult("Error: " + e, Agents.Error(e))
    case Skipped => Agents.AgentResult("Task skipped", Agents.InProgress)
  }

  /** With the default executor the tool agent never reports "in progress", and
      it succeeds exactly when `echo` exits with code 0, answering its output. */
  lemma {:induction false} ToolAgentWithDefault(env: Env, input: Agents.AgentInput)
    ensures var r := ToolAgentHandle(i => Execute(i, env), input);
      var p := env.run("echo", [input.message]);
      && !r.status.InProgress?
      && (r.status.Success? <==> ExitedOk(p))
      && (ExitedOk(p) ==> r.output == p.stdout)
  {
  }

  /** `retry_http`: call the executor until it does not fail, retrying a failure
      at most three times and sleeping 1, 2, then 3 seconds between calls. The
      executor's `k`-th call is `execute(invocation, k)`; `calls` is how many
      calls were made and `sleeps` the seconds slept. */
  method RetryHttp(invocation: Invocation, execute: (Invocation, nat) -> TaskResult)
    returns (r: TaskResult, calls: nat, sleeps: seq<nat>)
    ensures 1 <= calls <= 4
    ensures r == execute(invocation, calls - 1)
    ensures forall k :: 0 <= k < calls - 1 ==> execute(invocation, k).status.Failed?
    ensures calls < 4 ==> !r.status.Failed?
    ensures |sleeps| == calls - 1
    ensures forall k :: 0 <= k < |sleeps| ==> sleeps[k] == k + 1
  {
    var attempts: nat := 0;
    sleeps := [];
    while true
      invariant attempts <= 3
      invariant |sleeps| == attempts
      invariant forall k :: 0 <= k < attempts ==> sleeps[k] == k + 1
      invariant forall k :: 0 <= k < attempts ==> execute(invocation, k).status.Failed?
      decreases 3 - attempts
    {
      var result := execute(invocation, attempts);
      if result.status.Failed? && attempts < 3 {
        attempts := attempts + 1;
        sleeps := sleeps + [attempts];
      } else {
        r, calls := result, attempts + 1;
        return;
      }
    }
  }
}

=== FILE: text.dfy ===
/** String helpers standing in for the parts of Rust's `str` and `char` API that
    the modelled code relies on: `contains`, `find`, `split`, `lines`, `join`,
    `trim`, ASCII case folding, decimal rendering and UTF-8 byte length.

    Strings are `seq<char>`; a `char` is a Unicode scalar value, as in Rust.
 */
module Text {
  import opened Base

  predicate StartsWith(s: string, prefix: string) {
    |prefix| <= |s| && s[..|prefix|] == prefix
  }

  predicate EndsWith(s: string, suffix: string) {
    |suffix| <= |s| && s[|s| - |suffix|..] == suffix
  }

  /** `sub` occurs in `s` at index `i`. */
  predicate OccursAt(s: string, sub: string, i: int) {
    0 <= i && i + |sub| <= |s| && s[i..i + |sub|] == sub
  }

  lemma {:induction false} OccursAtShift(s: string, sub: string, i: int)
    requires |s| > 0 && 0 <= i
    ensures OccursAt(s[1..], sub, i) <==> OccursAt(s, sub, i + 1)
  {
    if 0 <= i && i + |sub| <= |s| - 1 {
      assert s[1..][i..i + |sub|] == s[i + 1..i + 1 + |sub|];
    }
  }

  /** Index of the first occurrence of `sub` in `s` (Rust's `str::find`). */
  function FindFirst(s: string, sub: string): (r: Option<nat>)
    ensures r.Some? ==> OccursAt(s, sub, r.value)
    ensures r.Some? ==> forall j :: 0 <= j < r.value ==> !OccursAt(s, sub, j)
    ensures r.None? ==> forall j :: !OccursAt(s, sub, j)
    decreases |s|
  {
    if StartsWith(s, sub) then Some(0)
    else if |s| == 0 then None
    else
      var rest := FindFirst(s[1..], sub);
      assert forall j :: 0 <= j ==> (OccursAt(s[1..], sub, j) <==> OccursAt(s, sub, j + 1)) by {
        forall j | 0 <= j ensures OccursAt(s[1..], sub, j) <==> OccursAt(s, sub, j + 1) {
          OccursAtShift(s, sub, j);
        }
      }
      assert forall j :: OccursAt(s, sub, j) ==> j == 0 || OccursAt(s[1..], sub, j - 1) by {
        forall j | OccursAt(s, sub, j) && j != 0 ensures OccursAt(s[1..], sub, j - 1) {
          OccursAtShift(s, sub, j - 1);
        }
      }
      match rest
      case Some(i) => Some(i + 1)
      case None => None
  }

  /** Rust's `str::contains` with a string pattern. */
  function Contains(s: string, sub: string): (b: bool)
    ensures b <==> exists i :: OccursAt(s, sub, i)
  {
    FindFirst(s, sub).Some?
  }

  /** Number of occurrences of the character `c` in `s`. */
  function CountChar(s: string, c: char): nat {
    if |s| == 0 then 0 else (if s[0] == c then 1 else 0) + CountChar(s[1..], c)
  }

  /** `parts` glued together with `sep` between neighbours (Rust's `join`). */
  function Join(parts: seq<string>, sep: string): string {
    if |parts| == 0 then ""
    else if |parts| == 1 then parts[0]
    else parts[0] + sep + Join(parts[1..], sep)
  }

  /** Rust's `str::split` on a single-character pattern: the pieces between
      the separators, including the empty ones at either end. */
  function Split(s: string, sep: char): (parts: seq<string>)
    ensures |parts| == CountChar(s, sep) + 1
    ensures forall k :: 0 <= k < |parts| ==> sep !in parts[k]
    ensures Join(parts, [sep]) == s
    decreases |s|
  {
    if |s| == 0 then [""]
    else
      var rest := Split(s[1..], sep);
      if s[0] == sep then
        assert s == [sep] + s[1..];
        [""] + rest
      else
        var parts := [[s[0]] + rest[0]] + rest[1..];
        assert parts[1..] == rest[1..];
        assert s == [s[0]] + s[1..];
        parts
  }

  /** Splitting after a separator-free first piece. */
  lemma {:induction false} SplitCons(first: string, sep: char, rest: string)
    requires sep !in first
    ensures Split(first + [sep] + rest, sep) == [first] + Split(rest, sep)
    decreases |first|
  {
    var s := first + [sep] + rest;
    if |first| == 0 {
      assert s == [sep] + rest;
      assert s[1..] == rest;
    } else {
      assert s[1..] == first[1..] + [sep] + rest;
      SplitCons(first[1..], sep, rest);
      assert [first[0]] + first[1..] == first;
    }
  }

  /** Separator-free pieces joined with the separator split back into
      themselves: `split` inverts `join`. */
  lemma {:induction false} SplitJoin(parts: seq<string>, sep: char)
    requires |parts| > 0
    requires forall k :: 0 <= k < |parts| ==> sep !in parts[k]
    ensures Split(Join(parts, [sep]), sep) == parts
    decreases |parts|
  {
    if |parts| == 1 {
      SplitAlone(parts[0], sep);
    } else {
      SplitJoin(parts[1..], sep);
      SplitCons(parts[0], sep, Join(parts[1..], [sep]));
      assert parts == [parts[0]] + parts[1..];
    }
  }

  /** `from` does not occur in `piece + from` before the appended copy: the
      copy is the leftmost occurrence. */
  predicate NoEarlierMatch(piece: string, from: string) {
    forall j :: 0 <= j < |piece| ==> !OccursAt(piece + from, from, j)
  }

  /** `p` is `s` cut at the leftmost, non-overlapping occurrences of `from`,
      scanning left to right: the pieces joined with `from` give `s`, each
      separator is the first occurrence after its piece begins, and the last
      piece holds none. */
  predicate LeftmostPieces(s: string, from: string, p: seq<string>) {
    && |p| > 0
    && Join(p, from) == s
    && (forall k :: 0 <= k < |p| - 1 ==> NoEarlierMatch(p[k], from))
    && !Contains(p[|p| - 1], from)
  }

  /** Below an occurrence at `i`, `s` and `s[..i] + sub` have the same
      occurrences. */
  lemma {:induction false} OccursBefore(s: string, sub: string, i: nat, j: nat)
    requires OccursAt(s, sub, i) && j < i
    ensures OccursAt(s[..i] + sub, sub, j) <==> OccursAt(s, sub, j)
  {
    var t := s[..i + |sub|];
    assert t == s[..i] + sub;
    assert t[j..j + |sub|] == s[j..j + |sub|];
  }

  /** Rust's `str::split` on a non-empty string pattern. */
  function SplitStr(s: string, from: string): (p: seq<string>)
    requires |from| > 0
    ensures LeftmostPieces(s, from, p)
    decreases |s|
  {
    match FindFirst(s, from)
    case None => [s]
    case Some(i) =>
      var rest := SplitStr(s[i + |from|..], from);
      PiecesCons(s, from, i, rest);
      [s[..i]] + rest
  }

  /** Cutting at the first occurrence, then cutting what follows. */
  lemma {:induction false} PiecesCons(s: string, from: string, i: nat, rest: seq<string>)
    requires |from| > 0 && FindFirst(s, from) == Some(i)
    requires LeftmostPieces(s[i + |from|..], from, rest)
    ensures LeftmostPieces(s, from, [s[..i]] + rest)
  {
    var p := [s[..i]] + rest;
    forall j | 0 <= j < i ensures !OccursAt(s[..i] + from, from, j) {
      OccursBefore(s, from, i, j);
    }
    assert p[1..] == rest;
    JoinCons(s[..i], rest, from);
    assert s[i..i + |from|] == from;
    assert s == s[..i] + from + s[i + |from|..];
    assert forall k :: 1 <= k < |p| ==> p[k] == rest[k - 1];
  }

  /** Pieces and a separator without `c` join into a text without `c`. */
  lemma {:induction false} JoinKeepsOut(parts: seq<string>, sep: string, c: char)
    requires forall k :: 0 <= k < |parts| ==> c !in parts[k]
    requires c !in sep
    ensures c !in Join(parts, sep)
    decreases |parts|
  {
    if |parts| > 1 {
      JoinKeepsOut(parts[1..], sep, c);
    }
  }

  /** The total length of `parts`. */
  function SumLengths(parts: seq<string>): nat {
    if |parts| == 0 then 0 else |parts[0]| + SumLengths(parts[1..])
  }

  /** Joining adds one separator between each pair of neighbours. */
  lemma {:induction false} JoinLength(parts: seq<string>, sep: string)
    requires |parts| > 0
    ensures |Join(parts, sep)| == SumLengths(parts) + (|parts| - 1) * |sep|
    decreases |parts|
  {
    if |parts| > 1 {
      JoinLength(parts[1..], sep);
      assert (|parts| - 1) * |sep| == (|parts| - 2) * |sep| + |sep|;
    }
  }

  /** Splitting at `sep` and joining with `to` changes the length by
      `|to| - 1` per separator. */
  lemma {:induction false} JoinSplitLength(s: string, sep: char, to: string)
    ensures |Join(Split(s, sep), to)| == |s| + CountChar(s, sep) * (|to| - 1)
  {
    var parts := Split(s, sep);
    var n := CountChar(s, sep);
    JoinLength(parts, [sep]);
    JoinLength(parts, to);
    assert |s| == SumLengths(parts) + n;
    assert n * |to| == n * (|to| - 1) + n;
  }

  /** A separator-free text is one piece. */
  lemma {:induction false} SplitAlone(s: string, sep: char)
    requires sep !in s
    ensures Split(s, sep) == [s]
    decreases |s|
  {
    if |s| > 0 {
      SplitAlone(s[1..], sep);
      assert [s[0]] + s[1..] == s;
    }
  }

  /** A line terminated by "\r\n" loses its '\r'. */
  function StripCR(line: string): string {
    if |line| > 0 && line[|line| - 1] == '\r' then line[..|line| - 1] else line
  }

  /** Rust's `str::lines`: split at each '\n'; a '\r' right before a '\n' is
      dropped with it; a final line terminator does not start an empty line. */
  function Lines(s: string): (ls: seq<string>)
    ensures |s| > 0 ==> |ls| > 0
    ensures forall k :: 0 <= k < |ls| ==> '\n' !in ls[k]
    decreases |s|, 1
  {
    if |s| == 0 then []
    else
      match FindFirst(s, "\n")
      case None =>
        assert forall k :: 0 <= k < |s| ==> s[k] != '\n' by {
          forall k | 0 <= k < |s| ensures s[k] != '\n' {
            assert !OccursAt(s, "\n", k);
          }
        }
        [s]
      case Some(i) =>
        assert forall k :: 0 <= k < i ==> s[k] != '\n' by {
          forall k | 0 <= k < i ensures s[k] != '\n' {
            assert !OccursAt(s, "\n", k);
          }
        }
        LinesAfter(s, i)
  }

  /** The line ending at the first '\n', at `i`, then the lines after it. */
  function LinesAfter(s: string, i: nat): (ls: seq<string>)
    requires i < |s| && s[i] == '\n'
    requires forall k :: 0 <= k < i ==> s[k] != '\n'
    ensures |ls| > 0
    ensures forall k :: 0 <= k < |ls| ==> '\n' !in ls[k]
    decreases |s|, 0
  {
    [StripCR(s[..i])] + Lines(s[i + 1..])
  }

  /** Without carriage returns and without a final line terminator, joining
      the lines back with "\n" gives the original text. */
  lemma {:induction false} JoinLines(s: string)
    requires '\r' !in s
    requires !EndsWith(s, "\n")
    ensures Join(Lines(s), "\n") == s
    decreases |s|
  {
    if |s| > 0 {
      match FindFirst(s, "\n")
      case None =>
      case Some(i) =>
        var first, rest := s[..i], s[i + 1..];
        assert s[i..i + 1] == "\n";
        assert s == first + "\n" + rest;
        assert rest[|rest| - 1..] == s[|s| - 1..];
        assert '\r' !in first && '\r' !in rest;
        forall k | 0 <= k < i ensures first[k] != '\n' {
          assert !OccursAt(s, "\n", k);
        }
        LinesCons(first, rest);
        JoinLines(rest);
        JoinCons(first, Lines(rest), "\n");
    }
  }

  /** Joining a first part in front of at least one more. */
  lemma {:induction false} JoinCons(first: string, rest: seq<string>, sep: string)
    requires |rest| > 0
    ensures Join([first] + rest, sep) == first + sep + Join(rest, sep)
  {
    assert ([first] + rest)[1..] == rest;
  }

  /** `lines` of a text whose first line holds no line break. */
  lemma {:induction false} LinesCons(first: string, rest: string)
    requires '\n' !in first
    ensures Lines(first + "\n" + rest) == [StripCR(first)] + Lines(rest)
  {
    var s := first + "\n" + rest;
    assert OccursAt(s, "\n", |first|) by {
      assert s[|first|..|first| + 1] == "\n";
    }
    forall j | 0 <= j < |first| ensures !OccursAt(s, "\n", j) {
      assert s[j] == first[j];
    }
    assert s[..|first|] == first;
    assert s[|first| + 1..] == rest;
  }

  /** A text without line break is one line. */
  lemma {:induction false} LinesOne(s: string)
    requires |s| > 0 && '\n' !in s
    ensures Lines(s) == [s]
  {
    forall j | 0 <= j ensures !OccursAt(s, "\n", j) {
      if j + 1 <= |s| {
        assert s[j..j + 1][0] == s[j];
      }
    }
  }

  /** Lines without line breaks or carriage returns, joined with "\n", split
      back into the same lines (the last one must not be empty, as `lines`
      drops an empty final line). */
  lemma {:induction false} LinesOfJoin(ls: seq<string>)
    requires |ls| > 0 && |ls[|ls| - 1]| > 0
    requires forall k :: 0 <= k < |ls| ==> '\n' !in ls[k] && '\r' !in ls[k]
    ensures Lines(Join(ls, "\n")) == ls
    decreases |ls|
  {
    if |ls| == 1 {
      LinesOne(ls[0]);
    } else {
      var rest := Join(ls[1..], "\n");
      assert Join(ls, "\n") == ls[0] + "\n" + rest;
      LinesCons(ls[0], rest);
      LinesOfJoin(ls[1..]);
      assert StripCR(ls[0]) == ls[0];
      assert ls == [ls[0]] + ls[1..];
    }
  }

  /** Four pieces joined with `sep`. */
  lemma {:induction false} JoinFour(a: string, b: string, c: string, d: string, sep: string)
    ensures Join([a, b, c, d], sep) == a + sep + b + sep + c + sep + d
  {
    var ls := [a, b, c, d];
    assert ls[1..][1..][1..] == [d];
    assert Join(ls[1..][1..], sep) == c + sep + d;
    assert Join(ls[1..], sep) == b + sep + (c + sep + d);
  }

  predicate IsAsciiDigit(c: char) { '0' <= c <= '9' }

  predicate IsAsciiAlphabetic(c: char) { 'a' <= c <= 'z' || 'A' <= c <= 'Z' }

  /** Rust's `char::to_ascii_lowercase`. */
  function LowerChar(c: char): char {
    if 'A' <= c <= 'Z' then (c as int + 32) as char else c
  }

  /** Lower-case every ASCII letter and keep every other character. */
  function ToLower(s: string): (r: string)
    ensures |r| == |s|
    ensures forall k :: 0 <= k < |s| ==> r[k] == LowerChar(s[k])
  {
    seq(|s|, k requires 0 <= k < |s| => LowerChar(s[k]))
  }

  /** Rust's `eq_ignore_ascii_case`. */
  predicate EqIgnoreAsciiCase(a: string, b: string) {
    ToLower(a) == ToLower(b)
  }

  /** Rust's `char::is_whitespace`: the Unicode White_Space property. */
  predicate IsWhitespace(c: char) {
    || '\t' <= c <= '\r'
    || c == ' '
    || c == '\U{0085}'
    || c == '\U{00A0}'
    || c == '\U{1680}'
    || '\U{2000}' <= c <= '\U{200A}'
    || c == '\U{2028}'
    || c == '\U{2029}'
    || c == '\U{202F}'
    || c == '\U{205F}'
    || c == '\U{3000}'
  }

  function TrimStart(s: string): (r: string)
    ensures |r| <= |s| && r == s[|s| - |r|..]
    ensures forall k :: 0 <= k < |s| - |r| ==> IsWhitespace(s[k])
    ensures |r| > 0 ==> !IsWhitespace(r[0])
    decreases |s|
  {
    if |s| > 0 && IsWhitespace(s[0]) then TrimStart(s[1..]) else s
  }

  function TrimEnd(s: string): (r: string)
    ensures |r| <= |s| && r == s[..|r|]
    ensures forall k :: |r| <= k < |s| ==> IsWhitespace(s[k])
    ensures |r| > 0 ==> !IsWhitespace(r[|r| - 1])
    decreases |s|
  {
    if |s| > 0 && IsWhitespace(s[|s| - 1]) then TrimEnd(s[..|s| - 1]) else s
  }

  /** Rust's `str::trim`. */
  function Trim(s: string): string {
    TrimEnd(TrimStart(s))
  }

  function DigitChar(d: nat): (c: char)
    requires d < 10
    ensures IsAsciiDigit(c)
  {
    ('0' as int + d) as char
  }

  /** The value of a string of decimal digits. */
  function DigitsValue(s: string): nat
    requires forall k :: 0 <= k < |s| ==> IsAsciiDigit(s[k])
  {
    if |s| == 0 then 0
    else
      assert IsAsciiDigit(s[|s| - 1]);
      DigitsValue(s[..|s| - 1]) * 10 + (s[|s| - 1] as int - '0' as int)
  }

  /** Decimal rendering of a natural number, as Rust's `Display` writes it. */
  function NatToString(n: nat): (r: string)
    ensures |r| > 0 && forall k :: 0 <= k < |r| ==> IsAsciiDigit(r[k])
    ensures r[0] == '0' ==> n == 0
    ensures DigitsValue(r) == n
    decreases n
  {
    if n < 10 then [DigitChar(n)]
    else
      var r := NatToString(n / 10) + [DigitChar(n % 10)];
      assert r[..|r| - 1] == NatToString(n / 10);
      r
  }

  /** Decimal rendering of an integer, with a leading '-' when negative. */
  function IntToString(i: int): string {
    if i < 0 then "-" + NatToString(-i) else NatToString(i)
  }

  /** Number of bytes of the UTF-8 encoding of `c`. */
  function Utf8Width(c: char): nat {
    if c as int < 0x80 then 1
    else if c as int < 0x800 then 2
    else if c as int < 0x10000 then 3
    else 4
  }

  /** Rust's `str::len`: the UTF-8 byte length. */
  function Utf8Len(s: string): (n: nat)
    ensures |s| <= n <= 4 * |s|
    ensures (forall k :: 0 <= k < |s| ==> s[k] as int < 0x80) ==> n == |s|
  {
    if |s| == 0 then 0 else Utf8Width(s[0]) + Utf8Len(s[1..])
  }
}
